=== FILE: README.md ===
# Jackal robot-training game: a Dafny model of its gameplay scripts

Project Jackal is a Unity game that teaches the parts of a wheeled robot,
the Clearpath Jackal, through driving levels. This project models its
gameplay scripts as pure Dafny functions over immutable state and proves
what those scripts promise. There is one module per script, or per group
of scripts that share state:

- **Photo collection** (module 2): `PhotoStorage`, `PhotoSequence`,
  `PhotoState`, `PhotoUI`, `PhotoCollection`, `PhotoCards`, `PhotoCapture`
  and `PhotoInput`.
  - A long press takes a cropped screenshot, which becomes a draggable
    photo card.
  - Cards are saved as JSON records and PNG files under the persistent
    data path, and restored on the next start in their saved order.
  - The disk is a map from file name to file. JSON text is a datatype.
- **Main menu**:
  - `MenuController`: the panels, level descriptions, scene loading and
    controller navigation.
  - `ObjectInspector`: the component viewer with outlines, hidden parts
    and the clamped rotation.
  - `InspectMenu`: freezing and resetting the showcase robot.
  - `ResetPosition`: the out-of-bounds trigger.
  - `JackalMainMenu`: the robot circling the menu.
  - `JackalNoCamera`: the camera-less driving controller.
- **In-level**:
  - `PauseMenu`: pause and settings panels, and the time scale.
  - `CheckpointNavigation`: the NavMesh agent that follows checkpoints
    with wrap-around.
  - `PressurePlates`: the plate manager's group, level and final doors.
  - `LidarPickup`: picking up the LiDAR sensor.
  - Module 1 hazards: `OceanReset`, `BoostPanel` and `WindZone`.
  - `JackalDrive` and `JackalController`: grounding, driving, turbo and
    the wheel animation.
- `Common` holds the shared helpers. They cover Unity's null references
  as `Option`, vectors over exact reals, C# `int` wrap-around and truncating
  `%`, and `List.Remove`.

The model follows C# semantics wherever they matter:

- `List.Remove` deletes only the first occurrence.
- `Mathf.RoundToInt` rounds ties to even.
- `int` arithmetic wraps at 32 bits.
- `Vector3.Lerp` clamps its parameter.
- A positive float divided by zero is infinity.

Coroutines become explicit events that arrive when their wait is over:

- end of frame;
- effect finished;
- boost ended;
- cooldown ended.

Each per-frame `Update` is a function of the state and that frame's
input. A run of frames or events is a fold over such steps, and the
safety properties are proved over every run.

## Model

| member | source | states |
|---|---|---|
| PhotoStorage.FromCard | Assets/Imports/Module2/PhotoCollection/Scripts/PhotoData.cs:42-48 | The record built from a card carries the card's local position, start parent, position key and data key; the held object, rotation and description keep their defaults. |
| PhotoStorage.PhotoDataPathInjective | Assets/Imports/Module2/PhotoCollection/Scripts/PhotoData.cs:65-66 | Two photo indices share a data file name exactly when they are equal, so no save overwrites another photo's record. |
| PhotoStorage.GlobalIsNotPhotoDataPath | Assets/Imports/Module2/PhotoCollection/Scripts/PhotoData.cs:65-70 | The global record's file is never a per-photo file. |
| PhotoStorage.SpriteNamesDistinct | Assets/Imports/Module2/PhotoCollection/Scripts/PhotoController.cs:286 | A photo's PNG name never collides with a JSON record and differs for different indices. |
| PhotoStorage.ReadPhotoData | Assets/Imports/Module2/PhotoCollection/Scripts/PhotoData.cs:81-88 | A file holding the text `null` deserializes to no record. |
| PhotoStorage.ReadGlobalData | Assets/Imports/Module2/PhotoCollection/Scripts/PhotoData.cs:108-115 | A global file holding the text `null` deserializes to no record. |
| PhotoStorage.SavePhotoData | Assets/Imports/Module2/PhotoCollection/Scripts/PhotoData.cs:73-78 | Saving creates the photo's file and leaves every other file as it was. |
| PhotoStorage.LoadPhotoData | Assets/Imports/Module2/PhotoCollection/Scripts/PhotoData.cs:81-88 | Without a file for the index the load yields null. |
| PhotoStorage.DeleteFile | Assets/Imports/Module2/PhotoCollection/Scripts/PhotoController.cs:193-199 | After the call the path is gone; a missing path leaves the directory unchanged; no other file is touched. |
| PhotoStorage.DeletePhotoData | Assets/Imports/Module2/PhotoCollection/Scripts/PhotoData.cs:91-98 | The photo's record file is gone afterwards, nothing happens when it was missing, and no other file changes. |
| PhotoStorage.SaveGlobalData | Assets/Imports/Module2/PhotoCollection/Scripts/PhotoData.cs:101-105 | Saving creates the global file and leaves every other file as it was. |
| PhotoStorage.LoadGlobalData | Assets/Imports/Module2/PhotoCollection/Scripts/PhotoData.cs:108-115 | A missing global file, or one that reads as null, gives a fresh record: zero photos, empty order. |
| PhotoStorage.GlobalDataFrame | Assets/Imports/Module2/PhotoCollection/Scripts/PhotoData.cs:108-115 | The loaded global record depends only on the global file. |
| PhotoStorage.SaveThenLoadPhotoData | Assets/Imports/Module2/PhotoCollection/Scripts/PhotoData.cs:73-88 | Round trip: a saved photo record loads back as itself. |
| PhotoStorage.SavePhotoDataFrame | Assets/Imports/Module2/PhotoCollection/Scripts/PhotoData.cs:73-88 | Saving one photo's record changes neither another photo's record nor the global record. |
| PhotoStorage.DeleteThenLoadPhotoData | Assets/Imports/Module2/PhotoCollection/Scripts/PhotoData.cs:81-98 | After a delete the record loads as null; other records and the global record are unchanged. |
| PhotoStorage.SaveThenLoadGlobalData | Assets/Imports/Module2/PhotoCollection/Scripts/PhotoData.cs:101-115 | Round trip: the saved global record loads back as itself, and no photo record changes. |
| PhotoSequence.Dedup | Assets/Imports/Module2/PhotoCollection/Scripts/PhotoController.cs:217-228 | The saved order has no repeats, holds exactly the listed cards' indices, and is no longer than the list. |
| PhotoSequence.DedupKeepsFirstOccurrenceOrder | Assets/Imports/Module2/PhotoCollection/Scripts/PhotoController.cs:220-228 | The saved order lists indices in the order of their first occurrence among the cards. |
| PhotoSequence.DedupOfNoDuplicates | Assets/Imports/Module2/PhotoCollection/Scripts/PhotoController.cs:220-228 | When no index repeats, the saved order is exactly the card order. |
| PhotoSequence.DedupIdempotent | Assets/Imports/Module2/PhotoCollection/Scripts/PhotoController.cs:215-233 | Saving the order of an already saved order changes nothing. |
| PhotoSequence.CollectSequence | Assets/Imports/Module2/PhotoCollection/Scripts/PhotoController.cs:217-228 | The loop with its set of seen indices computes the first-occurrence order of the indices. |
| PhotoState.ApplyUpdate | Assets/Imports/Module2/PhotoCollection/Scripts/PhotoPrefab.cs:110-117 | The per-card step of the three card loops. Re-enabling raycasts only affects cards with an image. Disabling also shrinks the card to the mini size. Returning to the holder reparents and shrinks it. The photo index never changes. |
| PhotoState.ApplyUpdateIdempotent | Assets/Imports/Module2/PhotoCollection/Scripts/PhotoPrefab.cs:110-117 | Applying the same per-card update twice is the same as applying it once. |
| PhotoState.UpdateCards | Assets/Imports/Module2/PhotoCollection/Scripts/PhotoUIManager.cs:122-128 | A loop over `allCards` updates exactly the listed cards, leaves unlisted ones as they were, and creates or destroys none. |
| PhotoUI.ResetCards | Assets/Imports/Module2/PhotoCollection/Scripts/PhotoUIManager.cs:122-128 | Every listed card with an image becomes a raycast target again; nothing else on any card changes. |
| PhotoUI.ResetPhotos | Assets/Imports/Module2/PhotoCollection/Scripts/PhotoUIManager.cs:120-131 | Capture becomes allowed and the click ends; the card loop is the only other change. |
| PhotoUI.CanPhotos | Assets/Imports/Module2/PhotoCollection/Scripts/PhotoUIManager.cs:150 | Capture becomes allowed and nothing else changes. |
| PhotoUI.CantPhotos | Assets/Imports/Module2/PhotoCollection/Scripts/PhotoUIManager.cs:153-157 | Capture becomes blocked and the current click ends. |
| PhotoUI.CantPhotos2 | Assets/Imports/Module2/PhotoCollection/Scripts/PhotoUIManager.cs:160-164 | Capture becomes blocked and the click is left running. |
| PhotoUI.SetSquare | Assets/Imports/Module2/PhotoCollection/Scripts/PhotoUIManager.cs:134-140 | The confirmation square restarts at the maximum scale and its shrink animation starts. |
| PhotoUI.HandleSquareMovement | Assets/Imports/Module2/PhotoCollection/Scripts/PhotoUIManager.cs:60-82 | With the animation off nothing changes. The square only shrinks and never below zero. The animation stops as soon as the scale reaches zero, which a step with deltaTime times scaleIndex of at least 1 always does. |
| PhotoUI.HandleSquareScaling | Assets/Imports/Module2/PhotoCollection/Scripts/PhotoUIManager.cs:85-117 | Outside the guard at line 89 (clicking, no card dragged, capture allowed) the square collapses to zero. Inside it the square grows while below the maximum and holds once there. |
| PhotoUI.SquareScaleBounded | Assets/Imports/Module2/PhotoCollection/Scripts/PhotoUIManager.cs:89-98 | The capture square's scale stays in [0, maxScale plus one frame's growth]. |
| PhotoUI.UpdatePhotoSquare | Assets/Imports/Module2/PhotoCollection/Scripts/PhotoUIManager.cs:53-57 | The capture square is zero unless the guard holds, and the capture permission is never touched. |
| PhotoCollection.SaveOrder | Assets/Imports/Module2/PhotoCollection/Scripts/PhotoController.cs:230-232 | The global record on disk gets the new order, keeps its photo count, and no other file changes. |
| PhotoCollection.SaveOrderKeepsRecords | Assets/Imports/Module2/PhotoCollection/Scripts/PhotoController.cs:230-232 | Saving the order leaves every photo record as it loads. |
| PhotoCollection.SavedSequenceCharacterized | Assets/Imports/Module2/PhotoCollection/Scripts/PhotoController.cs:215-233 | After `SaveCurrentSequence` the order on disk has no repeats. It contains exactly the indices of the listed cards, in first-occurrence order. |
| PhotoCollection.ShufflePositions | Assets/Imports/Module2/PhotoCollection/Scripts/PhotoController.cs:236-244 | Every listed card is reparented under the photo holder at the mini size; unlisted cards are untouched. |
| PhotoCollection.SizeLimit | Assets/Imports/Module2/PhotoCollection/Scripts/PhotoController.cs:162 | The byte limit is `maxSizeInMB * 1024 * 1024` in 32-bit arithmetic, exact for limits below 2048 MB. |
| PhotoCollection.LoadSpriteFromDisk | Assets/Imports/Module2/PhotoCollection/Scripts/PhotoController.cs:153-173 | A sprite loads exactly when the file exists and is no larger than the limit, whatever its bytes hold. A missing or oversized file gives null. |
| PhotoCollection.DefaultLimitIsInclusive | Assets/Imports/Module2/PhotoCollection/Scripts/PhotoController.cs:162 | With the default 10 MB, a file of exactly 10485760 bytes loads and one byte more does not. |
| PhotoCollection.Arrange | Assets/Imports/Module2/PhotoCollection/Scripts/PhotoController.cs:202-244 | `SortPhotos` then `ShufflePositions` keep the card list and the order, and remember that order. They lay every listed card out under the holder at the mini size. |
| PhotoCollection.ArrangeKeepsIndices | Assets/Imports/Module2/PhotoCollection/Scripts/PhotoController.cs:236-244 | Laying the cards out changes no listed card's photo index. |
| PhotoCollection.RemoveAndDestroy | Assets/Imports/Module2/PhotoCollection/Scripts/PhotoController.cs:183-184 | `List.Remove` drops the first occurrence of the card, and `Destroy` removes the object; a dragged reference to it becomes null. |
| PhotoCollection.RemoveAndDestroyValid | Assets/Imports/Module2/PhotoCollection/Scripts/PhotoController.cs:183-184 | Removal keeps the bookkeeping valid and the card is no longer listed. |
| PhotoCollection.RemoveCard | Assets/Imports/Module2/PhotoCollection/Scripts/PhotoController.cs:176-190 | The card leaves both the list and the live objects, and nothing is being dragged afterwards. |
| PhotoCollection.RemoveCardKeepsIndices | Assets/Imports/Module2/PhotoCollection/Scripts/PhotoController.cs:176-190 | Removing a card changes no other card's photo index and not the photo counter. |
| PhotoCollection.DeleteIt | Assets/Imports/Module2/PhotoCollection/Scripts/PhotoController.cs:176-190 | Capture ends up blocked and the click ended. The PNG is deleted, and the order of the remaining cards is saved. |
| PhotoCollection.DeleteItRemovesCard | Assets/Imports/Module2/PhotoCollection/Scripts/PhotoController.cs:176-190 | After `DeleteIt` the card is gone from list and scene and nothing is dragged. The saved order is that of the remaining cards. |
| PhotoCollection.DeleteItFiles | Assets/Imports/Module2/PhotoCollection/Scripts/PhotoController.cs:181-182 | `DeleteIt` removes the photo's PNG and leaves every JSON photo record alone. |
| PhotoCards.KeysDistinct | Assets/Imports/Module2/PhotoCollection/Scripts/PhotoPrefab.cs:46-50 | The position and data keys are different for different indices and never equal each other. |
| PhotoCards.Register | Assets/Imports/Module2/PhotoCollection/Scripts/PhotoPrefab.cs:74-80 | The card is listed afterwards, nothing else is added, the old list is a prefix, and a list without repeats keeps none. |
| PhotoCards.RegisterIdempotent | Assets/Imports/Module2/PhotoCollection/Scripts/PhotoPrefab.cs:74-80 | Registering twice is the same as registering once. |
| PhotoCards.LoadedStartParent | Assets/Imports/Module2/PhotoCollection/Scripts/PhotoPrefab.cs:53-71 | Whatever the saved record says, the start parent ends up "collection", because line 70 overwrites line 69. |
| PhotoCards.TheStart | Assets/Imports/Module2/PhotoCollection/Scripts/PhotoPrefab.cs:36-43 | The card gets its keys and the "collection" start parent. It is registered, shrunk to the mini size and disabled. No other card changes. |
| PhotoCards.ClickIt | Assets/Imports/Module2/PhotoCollection/Scripts/PhotoPrefab.cs:89-105 | Clicking a card with an image makes it the dragged card without adding or removing cards. A card without an image throws at the tint before anything changes. |
| PhotoCards.DisableOtherCards | Assets/Imports/Module2/PhotoCollection/Scripts/PhotoPrefab.cs:108-118 | Every listed card stops being a raycast target and shrinks to the mini size, including the clicked one. |
| PhotoCards.ClickItDisablesOthers | Assets/Imports/Module2/PhotoCollection/Scripts/PhotoPrefab.cs:89-118 | After a click on a card with an image, no listed card with an image takes raycasts and every other listed card is mini-sized. Unlisted cards are untouched either way. |
| PhotoCards.ClickItDraggedCard | Assets/Imports/Module2/PhotoCollection/Scripts/PhotoPrefab.cs:89-105 | A clicked card with an image is tinted half-transparent and hangs under the target square at the maximum size. It is enabled, and remembers where it was. Its index never changes. |
| PhotoCards.MoveIt | Assets/Imports/Module2/PhotoCollection/Scripts/PhotoPrefab.cs:134-138 | The dragged card moves to the pointer with z set to 0, and no other card moves. |
| PhotoCards.CardRecord | Assets/Imports/Module2/PhotoCollection/Scripts/PhotoPrefab.cs:150-153 | The saved record of a card is its position, start parent and keys. |
| PhotoCards.DropCard | Assets/Imports/Module2/PhotoCollection/Scripts/PhotoPrefab.cs:156-180 | Dropping a card with an image ends the drag and keeps the card list. Without an image the drop throws at the tint, leaving the card under the holder and still dragged. |
| PhotoCards.DropCardPlacesCard | Assets/Imports/Module2/PhotoCollection/Scripts/PhotoPrefab.cs:162-180 | A dropped card with an image is white, mini-sized and disabled. It ends under the photo holder if listed, under the UI root otherwise. A card without an image only moves under the UI root. |
| PhotoCards.DropCardKeepsIndices | Assets/Imports/Module2/PhotoCollection/Scripts/PhotoPrefab.cs:170-180 | Dropping changes no photo index and so not the saved order. |
| PhotoCards.LetItGo | Assets/Imports/Module2/PhotoCollection/Scripts/PhotoPrefab.cs:156-180 | The drop saves the card's record and then the current order. A card without an image throws before anything is saved, so the files are unchanged. |
| PhotoCards.LetItGoFiles | Assets/Imports/Module2/PhotoCollection/Scripts/PhotoPrefab.cs:170-180 | After a drop other records are unchanged. For a card with an image, its record loads as the card's data and the global record holds the current order. |
| PhotoCards.Unlist | Assets/Imports/Module2/PhotoCollection/Scripts/PhotoPrefab.cs:144 | Unlisting a card keeps the bookkeeping valid and removes it from the list. |
| PhotoCards.Delete | Assets/Imports/Module2/PhotoCollection/Scripts/PhotoPrefab.cs:141-147 | Deleting a card unlists it, deletes its record and then runs `DeleteIt`. |
| PhotoCards.DeleteRemovesCard | Assets/Imports/Module2/PhotoCollection/Scripts/PhotoPrefab.cs:141-147 | After a delete the card is gone and the list is the old one without it. Nothing is dragged and capture is blocked. |
| PhotoCards.DeleteFiles | Assets/Imports/Module2/PhotoCollection/Scripts/PhotoPrefab.cs:141-147 | After a delete the card's record and PNG are gone and other records are unchanged. The saved order is the remaining cards'. |
| PhotoCards.DeleteDropsIndexFromOrder | Assets/Imports/Module2/PhotoCollection/Scripts/PhotoPrefab.cs:141-147 | When no other card shares its index, the deleted photo's index is no longer in the saved order. |
| PhotoCapture.RoundToInt | Assets/Imports/Module2/PhotoCollection/Scripts/PhotoController.cs:272-273 | `Mathf.RoundToInt` lands within one half of its argument. |
| PhotoCapture.RoundToIntNearest | Assets/Imports/Module2/PhotoCollection/Scripts/PhotoController.cs:272-273 | Off a tie the result is the unique integer within a half; on a tie it is the even neighbour. |
| PhotoCapture.CropStart | Assets/Imports/Module2/PhotoCollection/Scripts/PhotoController.cs:275-276 | The crop lies inside the screen exactly when the crop fits on the screen. Away from the edges it is centred on the rounded pointer. |
| PhotoCapture.FullScreenCropFits | Assets/Imports/Module2/PhotoCollection/Scripts/PhotoController.cs:266-278 | With the camera as large as the screen, the pixel read succeeds exactly when the crop fits on the screen. |
| PhotoCapture.Instantiate | Assets/Imports/Module2/PhotoCollection/Scripts/PhotoController.cs:287-299 | The new card is a fresh object under the photo holder at the origin with the given index; no existing card changes. |
| PhotoCapture.AddPhoto | Assets/Imports/Module2/PhotoCollection/Scripts/PhotoController.cs:286-302 | A capture adds exactly one new card at the end of the list. The photo counter goes up by one with 32-bit wrap-around. |
| PhotoCapture.AddPhotoCard | Assets/Imports/Module2/PhotoCollection/Scripts/PhotoController.cs:287-299 | The new card carries the old counter as index. It gets that index's keys and the "collection" start parent, and sits at the mini size under the photo holder. |
| PhotoCapture.AddPhotoOrder | Assets/Imports/Module2/PhotoCollection/Scripts/PhotoController.cs:295-296 | The listed indices gain the new index at the end. The order gains it unless it was already there. |
| PhotoCapture.SaveCapture | Assets/Imports/Module2/PhotoCollection/Scripts/PhotoController.cs:302-307 | The global record gets the new count and order, and the PNG is written under the photo's name. |
| PhotoCapture.SaveCaptureKeepsRecords | Assets/Imports/Module2/PhotoCollection/Scripts/PhotoController.cs:302-307 | A capture rewrites no photo record. |
| PhotoCapture.MakeScreenshot | Assets/Imports/Module2/PhotoCollection/Scripts/PhotoController.cs:247-319 | A dragged card or blocked capture refuses the shot. A crop outside the camera image throws. Otherwise the card is added and the square restarts, input is forbidden, and count, order and PNG are saved. |
| PhotoCapture.TakePhoto | Assets/Imports/Module2/PhotoCollection/Scripts/PhotoController.cs:286-310 | A capture that goes ahead adds the card and keeps the bookkeeping valid, shows the square and forbids input. On disk the counter is the new count, the PNG is written and the order is the cards' order. |
| PhotoCapture.SortPhotos | Assets/Imports/Module2/PhotoCollection/Scripts/PhotoController.cs:202-205 | `SortPhotos` changes only the remembered order, to the current first-occurrence order. |
| PhotoCapture.CaptureDisk | Assets/Imports/Module2/PhotoCollection/Scripts/PhotoController.cs:302-309 | The disk after a capture holds the new count, the order with the new index, and the PNG. |
| PhotoCapture.AddPhotoListsIndex | Assets/Imports/Module2/PhotoCollection/Scripts/PhotoController.cs:295-296 | The new photo's index is in the order saved after a capture. |
| PhotoCapture.CaptureFiles | Assets/Imports/Module2/PhotoCollection/Scripts/PhotoController.cs:302-307 | After a capture the photo's PNG is on disk, and the stored count is the old counter plus one. |
| PhotoCapture.CaptureSavesOrder | Assets/Imports/Module2/PhotoCollection/Scripts/PhotoController.cs:309 | The captured photo's index is in the saved order. |
| PhotoCapture.Loadable | Assets/Imports/Module2/PhotoCollection/Scripts/PhotoController.cs:113-133 | The kept indices are saved ones whose sprite file loads, and there are no more of them than saved indices. |
| PhotoCapture.LoadableMembers | Assets/Imports/Module2/PhotoCollection/Scripts/PhotoController.cs:113-133 | An index survives the restart exactly when it is saved and its sprite file loads. |
| PhotoCapture.LoadableAll | Assets/Imports/Module2/PhotoCollection/Scripts/PhotoController.cs:113-133 | When every saved sprite file loads, the restart drops nothing. |
| PhotoCapture.AddListedCard | Assets/Imports/Module2/PhotoCollection/Scripts/PhotoController.cs:115-132 | One loaded photo appends one card with its index; existing cards are unchanged. |
| PhotoCapture.LoadCards | Assets/Imports/Module2/PhotoCollection/Scripts/PhotoController.cs:113-133 | Loading a run of indices appends exactly those indices to the card list. |
| PhotoCapture.StartCards | Assets/Imports/Module2/PhotoCollection/Scripts/PhotoController.cs:142-145 | Running `TheStart` on every listed card keeps the list, the objects and every photo index. |
| PhotoCapture.RestoreCards | Assets/Imports/Module2/PhotoCollection/Scripts/PhotoController.cs:110-141 | The restored cards are the saved order filtered to the PNGs that load. |
| PhotoCapture.Rebuild | Assets/Imports/Module2/PhotoCollection/Scripts/PhotoController.cs:99-148 | The rebuild marks the collection ready and takes the stored photo count. It lists the cards of the loadable saved indices in saved order. |
| PhotoCapture.Start | Assets/Imports/Module2/PhotoCollection/Scripts/PhotoController.cs:96-150 | Capture is allowed afterwards. A ready controller only reloads the count. Otherwise the collection is rebuilt and its order saved. |
| PhotoCapture.StartRestoresCollection | Assets/Imports/Module2/PhotoCollection/Scripts/PhotoController.cs:96-150 | From an empty list, restart lists the loadable saved photos in saved order. It re-saves that order with repeats dropped. |
| PhotoCapture.StartKeepsIntactOrder | Assets/Imports/Module2/PhotoCollection/Scripts/PhotoController.cs:96-150 | When the saved order has no repeats and every PNG loads, restart leaves the global record as it was. |
| PhotoCapture.CaptureSurvivesRestart | Assets/Imports/Module2/PhotoCollection/Scripts/PhotoController.cs:96-150 | A captured photo within the size limit comes back on the next restart. |
| PhotoInput.InitializeDeviceType | Assets/Imports/Module2/PhotoCollection/Scripts/InputController.cs:104-114 | The device is handheld exactly when the system reports "Handheld", and desktop otherwise. |
| PhotoInput.CheckForInteraction | Assets/Imports/Module2/PhotoCollection/Scripts/InputController.cs:143-148 | A press starts a click with a full timer and a zero special timer; the forbidden flag is unchanged. |
| PhotoInput.ProcessHeldInput | Assets/Imports/Module2/PhotoCollection/Scripts/InputController.cs:151-176 | A photo is taken only from a running click whose timer has run out, and then input becomes forbidden; otherwise the flag is unchanged. The capture is centred on the pointer stored in `lastVector`. |
| PhotoInput.HeldClickCountsDown | Assets/Imports/Module2/PhotoCollection/Scripts/InputController.cs:159-170 | A running click with time left only records the pointer and counts the timer down. |
| PhotoInput.ExpiredClickCaptures | Assets/Imports/Module2/PhotoCollection/Scripts/InputController.cs:159-166 | An expired click always ends. It takes a photo exactly when no card is dragged, capture is allowed and the crop centred on the held pointer fits; otherwise the capture throws. The photo taken is the capture at the held pointer. |
| PhotoInput.HeldPointerDecidesCrop | Assets/Imports/Module2/PhotoCollection/Scripts/InputController.cs:159-166 | The capture crops around the held pointer `inputPos` alone: any other pointer reading in the frame changes nothing. |
| PhotoInput.ResetInputState | Assets/Imports/Module2/PhotoCollection/Scripts/InputController.cs:179-184 | A release re-enables card raycasts and allows capture. It ends the click and clears the special timer and the forbidden flag. |
| PhotoInput.HandleMouseInput | Assets/Imports/Module2/PhotoCollection/Scripts/InputController.cs:63-101 | A photo is taken only in a held frame while input is not forbidden, and forbids input; only a release clears the flag. |
| PhotoInput.HandleMovingCard | Assets/Imports/Module2/PhotoCollection/Scripts/InputController.cs:123-140 | Without a dragged card or on a handheld nothing changes. On a desktop a release drops the card, unless the card has no image and the drop throws. |
| PhotoInput.Update | Assets/Imports/Module2/PhotoCollection/Scripts/InputController.cs:51-57 | The frame obeys the same capture and forbidden-flag rules as the mouse input, and keeps the device type. |
| PhotoInput.UpdateCountsDown | Assets/Imports/Module2/PhotoCollection/Scripts/InputController.cs:51-57 | A held frame during a running click takes no photo and only counts down. |
| PhotoInput.Step | Assets/Imports/Module2/PhotoCollection/Scripts/InputController.cs:51-57 | Only held frames take photos, and only releases clear the forbidden flag. |
| PhotoInput.ForbiddenUntilRelease | Assets/Imports/Module2/PhotoCollection/Scripts/InputController.cs:86-93 | After a photo no other is taken until the button is released. |
| PhotoInput.OnePhotoPerPress | Assets/Imports/Module2/PhotoCollection/Scripts/InputController.cs:86-101 | Between releases at most one photo is taken, however long the button is held. |
| PhotoInput.ShortPressTakesNoPhoto | Assets/Imports/Module2/PhotoCollection/Scripts/InputController.cs:159-170 | A press held for less than `longClickDuration` takes no photo. |
| CheckpointNavigation.NextIndex | Assets/Scripts/AI_Nav/CheckpointNavigationScript.cs:59-65 | The next index is the last one plus one, wrapped to 0 at the end of the list. `int.MaxValue` overflows to `int.MinValue`. |
| CheckpointNavigation.GetNextCheckpoint | Assets/Scripts/AI_Nav/CheckpointNavigationScript.cs:53-68 | No manager gives null. A returned target is the checkpoint at a valid index. An empty list makes the indexing throw. |
| CheckpointNavigation.NextIsCyclicSuccessor | Assets/Scripts/AI_Nav/CheckpointNavigationScript.cs:53-68 | For a last index in [-1, count-1] there is always a target, the cyclic successor. |
| CheckpointNavigation.WrapsIffAtEnd | Assets/Scripts/AI_Nav/CheckpointNavigationScript.cs:62-65 | The agent is sent back to the first checkpoint exactly when the last reached one is the final one or beyond. |
| CheckpointNavigation.NegativeIndexThrows | Assets/Scripts/AI_Nav/CheckpointNavigationScript.cs:59-67 | A last index below -1 indexes the list with a negative number, which throws. |
| CheckpointNavigation.Update | Assets/Scripts/AI_Nav/CheckpointNavigationScript.cs:28-46 | The destination changes only for an agent on the NavMesh with a next checkpoint, and then it is that checkpoint. |
| PressurePlates.AreAllGroupPlatesActivated | Assets/Scripts/Module2/PressurePlateManager.cs:94-102 | True exactly when every plate of the group is activated. |
| PressurePlates.AreAllGroupsActivated | Assets/Scripts/Module2/PressurePlateManager.cs:106-113 | True exactly when every group of the level is complete. |
| PressurePlates.AreAllLevelPlatesActivated | Assets/Scripts/Module2/PressurePlateManager.cs:104-115 | True exactly when every plate of every group of the level is activated. |
| PressurePlates.AreAllPlatesActivated | Assets/Scripts/Module2/PressurePlateManager.cs:117-131 | True exactly when every plate of every level is activated. |
| PressurePlates.EmptyGroupComplete | Assets/Scripts/Module2/PressurePlateManager.cs:94-102 | A group with no plates counts as complete. |
| PressurePlates.CompletionMonotone | Assets/Scripts/Module2/PressurePlateManager.cs:94-131 | Activating more plates never un-completes a group, a level or the whole set. |
| PressurePlates.AllImpliesEveryLevelAndGroup | Assets/Scripts/Module2/PressurePlateManager.cs:104-131 | When all plates are activated, every level and every group is complete. |
| PressurePlates.FindInGroups | Assets/Scripts/Module2/PressurePlateManager.cs:45-52 | The search returns the first group with the plate's group id from the given position, or none when no later group has it. |
| PressurePlates.FindGroup | Assets/Scripts/Module2/PressurePlateManager.cs:41-54 | The search returns the first group, in level order then group order, with the plate's level and group id, or reports none. |
| PressurePlates.AppendPlate | Assets/Scripts/Module2/PressurePlateManager.cs:49 | Only the chosen group gains the plate, at its end. Every other group and level is unchanged, as are the chosen level's doors and active objects. |
| PressurePlates.RegisterPlate | Assets/Scripts/Module2/PressurePlateManager.cs:39-55 | A plate joins only the first matching group; without one nothing changes. |
| PressurePlates.FirstMatchUnique | Assets/Scripts/Module2/PressurePlateManager.cs:41-54 | There is at most one first matching group, so registration is deterministic. |
| PressurePlates.RegisterTwiceKeepsBoth | Assets/Scripts/Module2/PressurePlateManager.cs:39-55 | Registering a plate twice lists it twice, because `List.Add` does not check membership. |
| PressurePlates.GroupEffects | Assets/Scripts/Module2/PressurePlateManager.cs:64-77 | A level's group loop only opens doors, exactly the existing intermediate doors of complete groups with the plate's id. |
| PressurePlates.ObjectEffects | Assets/Scripts/Module2/PressurePlateManager.cs:133-143 | `ActivateObjects` only enables objects, exactly the non-null ones listed. |
| PressurePlates.LevelEffects | Assets/Scripts/Module2/PressurePlateManager.cs:59-85 | Over the levels with the plate's number, a door opens exactly when its group is complete. An object is enabled exactly when its level is level 4 and complete. |
| PressurePlates.FinalDoorEffects | Assets/Scripts/Module2/PressurePlateManager.cs:145-155 | `OpenFinalDoor` only deactivates, exactly every level's non-null final door. |
| PressurePlates.ApplyEffects | Assets/Scripts/Module2/PressurePlateManager.cs:57-92 | Applying the `SetActive` calls in order: an object turns on only if enabled, turns off only if deactivated. Objects named by only one kind of call follow it. |
| PressurePlates.PlateActivated | Assets/Scripts/Module2/PressurePlateManager.cs:57-92 | The reaction changes only the scene. Anything it enables is an object of a complete level for this plate; anything it hides is a door. |
| PressurePlates.DoorOpensIff | Assets/Scripts/Module2/PressurePlateManager.cs:57-92 | With doors and objects distinct: after the call a door is hidden exactly when it already was, when its group is complete, or when all plates are activated and it is a final door. |
| PressurePlates.ObjectEnabledIff | Assets/Scripts/Module2/PressurePlateManager.cs:79-83 | An object is showing afterwards exactly when it already was, or when a level-4 plate completes its level. |
| PressurePlates.OpenDoorStaysOpen | Assets/Scripts/Module2/PressurePlateManager.cs:57-92 | A door that is not also a level object stays open after any later activation. |
| PressurePlates.Press | Assets/Scripts/Module2/PressurePlateManager.cs:57-92 | A plate's own activation, made in PressurePlate.cs before it calls this method: the plate latches on its first press and only then reports to the manager. A latched plate changes nothing. |
| PressurePlates.PressIdempotent | Assets/Scripts/Module2/PressurePlateManager.cs:57-92 | Pressing a plate a second time is a no-op, so the manager reacts at most once per plate. |
| ObjectInspector.EnableHighlight | Assets/Scripts/MainMenu/ObjectInspector.cs:283-293 | Switching a highlight turns on, or off, exactly that component's outline and leaves every other outline as it was. |
| ObjectInspector.CycleIndex | Assets/Scripts/MainMenu/ObjectInspector.cs:209-214 | The new index is in range. It steps right or left by one, and wraps at either end despite C#'s truncating `%`. |
| ObjectInspector.CycleIndexInverse | Assets/Scripts/MainMenu/ObjectInspector.cs:209-214 | Cycling right then left, or left then right, returns to the same component. |
| ObjectInspector.ShowComponent | Assets/Scripts/MainMenu/ObjectInspector.cs:242-262 | The texts show the current component; with a robot, it turns to the component's focus rotation. |
| ObjectInspector.Init | Assets/Scripts/MainMenu/ObjectInspector.cs:32-54 | At start the index is 0, nothing is being inspected and no outline is on. The robot's pose is cached when there is a robot. |
| ObjectInspector.StartInspection | Assets/Scripts/MainMenu/ObjectInspector.cs:71-113 | With a robot: it is made kinematic at the inspection point facing the first component. Only that component's outline is on, its objects are hidden, and inspection begins a frame later. Without a robot nothing changes. |
| ObjectInspector.StopInspection | Assets/Scripts/MainMenu/ObjectInspector.cs:121-152 | With a robot, inspection ends and the cached pose returns with a zero rotation. Every outline is off, every hidden object is shown, the motherboard is hidden, and physics returns a frame later. |
| ObjectInspector.ResumeCoroutines | Assets/Scripts/MainMenu/ObjectInspector.cs:115-119 | A frame later inspection is enabled if it was pending, and physics comes back if the robot has a rigidbody. |
| ObjectInspector.InspectionRoundTrip | Assets/Scripts/MainMenu/ObjectInspector.cs:71-152 | Start then stop returns the robot to its cached pose. No outline stays on and no object stays hidden. |
| ObjectInspector.CycleComponent | Assets/Scripts/MainMenu/ObjectInspector.cs:201-227 | The old component's outline goes off and its objects return. The new component (wrapping) is outlined and its objects hidden. |
| ObjectInspector.CycleKeepsOneOutline | Assets/Scripts/MainMenu/ObjectInspector.cs:201-227 | If only the shown component was outlined, after a cycle only the new one is. |
| ObjectInspector.OneComponentOutlined | Assets/Scripts/MainMenu/ObjectInspector.cs:277-293 | With each component outlined on an object of its own, the outline set names the shown component and no other. |
| ObjectInspector.CycleHidesNewObjects | Assets/Scripts/MainMenu/ObjectInspector.cs:201-227 | After a cycle the new component's objects are hidden, and those only the old one hid are shown again. |
| ObjectInspector.RotateRobot | Assets/Scripts/MainMenu/ObjectInspector.cs:165-199 | Without input nothing changes. With input the tilt is clamped to plus or minus 20 degrees and the roll is zero, and the robot takes the rotation. |
| ObjectInspector.LerpVec | Assets/Scripts/MainMenu/ObjectInspector.cs:267 | `Vector3.Lerp` reaches the target at t >= 1 and stays at the start at t <= 0. |
| ObjectInspector.Update | Assets/Scripts/MainMenu/ObjectInspector.cs:56-69 | Nothing happens outside inspection. The left bumper cycles left and wins over the right, which cycles right; without a bumper the component stays. |
| MenuController.SelectButton | Assets/Scripts/MainMenu/MenuController.cs:306-318 | The button is selected when a controller is connected, and nothing is selected otherwise. |
| MenuController.SelectFirstButton | Assets/Scripts/MainMenu/MenuController.cs:320-329 | With a controller and a panel that has a button, its first button is selected; otherwise nothing changes. |
| MenuController.HideAllLevelDescriptions | Assets/Scripts/MainMenu/MenuController.cs:265-273 | Every level title and description and the play button are hidden. |
| MenuController.ShowLevelDescription | Assets/Scripts/MainMenu/MenuController.cs:251-263 | The index is recorded. Exactly that level's title and description show, none when it is out of range, and the play button shows. |
| MenuController.ShowStartMenu | Assets/Scripts/MainMenu/MenuController.cs:187-202 | Only the start panel shows, with no level text or play button. The play button is selected when a controller is connected. |
| MenuController.ShowSelectionMenu | Assets/Scripts/MainMenu/MenuController.cs:204-219 | Only the selection panel shows, describing exactly the selected level. The first level button is selected with a controller. |
| MenuController.ShowSettingsMenu | Assets/Scripts/MainMenu/MenuController.cs:221-234 | Only the settings panel shows and it becomes the current menu. |
| MenuController.ShowInspectScreen | Assets/Scripts/MainMenu/MenuController.cs:236-249 | Only the inspect panel shows and it becomes the current menu. |
| MenuController.LevelButtonClicked | Assets/Scripts/MainMenu/MenuController.cs:135-140 | The clicked level is selected and exactly it is described, with the play button showing; the panel stays. |
| MenuController.PlayButtonClicked | Assets/Scripts/MainMenu/MenuController.cs:116-120 | The selection panel shows the level selected before. |
| MenuController.BackToStartMenu | Assets/Scripts/MainMenu/MenuController.cs:128-133 | The start panel shows, with the play button selected on a controller and nothing otherwise. |
| MenuController.SceneFor | Assets/Scripts/MainMenu/MenuController.cs:142-149 | A non-negative level index names a scene "Module_" followed by digits; a negative index loads nothing. |
| MenuController.SceneNameNumbersLevel | Assets/Scripts/MainMenu/MenuController.cs:142-149 | The scene name carries the level number one above the index, and distinct levels load distinct scenes. |
| MenuController.StartLevel | Assets/Scripts/MainMenu/MenuController.cs:142-149 | Only the loaded scene changes, and only for a non-negative index. |
| MenuController.OpenSettingsMenu | Assets/Scripts/MainMenu/MenuController.cs:151-155 | Only the settings panel shows; the inspector is untouched. |
| MenuController.OpenInspectScreen | Assets/Scripts/MainMenu/MenuController.cs:157-166 | Only the inspect panel shows, and inspection starts when an inspector is assigned. |
| MenuController.BackToSelectionMenuFromInspect | Assets/Scripts/MainMenu/MenuController.cs:168-178 | The selection panel shows with the first level button selected on a controller, and inspection stops when an inspector is assigned. |
| MenuController.BackToSelectionMenu | Assets/Scripts/MainMenu/MenuController.cs:180-184 | The selection panel shows with the first level button selected on a controller. |
| MenuController.HandleControllerBackInput | Assets/Scripts/MainMenu/MenuController.cs:275-303 | B does nothing on the start menu or before any panel, and never touches the navigation clock. |
| MenuController.BackTransitions | Assets/Scripts/MainMenu/MenuController.cs:275-303 | B goes from selection to start, from settings to selection, and from inspect to selection with inspection stopped. |
| MenuController.NavigateMenu | Assets/Scripts/MainMenu/MenuController.cs:331-391 | Within the 0.25 s cooldown nothing changes. A selection change restarts the cooldown at the current time. Panels are untouched. |
| MenuController.DetectController | Assets/Scripts/MainMenu/MenuController.cs:80-98 | The connected flag follows the joystick. On connecting the play button is selected if nothing was; on disconnecting the selection clears. |
| MenuController.Start | Assets/Scripts/MainMenu/MenuController.cs:57-62 | The start panel shows and the play button is selected a frame later. |
| MenuController.ResumeSelect | Assets/Scripts/MainMenu/MenuController.cs:64-71 | A frame after Start the pending selection happens once: the play button is selected if a controller is connected. |
| MenuController.Update | Assets/Scripts/MainMenu/MenuController.cs:73-78 | Without B the panels stay. The controller flag follows the joystick, and the navigation clock moves only past the cooldown. |
| MenuController.StepKeepsOnePanel | Assets/Scripts/MainMenu/MenuController.cs:116-303 | Once a panel has been shown, exactly one panel shows after every operation and frame, and `currentMenu` names it. |
| PauseMenu.InitializeMenus | Assets/Scripts/AllModules/PauseMenuController.cs:32-36 | Both menus start hidden. |
| PauseMenu.ToggleVisibility | Assets/Scripts/AllModules/PauseMenuController.cs:67-72 | The pause menu follows the flag, settings is hidden, and the game UI is the opposite. |
| PauseMenu.PauseGame | Assets/Scripts/AllModules/PauseMenuController.cs:49-56 | Pausing stops the clock and shows the pause menu and cursor, with the game UI hidden. It remembers the current selection. |
| PauseMenu.ResumeGame | Assets/Scripts/AllModules/PauseMenuController.cs:58-65 | Resuming restarts the clock at 1. It hides the menus and cursor, shows the game UI, and restores the remembered selection. |
| PauseMenu.HandlePauseToggle | Assets/Scripts/AllModules/PauseMenuController.cs:38-47 | Without the key nothing changes; with it the paused state flips and the panels follow it. |
| PauseMenu.QuitToMainMenu | Assets/Scripts/AllModules/PauseMenuController.cs:74-78 | The clock is back at 1 before the main menu scene loads. |
| PauseMenu.OpenSettingsMenu | Assets/Scripts/AllModules/PauseMenuController.cs:80-85 | Settings replaces the pause menu, the game UI stays on, and the clock and selection are unchanged. |
| PauseMenu.CloseSettingsMenu | Assets/Scripts/AllModules/PauseMenuController.cs:87-92 | Closing settings returns to the pause menu with the game UI hidden. |
| PauseMenu.Show | Assets/Scripts/AllModules/PauseMenuController.cs:94-97 | Only the pause panels change: pause shown, settings and game UI hidden. |
| PauseMenu.Hide | Assets/Scripts/AllModules/PauseMenuController.cs:99-102 | Only the pause panel is hidden. |
| PauseMenu.CursorUpdate | Assets/Scripts/AllModules/CursorManager.cs:21-119 | While the cursor is shown, the selection becomes the element under the cursor, or nothing. Otherwise nothing changes, and no other field ever does. |
| PauseMenu.Update | Assets/Scripts/AllModules/PauseMenuController.cs:23-30 | The pause key flips the paused state. After it, a paused frame with the cursor shown selects what is under the cursor; an unpaused frame is exactly the key's effect. |
| PauseMenu.Step | Assets/Scripts/AllModules/PauseMenuController.cs:23-102 | No event shows pause and settings together once they are apart. A frame without the key changes neither the clock nor the paused state; the pause panel follows the key. |
| PauseMenu.NeverBothMenus | Assets/Scripts/AllModules/PauseMenuController.cs:23-102 | Once the menus are apart, no run of frames and clicks ever shows pause and settings together. |
| PauseMenu.InitializedNeverBothMenus | Assets/Scripts/AllModules/PauseMenuController.cs:16-36 | From any state, initialization followed by any run keeps the two menus apart. |
| PauseMenu.PauseKeyTwiceRestores | Assets/Scripts/AllModules/PauseMenuController.cs:38-65 | Two presses of the pause key from a running game return it exactly as it was, apart from the recorded selection. |
| PauseMenu.PauseKeyAlternates | Assets/Scripts/AllModules/PauseMenuController.cs:38-47 | The key pauses a running game and resumes a paused one. |
| PauseMenu.SettingsRoundTrip | Assets/Scripts/AllModules/PauseMenuController.cs:80-92 | Opening and closing settings from the pause menu returns to the pause menu's panels. |
| LidarPickup.Start | Assets/Scripts/Module2/LIDARPickup.cs:13-30 | Each assigned reference starts in its state: instructions hidden, pickup shown, robot sensor hidden, controller off. Unassigned ones are left alone. |
| LidarPickup.DisplayInstructions | Assets/Scripts/Module2/LIDARPickup.cs:57-65 | The instructions show and nothing else changes. |
| LidarPickup.OnTriggerEnter | Assets/Scripts/Module2/LIDARPickup.cs:32-46 | Only the player hides the pickup and shows the instructions. |
| LidarPickup.Activate | Assets/Scripts/Module2/LIDARPickup.cs:80-98 | The controller is switched on exactly when it exists and was not yet. The robot's sensor appears and the pickup is destroyed. |
| LidarPickup.CloseInstructions | Assets/Scripts/Module2/LIDARPickup.cs:67-78 | The instructions close and the controller is activated as above. |
| LidarPickup.Update | Assets/Scripts/Module2/LIDARPickup.cs:48-55 | A key press closes the instructions only while they are displayed. |
| LidarPickup.Step | Assets/Scripts/Module2/LIDARPickup.cs:32-55 | A destroyed pickup ignores everything, and an enable always destroys the pickup. |
| LidarPickup.DestroyedIsInert | Assets/Scripts/Module2/LIDARPickup.cs:92-97 | Once destroyed the pickup never changes again. |
| LidarPickup.EnabledAtMostOnce | Assets/Scripts/Module2/LIDARPickup.cs:80-98 | Whatever happens, the controller is switched on at most once, and never by a pickup already gone. |
| LidarPickup.TouchThenKeyEnables | Assets/Scripts/Module2/LIDARPickup.cs:32-98 | The player touching then pressing a key enables the controller, shows the robot's sensor and destroys the pickup. |
| LidarPickup.KeysBeforeTouchIgnored | Assets/Scripts/Module2/LIDARPickup.cs:48-55 | Before a touch, a key press does nothing. |
| OceanReset.OnTriggerEnter | Assets/Scripts/Module1/OceanReset.cs:20-39 | A reset starts exactly for the player with a manager and no reset under way. The sound plays exactly when the effect exists and is not already playing. |
| OceanReset.ResetAfterEffect | Assets/Scripts/Module1/OceanReset.cs:41-58 | After the wait the checkpoint reset is requested and the latch clears. An assigned effect is stopped and hidden. |
| OceanReset.OneResetPerCycle | Assets/Scripts/Module1/OceanReset.cs:20-58 | Over any run, resets sent plus the open cycle equal cycles started plus the one open at the start. |
| OceanReset.SoundsOnlyWithResets | Assets/Scripts/Module1/OceanReset.cs:28-34 | The sound plays no more often than resets start, and never without an effect. |
| OceanReset.LatchBlocksThenReleases | Assets/Scripts/Module1/OceanReset.cs:23-57 | Triggers during a reset change nothing; after it the next player trigger starts a new cycle. |
| OceanReset.NoManagerNoReset | Assets/Scripts/Module1/OceanReset.cs:23 | Without a checkpoint manager no reset ever starts. |
| BoostPanel.OnTriggerEnter | Assets/Scripts/Module1/BoostPanel.cs:12-33 | Only the player off cooldown triggers. The cooldown always starts and the effect plays if assigned. With a controller the speed is multiplied, and the old speed is captured. |
| BoostPanel.ApplyBoost | Assets/Scripts/Module1/BoostPanel.cs:35-48 | The boost captures the current speed and sets the speed to it times the multiplier. |
| BoostPanel.BoostEnd | Assets/Scripts/Module1/BoostPanel.cs:35-48 | The oldest running boost ends and restores the speed it captured. |
| BoostPanel.CooldownEnd | Assets/Scripts/Module1/BoostPanel.cs:50-60 | The cooldown ends and nothing else changes. |
| BoostPanel.StepKeepsConsistent | Assets/Scripts/Module1/BoostPanel.cs:5-60 | For a single pad with the default durations (boost ends before cooldown), the robot's speed is its own or exactly one boost of it. |
| BoostPanel.BoostRoundTrip | Assets/Scripts/Module1/BoostPanel.cs:35-48 | A boost and its end restore the original speed. |
| BoostPanel.TwoPadsLeaveRobotBoosted | Assets/Scripts/Module1/BoostPanel.cs:35-48 | Two pads touched less than a boost apart share the robot's `moveSpeed`: the second captures the boosted speed, so after both boosts end the robot keeps one boost for good. |
| BoostPanel.OverlappingBoostsKeepSpeed | Assets/Scripts/Module1/BoostPanel.cs:35-60 | If the cooldown were set shorter than the boost, a second boost would capture the boosted speed. The robot would then stay boosted. |
| WindZone.OnTriggerEnter | Assets/Scripts/Module1/SwayingWindZone.cs:26-34 | A body is added once, at the end, only if not yet listed; a list without repeats keeps none. |
| WindZone.OnTriggerExit | Assets/Scripts/Module1/SwayingWindZone.cs:36-44 | Exit removes one occurrence of the body, keeps a list without repeats, and leaves other bodies listed. |
| WindZone.RemoveAppended | Assets/Scripts/Module1/SwayingWindZone.cs:26-44 | Removing a body appended to a list without it gives the list back. |
| WindZone.EnterThenExitRestores | Assets/Scripts/Module1/SwayingWindZone.cs:26-44 | A body entering and leaving restores the list exactly. |
| WindZone.FixedUpdate | Assets/Scripts/Module1/SwayingWindZone.cs:11-24 | One push of the current wind per listed body, in list order. |
| WindZone.OccursOnce | Assets/Scripts/Module1/SwayingWindZone.cs:26-34 | In a list without repeats each listed body occurs once. |
| WindZone.PushedOncePerStep | Assets/Scripts/Module1/SwayingWindZone.cs:11-24 | Each physics step pushes every body in the zone exactly once and nothing outside it. |
| WindZone.NeverDuplicates | Assets/Scripts/Module1/SwayingWindZone.cs:26-44 | Whatever enters and leaves, a list without repeats never gains one. |
| ResetPosition.Start | Assets/Scripts/MainMenu/ResetPositionTrigger.cs:9-21 | With a robot, its pose at start becomes the reset pose; without one the defaults stay. |
| ResetPosition.ResetRobotPosition | Assets/Scripts/MainMenu/ResetPositionTrigger.cs:32-53 | The robot returns to the reset pose; with a rigidbody both velocities are zeroed. Without a robot nothing changes. |
| ResetPosition.OnTriggerEnter | Assets/Scripts/MainMenu/ResetPositionTrigger.cs:23-30 | Only the robot's own collider resets it. |
| ResetPosition.ResetIdempotent | Assets/Scripts/MainMenu/ResetPositionTrigger.cs:32-53 | Resetting twice is resetting once. |
| ResetPosition.ResetRestoresStartPose | Assets/Scripts/MainMenu/ResetPositionTrigger.cs:9-53 | Wherever the robot has gone, a reset puts it in the pose it had at start. |
| ResetPosition.ResetAtStartPoseIsIdentity | Assets/Scripts/MainMenu/ResetPositionTrigger.cs:9-53 | Resetting a robot at rest in its start pose changes nothing. |
| InspectMenu.EnterInspectMenu | Assets/Scripts/MainMenu/InspectMenuManager.cs:34-42 | Entering switches the controls and physics off and sets the flag, leaving the robot alone. |
| InspectMenu.ExitStart | Assets/Scripts/MainMenu/InspectMenuManager.cs:44-56 | Exiting resets only the robot's pose at first; the rest waits for the end of the frame. |
| InspectMenu.ExitFinish | Assets/Scripts/MainMenu/InspectMenuManager.cs:57-68 | At the end of the frame the velocities are zero, the robot is kinematic, the controls are back on and the flag is clear. |
| InspectMenu.Update | Assets/Scripts/MainMenu/InspectMenuManager.cs:13-32 | The manager acts only on the rising and falling edges of the menu, and only with every reference assigned. |
| InspectMenu.EndOfFrame | Assets/Scripts/MainMenu/InspectMenuManager.cs:57-68 | A waiting exit finishes; otherwise nothing changes. |
| InspectMenu.OpenThenClose | Assets/Scripts/MainMenu/InspectMenuManager.cs:13-68 | Opening freezes the robot. Closing resets its pose and stops it before the controls return, and it stays kinematic. |
| InspectMenu.TracksMenu | Assets/Scripts/MainMenu/InspectMenuManager.cs:13-32 | Over any run of frames the manager stays settled, with its flag equal to the menu's last state. |
| JackalMainMenu.StopAndReturnToCenter | Assets/Scripts/MainMenu/JackalMainMenu.cs:64-68 | Circling stops and returning starts. |
| JackalMainMenu.StartMovingInCircle | Assets/Scripts/MainMenu/JackalMainMenu.cs:70-74 | Circling starts and returning stops. |
| JackalMainMenu.MoveTowardsDistance | Assets/Scripts/MainMenu/JackalMainMenu.cs:55-56 | `Vector3.MoveTowards` never overshoots. A positive step gets strictly closer, and reaches the target when the step covers the distance. |
| JackalMainMenu.MoveInCircle | Assets/Scripts/MainMenu/JackalMainMenu.cs:36-50 | The robot sits at a distance from the centre equal to the absolute value of `radius`. |
| JackalMainMenu.MoveToCenter | Assets/Scripts/MainMenu/JackalMainMenu.cs:53-62 | Each step gets no farther from the centre, and returning ends once within 0.1. |
| JackalMainMenu.Update | Assets/Scripts/MainMenu/JackalMainMenu.cs:23-33 | Returning takes priority over circling; with neither the robot does not move. |
| JackalMainMenu.Run | Assets/Scripts/MainMenu/JackalMainMenu.cs:23-33 | One motion per frame, and the distance stays non-negative. |
| JackalMainMenu.ArrivedStaysIdle | Assets/Scripts/MainMenu/JackalMainMenu.cs:23-33 | Once arrived, every later frame is idle until circling restarts. |
| JackalMainMenu.ReturnStep | Assets/Scripts/MainMenu/JackalMainMenu.cs:53-68 | After a stop each frame gets strictly closer, and a step reaching the centre ends the return. |
| JackalMainMenu.StopThenRestartCircles | Assets/Scripts/MainMenu/JackalMainMenu.cs:64-74 | Restarting after a stop puts the robot back on its circle on the next frame. |
| JackalDrive.CheckGroundStatus | Assets/Scripts/AllModules/JackalController.cs:60-94 | A hit grounds the car, stamps the time and sets ground drag. Without one the car stays grounded, drag unchanged, within `groundedBufferTime` of the last hit, else air drag. |
| JackalDrive.GroundedBuffer | Assets/Scripts/AllModules/JackalController.cs:60-94 | A run of hitless checks leaves the car grounded exactly while the latest check is inside the buffer, with air drag once it leaves. |
| JackalDrive.CurrentSpeed | Assets/Scripts/AllModules/JackalController.cs:193 | The speed is the move speed, times the turbo multiplier under turbo. |
| JackalDrive.TurnRate | Assets/Scripts/AllModules/JackalController.cs:200-208 | The yaw rate has the sign of the turn input and is zero without one. |
| JackalDrive.Drive | Assets/Scripts/AllModules/JackalController.cs:190-213 | Grounded with drive held, the planar velocity follows the facing, keeping the vertical speed, and the yaw follows the turn. In the air only the spin stops. Otherwise nothing changes. |
| JackalDrive.DrivePlanarSpeed | Assets/Scripts/AllModules/JackalController.cs:190-198 | On level ground the planar speed is the magnitude of the forward command times the current speed, for every heading. |
| JackalDrive.TurboScalesDrive | Assets/Scripts/AllModules/JackalController.cs:190-208 | Turbo multiplies the planar velocity by the turbo multiplier and changes neither the vertical velocity nor the spin. |
| JackalDrive.SetWheelAnimationSpeed | Assets/Scripts/AllModules/JackalController.cs:261-279 | Each side's assigned animators get the speed, and reverse when their flag or `reverseAll` is set. |
| JackalDrive.CarSpeed | Assets/Scripts/AllModules/JackalController.cs:219 | The wheels judge by the body's speed plus the turn's yaw, never less than the body's speed. |
| JackalDrive.AnimationSpeed | Assets/Scripts/AllModules/JackalController.cs:220 | The animator speed lies in the animation range. It is the maximum at or above top turbo speed, and when that top speed is zero. |
| JackalDrive.TurnCallAsWritten | Assets/Scripts/AllModules/JackalController.cs:247-257 | As written, a turn always sets `reverseAll` or `reverseLeft`, and never `reverseRight`. |
| JackalDrive.TurnCall | Assets/Scripts/AllModules/JackalController.cs:247-257 | As the comments intend, the sides turn opposite ways on every turn, and straight driving is unchanged. |
| JackalDrive.UpdateWheelsAsWritten | Assets/Scripts/AllModules/JackalController.cs:215-259 | As written, the wheels stop when nearly still or without drive. Otherwise both sides share the animation speed, any turn reports the left side reversing, and the right side reports `reverseAll`: reversing on a right turn while moving forward, and on a left turn or straight while reversing. |
| JackalDrive.UpdateWheels | Assets/Scripts/AllModules/JackalController.cs:215-259 | Corrected: stopped wheels are at 0 and forward. Otherwise both sides share the animation speed, and on a turn they report opposite directions. |
| JackalDrive.AsWrittenTurnFlags | Assets/Scripts/AllModules/JackalController.cs:245-256 | As written, any turn reports the left side reversing. The right side reverses when moving forward on a right turn or backward on a left turn. |
| JackalDrive.RightTurnForwardReportsBothReversing | Assets/Scripts/AllModules/JackalController.cs:245-249 | Counterexample: a right turn while moving forward reports both sides reversing, where the comments want only the left. |
| JackalDrive.CorrectedTurnsOpposite | Assets/Scripts/AllModules/JackalController.cs:245-256 | The corrected sides always turn opposite ways, and agree with `JackalController` as written when stopped or straight. |
| JackalController.ReadCommand | Assets/Scripts/AllModules/JackalController.cs:161-187 | Keyboard: W-S forward, D-A turn, Space drives, LeftShift boosts going forward. Pad: negated vertical forward, horizontal turn, LB drives, RB boosts with the stick forward. |
| JackalController.TurboOnlyForward | Assets/Scripts/AllModules/JackalController.cs:172-182 | On both devices turbo needs a forward drive command and its own button. |
| JackalController.HandleCarMovementAndRotation | Assets/Scripts/AllModules/JackalController.cs:151-214 | The pad stores its axes and the keyboard leaves them. Turbo follows the command and grounding is kept. Grounded with drive, the planar velocity follows the facing at the command's forward times the current speed, and the vertical velocity is kept. |
| JackalController.WheelTurn | Assets/Scripts/AllModules/JackalController.cs:233-234 | On the keyboard A is tested before D; on the pad the stored horizontal input is used. |
| JackalController.BothTurnKeysDisagree | Assets/Scripts/AllModules/JackalController.cs:168-170 | Holding A and D drives straight but animates a left turn. |
| JackalController.DriveHeld | Assets/Scripts/AllModules/JackalController.cs:236 | The wheel animation reads the same drive button as the movement. |
| JackalController.UpdateWheelAnimations | Assets/Scripts/AllModules/JackalController.cs:215-259 | Stopping wheels stop both sides. Otherwise, as written, both sides run at the animation speed; the left side reports reversing on any turn or when reversing, and the right side reports `reverseAll`: the opposite of reversing on a right turn, the car's reversing otherwise. |
| JackalController.FixedUpdate | Assets/Scripts/AllModules/JackalController.cs:48-53 | A physics step drives along the facing when grounded with drive held. In the air it keeps the velocity and stops the spin. Without drive the wheels are at 0, forward. |
| JackalNoCamera.HandleCarMovementAndRotation | Assets/Scripts/MainMenu/JackalControllerNoCamera.cs:76-111 | The axes are stored and turbo is RB with the stick forward. LB drives along the facing at the negated vertical. |
| JackalNoCamera.UpdateWheelAnimations | Assets/Scripts/MainMenu/JackalControllerNoCamera.cs:113-144 | Without LB, or nearly still, the wheels stop. Otherwise, as written, the left side reports reversing on any turn and the right side reports `reverseAll`. |
| JackalNoCamera.FixedUpdate | Assets/Scripts/MainMenu/JackalControllerNoCamera.cs:35-40 | Grounded status follows the ground check. In the air the velocity stays and the spin stops; without LB the car coasts. |
| JackalNoCamera.SameAsGamepadController | Assets/Scripts/MainMenu/JackalControllerNoCamera.cs:35-164 | The camera-less copy does exactly what the full controller does on a gamepad. |

## Left out

- Rendering is not modelled: pixels, textures, sprites, colours other than the card tint, and the camera. `HandleCameraControl` (JackalController.cs) only moves the follow camera and is not modelled.
- Audio, particle systems and `Debug.Log` output are not modelled. Only whether a sound or effect starts is recorded.
- Coroutine timing is not modelled. `WaitForSeconds`, `WaitForEndOfFrame` and `yield return null` become events, and the model does not reason about how long they take.
- `Destroy` is taken to act at once. Unity defers it to the end of the frame.
- Scene loading is a recorded scene name. `Application.Quit` (`QuitButtonClicked`) has no observable state and is not modelled.
- World and local positions are not distinguished, and sibling order under a parent is not modelled. Both are layout details of the photo holder.
- `MoveOtherObjects` and the cursor in `InputController` are not modelled. They only move other UI objects with the pointer.
- `temporaltargetSquarePos` is not modelled. The photo scripts assign it and never read it.
- `CheckpointManager`, the scoring engine, and the checkpoint-reset logic they own are not part of this model. `OceanReset` records only that a reset is requested.
- `PressurePlateManager.Awake` is not modelled; it is the singleton `Instance` set-up.
- `PressurePlate`'s own door, colour and sound handling beyond latching its activation is not modelled.
- Unity's physics is not modelled. Forces, drag and velocities are recorded as values, not integrated.
- Single-precision float rounding is not modelled. Reals are exact, so constants such as `0.1f` and `Mathf.Deg2Rad`, the timer update `clickTimer -= Time.deltaTime`, and the products in `Drive` and `ApplyBoost` carry no rounding error.
- `PhotoStorage.SavePhotoData` and `PhotoStorage.SaveGlobalData` record a byte length of 0 for the JSON they write, since the model does not render JSON text. That length would matter only if the file were loaded as a sprite, and the program never writes JSON under a PNG's name (`PhotoCollection.SpriteNameDisjointFromRecords`).
- `PauseMenu.CursorUpdate` takes the element under the cursor as an input. The cursor's position, its movement by mouse or stick, slider dragging and the A-button click are not modelled; a click arrives as the button's own event.
- The wind force of `SwayingWindZone` is a parameter. Its sine sway depends on the clock.
- `JackalMainMenu`'s circle position is reduced to the robot's distance from the centre; its sine and cosine angle is not modelled.
- `JackalController` and `JackalNoCamera` take the body's speed (the velocity's magnitude) and the ground-ray hit count as inputs.
- `NavigateMenu` does not model the slider steps or the `Selectable` neighbour graph. The neighbour found is an input.
- `NavigateMenu` throws a null-reference exception when the stick moves with nothing selected. The model takes the neighbours found as inputs, so it does not model that throw.
- `MenuController.isMenuActive` is always true in MenuController.cs, so its guard is not modelled.
- `MenuController.ShowSelectionMenu`, `BackToSelectionMenu` and `BackToSelectionMenuFromInspect` require at least one level button, as the scene is built. `LevelButtonClicked` and `PlayButtonClicked` require an index within the level buttons.
- `ObjectInspector` assumes `motherBoard` is assigned, as in the scene.
- `ObjectInspector` moves the robot toward the inspection point with `Vector3.Lerp` over frames. The model places it there and proves only `LerpVec`'s end points.
- `InspectMenu` assumes its references point at the same robot that `ResetPosition` resets.
- `PhotoStorage.ReadPhotoData` and `PhotoStorage.ReadGlobalData` do not model JSON parsing. A file is either its record or the text `null`, and malformed JSON is not modelled.
- `PhotoCapture.MakeScreenshot` takes `cropSize` in [1, 500], the inspector's range for that field.
- `PhotoInput` reads only mouse button 0, which is all InputController.cs reads on every device. Touches reach it only as Unity's simulated mouse-button phases, and the device type gates only `HandleMovingCard`.
- `BoostPanel.StepKeepsConsistent` assumes the default durations, under which a boost ends before its cooldown does. `BoostPanel.OverlappingBoostsKeepSpeed` shows what happens otherwise.
- `BoostPanel.StepKeepsConsistent` covers one pad acting on the robot. Several pads write the same `JackalController.moveSpeed`, and overlapping boosts from different pads are not part of the invariant. `BoostPanel.TwoPadsLeaveRobotBoosted` shows that two such boosts can leave the robot boosted for good.

## Findings

| source | as written | input that shows it | evidently intended | confidence | as-written member | corrected member |
|---|---|---|---|---|---|---|
| Assets/Scripts/AllModules/JackalController.cs:245-257 | Turns call `SetWheelAnimationSpeed(speed, !isReversing, isReversing)` positionally, so the flags land in `reverseAll` and `reverseLeft`. The same calls appear at Assets/Scripts/MainMenu/JackalControllerNoCamera.cs:132-143. | A right turn while driving forward: the comment says the left wheels go backward and the right wheels forward, but both sides report reversing. | Pass the flags as `reverseLeft` and `reverseRight`, so the two sides always turn opposite ways. Both controllers are modelled as written. | not executed | JackalDrive.UpdateWheelsAsWritten (counterexample: JackalDrive.RightTurnForwardReportsBothReversing) | JackalDrive.UpdateWheels (property: JackalDrive.CorrectedTurnsOpposite) |

=== FILE: boost_panel.dfy ===
/** `BoostPanel`: a pad in module 1 that multiplies the robot's
    `moveSpeed` for a while and then rests.  The `ApplyBoost` and
    `StartCooldown` coroutines become the `BoostEnd` and `CooldownEnd`
    events that arrive when their waits are over.  Pending boosts are kept
    oldest first with the speed each one captured; equal waits end them in
    the order they began. */
module BoostPanel {

  /** The serialized settings that matter to the state.  The default
      durations are 3 s for a boost and 5 s for the cooldown, so a boost
      always ends before the cooldown does. */
  datatype Setup = Setup(boostMultiplier: real, hasEffect: bool)

  const DefaultBoostMultiplier: real := 2.0
  const DefaultBoostDuration: real := 3.0
  const DefaultCooldownDuration: real := 5.0

  /** The pad's cooldown flag, the robot's `moveSpeed`, and the original
      speeds this pad's running `ApplyBoost` coroutines captured.  The
      speed is a field of the robot that every pad writes; a `Boost` sees
      it from one pad's side, and `TwoPadsLeaveRobotBoosted` shows what
      happens when a second pad writes it too. */
  datatype Boost = Boost(onCooldown: bool, moveSpeed: real, pending: seq<real>)

  /** A step's result and whether it played the boost effect. */
  datatype Tick = Tick(next: Boost, effect: bool)

  /** `OnTriggerEnter`: the player, off cooldown, gets a boost when it
      carries a `JackalController`; the effect plays if assigned; the
      cooldown starts either way. */
  function OnTriggerEnter(b: Boost, setup: Setup, isPlayer: bool, hasController: bool): (r: Tick)
    ensures !isPlayer || b.onCooldown ==> r == Tick(b, false)
    ensures isPlayer && !b.onCooldown ==> r.next.onCooldown && (r.effect <==> setup.hasEffect)
    ensures isPlayer && !b.onCooldown && hasController ==>
              r.next.moveSpeed == b.moveSpeed * setup.boostMultiplier && r.next.pending == b.pending + [b.moveSpeed]
    ensures !(isPlayer && !b.onCooldown && hasController) ==>
              r.next.moveSpeed == b.moveSpeed && r.next.pending == b.pending
  {
    if isPlayer && !b.onCooldown then
      var q := if hasController then ApplyBoost(b, setup) else b;
      Tick(q.(onCooldown := true), setup.hasEffect)
    else Tick(b, false)
  }

  /** The first half of `ApplyBoost`: capture the speed, then multiply it. */
  function ApplyBoost(b: Boost, setup: Setup): (r: Boost)
    ensures r.pending == b.pending + [b.moveSpeed]
    ensures r.moveSpeed == r.pending[|r.pending| - 1] * setup.boostMultiplier
    ensures r.onCooldown == b.onCooldown
  {
    b.(pending := b.pending + [b.moveSpeed], moveSpeed := b.moveSpeed * setup.boostMultiplier)
  }

  /** The second half of the oldest `ApplyBoost`: the speed goes back to
      what that boost captured. */
  function BoostEnd(b: Boost): (r: Boost)
    requires |b.pending| > 0
    ensures r.moveSpeed == b.pending[0]
    ensures b.pending == [b.pending[0]] + r.pending
    ensures r.onCooldown == b.onCooldown
  {
    b.(moveSpeed := b.pending[0], pending := b.pending[1..])
  }

  /** The second half of `StartCooldown`. */
  function CooldownEnd(b: Boost): (r: Boost)
    ensures !r.onCooldown
    ensures r.(onCooldown := b.onCooldown) == b
  {
    b.(onCooldown := false)
  }

  datatype Event =
    | TriggerEnter(isPlayer: bool, hasController: bool)
    | BoostEnded
    | CooldownEnded

  /** A wait only ends while its coroutine runs: a boost is pending, or the
      pad is on cooldown (only one cooldown can run, since a trigger needs
      the pad off cooldown). */
  predicate Possible(b: Boost, e: Event) {
    (e.BoostEnded? ==> |b.pending| > 0) && (e.CooldownEnded? ==> b.onCooldown)
  }

  function Step(b: Boost, setup: Setup, e: Event): Tick
    requires Possible(b, e)
  {
    match e
    case TriggerEnter(isPlayer, hasController) => OnTriggerEnter(b, setup, isPlayer, hasController)
    case BoostEnded => Tick(BoostEnd(b), false)
    case CooldownEnded => Tick(CooldownEnd(b), false)
  }

  /** Without a boost running, the robot has its own speed; with one, it
      has exactly the captured speed times the multiplier. */
  predicate Consistent(b: Boost, setup: Setup) {
    |b.pending| <= 1
    && (|b.pending| == 1 ==> b.moveSpeed == b.pending[0] * setup.boostMultiplier)
    && (|b.pending| == 1 ==> b.onCooldown)
  }

  /** With the default durations the cooldown cannot end while a boost is
      still running; under that ordering, and with no other pad changing
      the robot's speed, every step keeps the speed consistent. */
  lemma StepKeepsConsistent(b: Boost, setup: Setup, e: Event)
    requires Consistent(b, setup) && Possible(b, e)
    requires e.CooldownEnded? ==> |b.pending| == 0
    ensures Consistent(Step(b, setup, e).next, setup)
  {
  }

  /** A boost followed by its end gives the robot back the speed it had. */
  lemma BoostRoundTrip(b: Boost, setup: Setup)
    requires !b.onCooldown && |b.pending| == 0
    ensures var t := OnTriggerEnter(b, setup, true, true);
            BoostEnd(t.next).moveSpeed == b.moveSpeed
            && BoostEnd(t.next).pending == [] && BoostEnd(t.next).onCooldown
  {
  }

  /** If the durations were set so that the cooldown ended first, a second
      boost would capture the already multiplied speed and, once both end,
      the robot would keep the boosted speed. */
  lemma OverlappingBoostsKeepSpeed(v: real, setup: Setup)
    requires v != 0.0 && setup.boostMultiplier != 1.0
    ensures var b0 := Boost(false, v, []);
            var b1 := OnTriggerEnter(b0, setup, true, true).next;
            var b2 := CooldownEnd(b1);
            var b3 := OnTriggerEnter(b2, setup, true, true).next;
            var b4 := BoostEnd(BoostEnd(b3));
            b4.moveSpeed == v * setup.boostMultiplier && b4.moveSpeed != v
  {
  }

  /** Two pads share the robot's speed.  Pad A boosts from `v`; pad B,
      touched before A's boost ends, captures the boosted speed and boosts
      it again; A's end restores `v` and B's end then restores A's boosted
      speed, which the robot keeps.  Each pad runs with the default
      durations. */
  lemma TwoPadsLeaveRobotBoosted(v: real, setup: Setup)
    requires v != 0.0 && setup.boostMultiplier != 1.0
    ensures var a1 := OnTriggerEnter(Boost(false, v, []), setup, true, true).next;
            var b1 := OnTriggerEnter(Boost(false, a1.moveSpeed, []), setup, true, true).next;
            var a2 := BoostEnd(a1.(moveSpeed := b1.moveSpeed));
            var b2 := BoostEnd(b1.(moveSpeed := a2.moveSpeed));
            a2.moveSpeed == v && b2.moveSpeed == v * setup.boostMultiplier && b2.moveSpeed != v
  {
  }
}

=== FILE: checkpoint_navigation.dfy ===
/** `CheckpointNavigationScript`: the AI agent steers toward the checkpoint
    after the last one the player reached, wrapping to the first. */
module CheckpointNavigation {
  import opened Common

  /** The parts of `CheckpointManager` the script reads: the last reached
      index (a C# `int`) and the ordered checkpoint positions. */
  datatype Manager = Manager(lastReached: int, checkpoints: seq<Vec3>)

  /** Both numbers are C# `int`s: the index field and `List.Count`. */
  predicate WellTyped(m: Manager) {
    IsInt32(m.lastReached) && |m.checkpoints| <= Int32Max
  }

  /** Outcome of `GetNextCheckpoint`: no manager (`null`), a checkpoint, or
      the `ArgumentOutOfRangeException` of indexing the list. */
  datatype NextResult = NoManager | Next(index: nat, position: Vec3) | OutOfRange(badIndex: int)

  /** The index computed at line 59, with C# `int` wrap-around, and reset to 0
      when it is not below the count. */
  function NextIndex(lastReached: int, count: nat): (r: int)
    requires IsInt32(lastReached) && count <= Int32Max
    ensures lastReached + 1 < count ==> r == lastReached + 1
    ensures lastReached + 1 >= count && lastReached < Int32Max ==> r == 0
    ensures lastReached == Int32Max ==> r == Int32Min
  {
    var next := if lastReached == Int32Max then Int32Min else lastReached + 1;
    if next >= count then 0 else next
  }

  function GetNextCheckpoint(manager: Option<Manager>): (r: NextResult)
    requires manager.Some? ==> WellTyped(manager.value)
    ensures manager.None? <==> r.NoManager?
    ensures r.Next? ==> r.index < |manager.value.checkpoints| &&
                        r.position == manager.value.checkpoints[r.index]
    ensures manager.Some? && |manager.value.checkpoints| == 0 ==> r.OutOfRange?
  {
    match manager
    case None => NoManager
    case Some(m) =>
      var i := NextIndex(m.lastReached, |m.checkpoints|);
      if 0 <= i < |m.checkpoints| then Next(i, m.checkpoints[i]) else OutOfRange(i)
  }

  /** With at least one checkpoint and a last index in [-1, count - 1] the
      agent always gets a target, and it is the cyclic successor. */
  lemma NextIsCyclicSuccessor(m: Manager)
    requires |m.checkpoints| > 0
    requires -1 <= m.lastReached < |m.checkpoints|
    requires WellTyped(m)
    ensures GetNextCheckpoint(Some(m)).Next?
    ensures GetNextCheckpoint(Some(m)).index == (m.lastReached + 1) % |m.checkpoints|
  {
    var n := |m.checkpoints|;
    var k := m.lastReached + 1;
    if k == n {
      ModOfSelf(n);
    } else {
      ModOfSmall(k, n);
    }
    assert NextIndex(m.lastReached, n) == k % n;
  }

  /** The wrap to 0 happens exactly when the last reached checkpoint is the
      final one (or beyond). */
  lemma WrapsIffAtEnd(m: Manager)
    requires |m.checkpoints| > 0
    requires 0 <= m.lastReached < Int32Max && WellTyped(m)
    ensures GetNextCheckpoint(Some(m)) == Next(0, m.checkpoints[0]) <==>
              m.lastReached + 1 >= |m.checkpoints|
  {
  }

  /** A last index below -1 makes the script index the list with a negative
      number, which throws. */
  lemma NegativeIndexThrows(m: Manager)
    requires Int32Min <= m.lastReached < -1 && |m.checkpoints| <= Int32Max
    ensures GetNextCheckpoint(Some(m)).OutOfRange?
  {
  }

  /** The navigation agent: present or not, on a NavMesh or not, and the
      destination it was last given. */
  datatype Agent = Agent(onNavMesh: bool, destination: Option<Vec3>)

  /** `Update`: sets a destination only for an agent on the NavMesh when a
      next checkpoint exists; otherwise (including the throwing case, which
      aborts the frame) nothing changes. */
  function Update(agent: Option<Agent>, manager: Option<Manager>): (r: Option<Agent>)
    requires manager.Some? ==> WellTyped(manager.value)
    ensures r.None? <==> agent.None?
    ensures r != agent ==>
              (agent.Some? && agent.value.onNavMesh && GetNextCheckpoint(manager).Next? &&
               r == Some(agent.value.(destination := Some(GetNextCheckpoint(manager).position))))
    ensures agent.Some? && agent.value.onNavMesh && GetNextCheckpoint(manager).Next? ==>
              r.value.destination == Some(GetNextCheckpoint(manager).position)
  {
    if agent.Some? && agent.value.onNavMesh then
      match GetNextCheckpoint(manager)
      case Next(_, pos) => Some(agent.value.(destination := Some(pos)))
      case _ => agent
    else agent
  }
}

=== FILE: common.dfy ===
/** Shared vocabulary of the model: optional references, 3-vectors of reals,
    the C# `List<T>.Remove` operation and decimal rendering of integers as
    produced by C# string concatenation / interpolation. */
module Common {

  /** A Unity reference that may be null. */
  datatype Option<+T> = None | Some(value: T)

  /** A `Vector3`. Its components are reals: the model computes exactly where
      the engine rounds to single-precision floats. */
  datatype Vec3 = Vec3(x: real, y: real, z: real)

  const Zero3: Vec3 := Vec3(0.0, 0.0, 0.0)

  predicate NoDuplicates<T(==)>(s: seq<T>) {
    forall i :: 0 <= i < |s| ==> s[i] !in s[i+1..]
  }

  /** Appending a non-empty list is appending its head, then its tail. */
  lemma ConsTail<T>(a: seq<T>, b: seq<T>)
    requires |b| > 0
    ensures (a + [b[0]]) + b[1..] == a + b
  {
    assert b == [b[0]] + b[1..];
  }

  /** `List<T>.Remove(x)`: drops the first occurrence of `x`, if there is one. */
  function RemoveFirst<T(==)>(s: seq<T>, x: T): (r: seq<T>)
    ensures x !in s ==> r == s
    ensures x in s ==> |r| == |s| - 1
  {
    if |s| == 0 then []
    else if s[0] == x then
      assert s == [s[0]] + s[1..];
      s[1..]
    else
      assert s == [s[0]] + s[1..];
      [s[0]] + RemoveFirst(s[1..], x)
  }

  /** `Remove` takes away one copy of `x` and nothing else. */
  lemma {:induction false} RemoveFirstMultiset<T>(s: seq<T>, x: T)
    ensures multiset(RemoveFirst(s, x)) == multiset(s) - multiset{x}
  {
    if |s| > 0 {
      assert s == [s[0]] + s[1..];
      RemoveFirstMultiset(s[1..], x);
    }
  }

  /** On a list without duplicates, `Remove` takes the element out entirely and
      keeps every other element. */
  lemma RemoveFirstNoDuplicates<T>(s: seq<T>, x: T)
    requires NoDuplicates(s)
    ensures NoDuplicates(RemoveFirst(s, x))
    ensures forall y :: y in RemoveFirst(s, x) <==> y in s && y != x
  {
    if x in s {
      var i :| 0 <= i < |s| && s[i] == x;
      assert x !in s[..i];
      RemoveFirstAt(s, x, i);
      DropIndex(s, i);
    }
  }

  /** Dropping position `i` of a duplicate-free list. */
  lemma DropIndex<T>(s: seq<T>, i: nat)
    requires NoDuplicates(s) && i < |s|
    ensures NoDuplicates(s[..i] + s[i+1..])
    ensures forall y :: y in s[..i] + s[i+1..] <==> y in s && y != s[i]
  {
    var r := s[..i] + s[i+1..];
    assert |r| == |s| - 1;
    assert forall k {:trigger r[k]} :: 0 <= k < |r| ==> r[k] == s[if k < i then k else k + 1];
    forall y
      ensures y in r <==> y in s && y != s[i]
    {
      if y in r {
        var k :| 0 <= k < |r| && r[k] == y;
      }
      if y in s && y != s[i] {
        var k :| 0 <= k < |s| && s[k] == y;
        if k < i { assert r[k] == y; } else { assert r[k - 1] == y; }
      }
    }
  }

  lemma {:induction false} RemoveFirstAt<T>(s: seq<T>, x: T, i: nat)
    requires i < |s| && s[i] == x && x !in s[..i]
    ensures RemoveFirst(s, x) == s[..i] + s[i+1..]
  {
    if i > 0 {
      assert s[1..][..i-1] == s[..i][1..];
      RemoveFirstAt(s[1..], x, i - 1);
      assert s[..i] == [s[0]] + s[1..][..i-1];
      assert s[1..][i..] == s[i+1..];
    }
  }

  /** Clamp of an integer as `Mathf.Clamp(int, int, int)` does it: the lower
      bound is tested first, so an empty range yields `max`. */
  function ClampInt(value: int, min: int, max: int): (r: int)
    ensures min <= max ==> min <= r <= max
    ensures min <= value <= max ==> r == value
    ensures value < min ==> r == min
  {
    if value < min then min else if value > max then max else value
  }

  /** `Mathf.Clamp(float, float, float)` on reals. */
  function ClampReal(value: real, min: real, max: real): (r: real)
    ensures min <= max ==> min <= r <= max
    ensures min <= value <= max ==> r == value
  {
    if value < min then min else if value > max then max else value
  }

  const Int32Min: int := -0x8000_0000
  const Int32Max: int := 0x7FFF_FFFF

  predicate IsInt32(x: int) { Int32Min <= x <= Int32Max }

  /** Two's-complement wrap-around of C# unchecked `int` arithmetic. */
  function WrapInt32(x: int): (r: int)
    ensures IsInt32(r)
    ensures IsInt32(x) ==> r == x
    ensures (r - x) % 0x1_0000_0000 == 0
  {
    (x - Int32Min) % 0x1_0000_0000 + Int32Min
  }

  /** `Mathf.Clamp01`. */
  function Clamp01(t: real): (r: real)
    ensures 0.0 <= r <= 1.0
    ensures 0.0 <= t <= 1.0 ==> r == t
  {
    ClampReal(t, 0.0, 1.0)
  }

  lemma MulNonNegative(x: real, y: real)
    requires x >= 0.0 && y >= 0.0
    ensures x * y >= 0.0
  {
  }

  /** `Mathf.Lerp` (and `Vector3.Lerp` per component): the parameter is
      clamped to [0, 1]. */
  function Lerp(a: real, b: real, t: real): (r: real)
    ensures t <= 0.0 ==> r == a
    ensures t >= 1.0 ==> r == b
    ensures a <= b ==> a <= r <= b
    ensures b <= a ==> b <= r <= a
  {
    var c := Clamp01(t);
    if a <= b then
      MulNonNegative(b - a, c);
      MulNonNegative(b - a, 1.0 - c);
      a + (b - a) * c
    else
      MulNonNegative(a - b, c);
      MulNonNegative(a - b, 1.0 - c);
      a + (b - a) * c
  }

  /** C#'s `%` on `int` for a positive divisor: the remainder takes the
      sign of the dividend (Dafny's `%` is Euclidean). */
  function TruncMod(a: int, n: int): (r: int)
    requires n > 0
    ensures a >= 0 ==> r == a % n && 0 <= r < n
    ensures a < 0 ==> -n < r <= 0
    ensures -n < a < n ==> r == a
    ensures a == n ==> r == 0
  {
    if 0 <= a < n then ModOfSmall(a, n); a % n
    else if a == n then ModOfSelf(n); a % n
    else if a >= 0 then a % n
    else if -a < n then ModOfSmall(-a, n); -((-a) % n)
    else -((-a) % n)
  }

  /** A positive number leaves no remainder on itself. */
  lemma ModOfSelf(n: int)
    requires n > 0
    ensures n % n == 0
  {
    assert n == n * 1 + 0;
  }

  /** A value already in [0, n) is its own (Euclidean) remainder. */
  lemma ModOfSmall(a: int, n: int)
    requires 0 <= a < n
    ensures a % n == a
  {
  }

  function Abs(x: real): (r: real)
    ensures r >= 0.0 && (r == x || r == -x)
  {
    if x < 0.0 then -x else x
  }

  predicate IsDigit(c: char) { '0' <= c <= '9' }

  function DigitChar(d: nat): (c: char)
    requires d < 10
    ensures IsDigit(c) && (c as int) - ('0' as int) == d
  {
    (('0' as int) + d) as char
  }

  /** Decimal rendering of a natural number without leading zeros. */
  function NatToString(n: nat): (r: string)
    ensures |r| >= 1
    ensures forall k :: 0 <= k < |r| ==> IsDigit(r[k])
    decreases n
  {
    if n < 10 then [DigitChar(n)] else NatToString(n / 10) + [DigitChar(n % 10)]
  }

  /** Decimal rendering of an integer, as `"photo" + i` or `$"{i}"` gives it. */
  function IntToString(i: int): (r: string)
    ensures |r| >= 1
    ensures i >= 0 ==> IsDigit(r[0])
    ensures i < 0 ==> r[0] == '-'
  {
    if i < 0 then "-" + NatToString(-i) else NatToString(i)
  }

  function DigitValue(c: char): (d: nat)
    requires IsDigit(c)
    ensures d < 10
  {
    (c as int) - ('0' as int)
  }

  /** Reads back a string of decimal digits (the inverse of NatToString). */
  function ParseNat(s: string): nat
    requires forall k :: 0 <= k < |s| ==> IsDigit(s[k])
  {
    if |s| == 0 then 0
    else ParseNat(s[..|s| - 1]) * 10 + DigitValue(s[|s| - 1])
  }

  function ParseInt(s: string): int
    requires |s| >= 1
    requires s[0] == '-' || IsDigit(s[0])
    requires forall k :: 1 <= k < |s| ==> IsDigit(s[k])
  {
    if s[0] == '-' then 0 - ParseNat(s[1..]) else ParseNat(s)
  }

  lemma {:induction false} ParseNatToString(n: nat)
    ensures ParseNat(NatToString(n)) == n
    decreases n
  {
    if n >= 10 {
      var s := NatToString(n);
      assert s[..|s| - 1] == NatToString(n / 10);
      ParseNatToString(n / 10);
    }
  }

  lemma ParseIntToString(i: int)
    ensures ParseInt(IntToString(i)) == i
  {
    if i < 0 {
      assert IntToString(i)[1..] == NatToString(-i);
      ParseNatToString(-i);
    } else {
      ParseNatToString(i);
    }
  }

  /** Distinct integers render to distinct strings. */
  lemma IntToStringInjective(a: int, b: int)
    ensures IntToString(a) == IntToString(b) ==> a == b
  {
    ParseIntToString(a);
    ParseIntToString(b);
  }

  /** `prefix + IntToString(i) + suffix` determines `i`. */
  lemma FramedIntInjective(prefix: string, suffix: string, a: int, b: int)
    ensures prefix + IntToString(a) + suffix == prefix + IntToString(b) + suffix ==> a == b
  {
    var sa := IntToString(a);
    var sb := IntToString(b);
    if prefix + sa + suffix == prefix + sb + suffix {
      var whole := prefix + sa + suffix;
      assert |sa| == |sb|;
      assert sa == whole[|prefix|..|prefix| + |sa|];
      assert sb == whole[|prefix|..|prefix| + |sb|];
      IntToStringInjective(a, b);
    }
  }
}

=== FILE: inspect_menu.dfy ===
/** `InspectMenuManager`: freezes the main menu's robot while the inspect
    menu is open and puts it back when the menu closes.  It watches the
    menu's active flag from frame to frame; the `ExitInspectMenu` coroutine
    resumes at the end of the same frame, which is the `EndOfFrame` half
    of a frame here.  The robot's body is the one `ResetPosition` moves. */
module InspectMenu {
  import opened Common
  import opened ResetPosition

  /** Whether the four serialized references are assigned, and the reset
      component's own setup. */
  datatype Refs = Refs(
    hasMenu: bool,
    hasController: bool,
    hasRigidbody: bool,
    hasResetPosition: bool,
    reset: ResetPosition.Setup,
    trigger: Trigger)

  predicate AllAssigned(refs: Refs) {
    refs.hasMenu && refs.hasController && refs.hasRigidbody && refs.hasResetPosition
  }

  /** The manager's flag, the camera-less controller's `enabled`, the
      robot's `isKinematic` and body, and whether an exit coroutine waits
      for the end of the frame. */
  datatype Watch = Watch(
    wasActive: bool,
    controllerEnabled: bool,
    kinematic: bool,
    robot: Body,
    exitPending: bool)

  /** `EnterInspectMenu`: controls off, physics off, flag set. */
  function EnterInspectMenu(w: Watch): (r: Watch)
    ensures !r.controllerEnabled && r.kinematic && r.wasActive
    ensures r.robot == w.robot && r.exitPending == w.exitPending
  {
    w.(controllerEnabled := false, kinematic := true, wasActive := true)
  }

  /** The first half of `ExitInspectMenu`: only the robot's pose is reset;
      physics and controls wait for the end of the frame. */
  function ExitStart(w: Watch, refs: Refs): (r: Watch)
    ensures r.robot == ResetRobotPosition(refs.trigger, refs.reset, w.robot)
    ensures r.exitPending
    ensures r.controllerEnabled == w.controllerEnabled && r.kinematic == w.kinematic && r.wasActive == w.wasActive
  {
    w.(robot := ResetRobotPosition(refs.trigger, refs.reset, w.robot), exitPending := true)
  }

  /** The second half: dynamic for a moment to zero the velocities, then
      kinematic again; controls back on; flag cleared. */
  function ExitFinish(w: Watch): (r: Watch)
    ensures r.kinematic && r.controllerEnabled && !r.wasActive && !r.exitPending
    ensures r.robot.velocity == Zero3 && r.robot.angularVelocity == Zero3
    ensures r.robot.position == w.robot.position && r.robot.rotation == w.robot.rotation
  {
    var dynamic := w.(kinematic := false);
    var still := dynamic.(robot := dynamic.robot.(velocity := Zero3, angularVelocity := Zero3));
    still.(kinematic := true, controllerEnabled := true, wasActive := false, exitPending := false)
  }

  /** `Update`: act on the rising and the falling edge of the menu's
      active flag, and only when every reference is assigned. */
  function Update(w: Watch, refs: Refs, menuActive: bool): (r: Watch)
    ensures !AllAssigned(refs) || menuActive == w.wasActive ==> r == w
    ensures AllAssigned(refs) && menuActive && !w.wasActive ==> r == EnterInspectMenu(w)
    ensures AllAssigned(refs) && !menuActive && w.wasActive ==> r == ExitStart(w, refs)
  {
    if !AllAssigned(refs) then w
    else if menuActive then (if !w.wasActive then EnterInspectMenu(w) else w)
    else if w.wasActive then ExitStart(w, refs)
    else w
  }

  /** The end of the frame: a waiting exit coroutine finishes. */
  function EndOfFrame(w: Watch): (r: Watch)
    ensures !r.exitPending
    ensures !w.exitPending ==> r == w
  {
    if w.exitPending then ExitFinish(w) else w
  }

  /** One frame: `Update`, then the end of the frame. */
  function Frame(w: Watch, refs: Refs, menuActive: bool): Watch {
    EndOfFrame(Update(w, refs, menuActive))
  }

  /** Between frames: no exit waiting, the controller is on exactly when
      the menu was last seen closed, and a robot under the menu is
      kinematic. */
  predicate Settled(w: Watch) {
    !w.exitPending && w.controllerEnabled == !w.wasActive && (w.wasActive ==> w.kinematic)
  }

  /** Opening the menu freezes the robot; closing it resets the robot's
      pose and stops it before the controls come back, and it stays
      kinematic. */
  lemma OpenThenClose(w: Watch, refs: Refs)
    requires AllAssigned(refs) && Settled(w) && !w.wasActive
    requires refs.reset.hasRobot
    ensures var inside := Frame(w, refs, true);
            var closed := Frame(inside, refs, false);
            !inside.controllerEnabled && inside.kinematic && inside.robot == w.robot
            && closed.controllerEnabled && closed.kinematic && !closed.wasActive
            && closed.robot.position == refs.trigger.initialPosition
            && closed.robot.rotation == refs.trigger.initialRotation
            && closed.robot.velocity == Zero3 && closed.robot.angularVelocity == Zero3
  {
  }

  function Run(w: Watch, refs: Refs, frames: seq<bool>): Watch
    decreases |frames|
  {
    if |frames| == 0 then w else Run(Frame(w, refs, frames[0]), refs, frames[1..])
  }

  /** Over any run of frames with every reference assigned, the manager
      ends settled with its flag equal to the menu's last state: one
      enter per opening and one exit per closing. */
  lemma {:induction false} TracksMenu(w: Watch, refs: Refs, frames: seq<bool>)
    requires AllAssigned(refs) && Settled(w)
    ensures Settled(Run(w, refs, frames))
    ensures |frames| > 0 ==> Run(w, refs, frames).wasActive == frames[|frames| - 1]
    decreases |frames|
  {
    if |frames| > 0 {
      var next := Frame(w, refs, frames[0]);
      assert Settled(next) && next.wasActive == frames[0];
      TracksMenu(next, refs, frames[1..]);
      if |frames| > 1 {
        assert frames[1..][|frames[1..]| - 1] == frames[|frames| - 1];
      }
    }
  }
}

=== FILE: jackal_controller.dfy ===
/** `JackalController`: the player's robot in the game modules, driven from
    the keyboard or a gamepad as `InputUIManager` reports.  The camera
    follow in `Update` is not part of this model; `FixedUpdate` is
    ground check, driving, then the wheels. */
module JackalController {
  import opened Common
  import opened JackalDrive

  /** The keys the controller reads while the keyboard is in use. */
  datatype Keys = Keys(w: bool, s: bool, a: bool, d: bool, space: bool, leftShift: bool)

  /** The gamepad axes and buttons it reads otherwise. */
  datatype Pad = Pad(vertical: real, horizontal: real, leftBumper: bool, rightBumper: bool)

  /** One frame's input on the device in use. */
  datatype Input = Keyboard(keys: Keys) | Gamepad(pad: Pad)

  /** A held key as an axis step. */
  function KeyValue(held: bool): real {
    if held then 1.0 else 0.0
  }

  /** The driving command of `HandleCarMovementAndRotation`.  The keyboard
      gives W − S and D − A with Space to drive and LeftShift for turbo
      when going forward; the pad drives forward on a negative stick,
      with LeftBumper to drive and RightBumper for turbo. */
  function ReadCommand(input: Input): (r: Command)
    ensures input.Keyboard? ==>
              r.forward == KeyValue(input.keys.w) - KeyValue(input.keys.s)
              && r.turn == KeyValue(input.keys.d) - KeyValue(input.keys.a)
              && r.enableDrive == input.keys.space
              && (r.boost <==> input.keys.leftShift && input.keys.w && !input.keys.s)
    ensures input.Gamepad? ==>
              r.forward == -input.pad.vertical && r.turn == input.pad.horizontal
              && r.enableDrive == input.pad.leftBumper
              && (r.boost <==> input.pad.rightBumper && input.pad.vertical < 0.0)
    ensures -1.0 <= r.forward <= 1.0 || input.Gamepad?
  {
    match input
    case Keyboard(k) =>
      var forward := (if k.w then 1.0 else 0.0) - (if k.s then 1.0 else 0.0);
      var turn := (if k.a then -1.0 else 0.0) + (if k.d then 1.0 else 0.0);
      Command(forward, turn, k.space, k.leftShift && forward > 0.0)
    case Gamepad(p) =>
      Command(-p.vertical, p.horizontal, p.leftBumper, p.rightBumper && p.vertical < 0.0)
  }

  /** On both devices turbo needs a forward drive command and its own
      button. */
  lemma TurboOnlyForward(input: Input)
    ensures ReadCommand(input).boost ==> ReadCommand(input).forward > 0.0
    ensures ReadCommand(input).boost ==>
              (input.Keyboard? && input.keys.leftShift) || (input.Gamepad? && input.pad.rightBumper)
  {
  }

  /** `HandleCarMovementAndRotation`: the pad's axes are stored (the
      keyboard leaves them as they were) and the command drives the car. */
  function HandleCarMovementAndRotation(c: Car, t: Tuning, facing: Vec3, input: Input): (r: Car)
    ensures input.Gamepad? ==> r.verticalInput == input.pad.vertical && r.horizontalInput == input.pad.horizontal
    ensures input.Keyboard? ==> r.verticalInput == c.verticalInput && r.horizontalInput == c.horizontalInput
    ensures r.isTurbo == ReadCommand(input).boost && r.isGrounded == c.isGrounded
    ensures !c.isGrounded ==> r.velocity == c.velocity && r.angularVelocity == Zero3
    ensures c.isGrounded && !ReadCommand(input).enableDrive ==> r.velocity == c.velocity && r.angularVelocity == c.angularVelocity
    ensures c.isGrounded && ReadCommand(input).enableDrive ==>
              var speed := CurrentSpeed(t, ReadCommand(input).boost);
              r.velocity == Vec3(facing.x * ReadCommand(input).forward * speed, c.velocity.y,
                                 facing.z * ReadCommand(input).forward * speed)
  {
    var c := if input.Gamepad? then c.(verticalInput := input.pad.vertical, horizontalInput := input.pad.horizontal) else c;
    Drive(c, t, facing, ReadCommand(input))
  }

  /** The turn the wheel animation reads: on the keyboard A is checked
      before D, so holding both counts as a left turn; on the pad it is
      the stored horizontal input. */
  function WheelTurn(c: Car, input: Input): (r: real)
    ensures input.Keyboard? ==> r == (if input.keys.a then -1.0 else if input.keys.d then 1.0 else 0.0)
    ensures input.Gamepad? ==> r == c.horizontalInput
  {
    match input
    case Keyboard(k) => if k.a then -1.0 else if k.d then 1.0 else 0.0
    case Gamepad(_) => c.horizontalInput
  }

  /** Holding A and D together drives straight but animates a left turn. */
  lemma BothTurnKeysDisagree(c: Car, k: Keys)
    requires k.a && k.d
    ensures ReadCommand(Keyboard(k)).turn == 0.0
    ensures WheelTurn(c, Keyboard(k)) == -1.0
  {
  }

  /** Whether the drive button is held, as the wheel animation reads it. */
  function DriveHeld(input: Input): (r: bool)
    ensures r == ReadCommand(input).enableDrive
  {
    match input
    case Keyboard(k) => k.space
    case Gamepad(p) => p.leftBumper
  }

  /** `UpdateWheelAnimations` as written, given the body's speed (the
      magnitude of its velocity) and facing.  On the keyboard the combined
      speed still uses the horizontal input stored by the last pad frame.
      The turn calls pass their flags as `reverseAll` and `reverseLeft`, so
      on any turn the left side reports reversing and the right side
      reports `reverseAll`. */
  function UpdateWheelAnimations(c: Car, t: Tuning, facing: Vec3, bodySpeed: real, input: Input): (r: Car)
    ensures WheelsStop(CarSpeed(t, bodySpeed, c.horizontalInput), DriveHeld(input)) ==> r == SetWheelAnimationSpeed(c, t, StopCall)
    ensures !WheelsStop(CarSpeed(t, bodySpeed, c.horizontalInput), DriveHeld(input)) && t.hasLeftWheels && t.hasRightWheels ==>
              var reversing := IsReversing(facing, c.velocity);
              var turn := WheelTurn(c, input);
              r.left.speed == r.right.speed == AnimationSpeed(t, CarSpeed(t, bodySpeed, c.horizontalInput))
              && r.left.reversing == (turn != 0.0 || reversing)
              && r.right.reversing == (if turn > 0.0 then !reversing else reversing)
    ensures r.(left := c.left, right := c.right) == c
    ensures r.velocity == c.velocity && r.angularVelocity == c.angularVelocity && r.isGrounded == c.isGrounded
  {
    UpdateWheelsAsWritten(c, t, CarSpeed(t, bodySpeed, c.horizontalInput), DriveHeld(input), WheelTurn(c, input), IsReversing(facing, c.velocity))
  }

  /** The environment of one physics step: how many wheel rays hit, the
      clock, the car's facing, the input, and the body's speed once the
      drive has written its velocity. */
  datatype Physics = Physics(hits: nat, now: real, facing: Vec3, input: Input, bodySpeed: real)

  /** The velocity a physics step leaves when it drives: the animation
      keeps what the drive wrote. */
  lemma DriveThenAnimate(c: Car, t: Tuning, p: Physics)
    ensures var driven := HandleCarMovementAndRotation(CheckGroundStatus(c, t, p.hits, p.now), t, p.facing, p.input);
            var r := UpdateWheelAnimations(driven, t, p.facing, p.bodySpeed, p.input);
            r.isGrounded && ReadCommand(p.input).enableDrive ==>
              var speed := CurrentSpeed(t, ReadCommand(p.input).boost);
              r.velocity == Vec3(p.facing.x * ReadCommand(p.input).forward * speed, c.velocity.y,
                                 p.facing.z * ReadCommand(p.input).forward * speed)
  {
    var grounded := CheckGroundStatus(c, t, p.hits, p.now);
    assert grounded.velocity == c.velocity && grounded.isGrounded == CheckGroundStatus(c, t, p.hits, p.now).isGrounded;
  }

  /** `FixedUpdate`. */
  function FixedUpdate(c: Car, t: Tuning, p: Physics): (r: Car)
    ensures r.isGrounded == CheckGroundStatus(c, t, p.hits, p.now).isGrounded
    ensures r.isGrounded && ReadCommand(p.input).enableDrive ==>
              var speed := CurrentSpeed(t, ReadCommand(p.input).boost);
              r.velocity == Vec3(p.facing.x * ReadCommand(p.input).forward * speed, c.velocity.y,
                                 p.facing.z * ReadCommand(p.input).forward * speed)
    ensures !r.isGrounded ==> r.velocity == c.velocity && r.angularVelocity == Zero3
    ensures r.isGrounded && !ReadCommand(p.input).enableDrive ==> r.velocity == c.velocity && r.angularVelocity == c.angularVelocity
    ensures !ReadCommand(p.input).enableDrive && t.hasLeftWheels && t.hasRightWheels ==>
              r.left == r.right == WheelSide(0.0, false)
  {
    var grounded := CheckGroundStatus(c, t, p.hits, p.now);
    var driven := HandleCarMovementAndRotation(grounded, t, p.facing, p.input);
    DriveThenAnimate(c, t, p);
    UpdateWheelAnimations(driven, t, p.facing, p.bodySpeed, p.input)
  }
}

=== FILE: jackal_drive.dfy ===
/** The driving core shared by `JackalController` and its camera-less copy
    `JackalControllerNoCamera`: ground detection with a grace period,
    writing the rigidbody's velocities, and the wheel animators.  The two
    classes repeat this code line for line; it is defined once here and
    each controller supplies its own reading of the input. */
module JackalDrive {
  import opened Common

  /** The serialized tuning of a controller.  `hasLeftWheels` and
      `hasRightWheels` say whether the animator arrays hold any assigned
      animator. */
  datatype Tuning = Tuning(
    moveSpeed: real,
    turboMultiplier: real,
    turnSpeed: real,
    groundedBufferTime: real,
    groundDrag: real,
    airDrag: real,
    minAnimationSpeed: real,
    maxAnimationSpeed: real,
    hasLeftWheels: bool,
    hasRightWheels: bool)

  const DefaultTuning: Tuning := Tuning(10.0, 2.0, 50.0, 0.2, 1.0, 0.5, 0.0, 1.0, true, true)

  /** `Mathf.Deg2Rad` as the engine's float holds it. */
  const Deg2Rad: real := 0.0174532924

  /** Below this combined speed the wheels stand still. */
  const IdleSpeed: real := 0.1

  /** What every animator on one side was last told: its playback speed
      and its `IsReversing` parameter. */
  datatype WheelSide = WheelSide(speed: real, reversing: bool)

  /** The controller's fields and the parts of its rigidbody it writes. */
  datatype Car = Car(
    isGrounded: bool,
    lastGroundedTime: real,
    drag: real,
    velocity: Vec3,
    angularVelocity: Vec3,
    isTurbo: bool,
    horizontalInput: real,
    verticalInput: real,
    left: WheelSide,
    right: WheelSide)

  // ---------------------------------------------------------------------
  // Ground status

  /** `CheckGroundStatus`, given how many wheel rays hit the ground and the
      clock.  A hit grounds the car and stamps the time; without one the
      car stays grounded, drag untouched, for `groundedBufferTime` after
      the last hit, and is airborne after that. */
  function CheckGroundStatus(c: Car, t: Tuning, hits: nat, now: real): (r: Car)
    ensures hits > 0 ==> r.isGrounded && r.lastGroundedTime == now && r.drag == t.groundDrag
    ensures hits == 0 ==> r.lastGroundedTime == c.lastGroundedTime
    ensures hits == 0 ==> (r.isGrounded <==> now - c.lastGroundedTime < t.groundedBufferTime)
    ensures hits == 0 ==> r.drag == if r.isGrounded then c.drag else t.airDrag
    ensures r.(isGrounded := c.isGrounded, lastGroundedTime := c.lastGroundedTime, drag := c.drag) == c
  {
    if hits > 0 then c.(isGrounded := true, lastGroundedTime := now, drag := t.groundDrag)
    else if now - c.lastGroundedTime < t.groundedBufferTime then c.(isGrounded := true)
    else c.(isGrounded := false, drag := t.airDrag)
  }

  /** Ground checks at the given times with no ray hitting. */
  function NoHitChecks(c: Car, t: Tuning, times: seq<real>): Car
    decreases |times|
  {
    if |times| == 0 then c else NoHitChecks(CheckGroundStatus(c, t, 0, times[0]), t, times[1..])
  }

  /** After the last hit, a run of hitless checks leaves the car grounded
      exactly when the latest check is still inside the buffer, and it
      never changes the drag while the car stays grounded. */
  lemma {:induction false} GroundedBuffer(c: Car, t: Tuning, times: seq<real>)
    requires |times| > 0
    ensures var r := NoHitChecks(c, t, times);
            r.lastGroundedTime == c.lastGroundedTime
            && (r.isGrounded <==> times[|times| - 1] - c.lastGroundedTime < t.groundedBufferTime)
            && (r.isGrounded ==> r.drag == c.drag || r.drag == t.airDrag)
            && (!r.isGrounded ==> r.drag == t.airDrag)
    decreases |times|
  {
    var next := CheckGroundStatus(c, t, 0, times[0]);
    if |times| > 1 {
      GroundedBuffer(next, t, times[1..]);
      assert times[1..][|times[1..]| - 1] == times[|times| - 1];
    }
  }

  // ---------------------------------------------------------------------
  // Driving

  /** One frame's driving command, whichever device produced it. */
  datatype Command = Command(forward: real, turn: real, enableDrive: bool, boost: bool)

  /** The speed in force: boosted by the turbo multiplier under turbo. */
  function CurrentSpeed(t: Tuning, turbo: bool): (r: real)
    ensures turbo ==> r == t.moveSpeed * t.turboMultiplier
    ensures !turbo ==> r == t.moveSpeed
  {
    if turbo then t.moveSpeed * t.turboMultiplier else t.moveSpeed
  }

  /** The yaw rate in radians a turn input asks for. */
  function TurnRate(t: Tuning, turn: real): (r: real)
    ensures turn == 0.0 ==> r == 0.0
    ensures t.turnSpeed > 0.0 ==> (r > 0.0 <==> turn > 0.0) && (r < 0.0 <==> turn < 0.0)
  {
    turn * t.turnSpeed * Deg2Rad
  }

  /** The tail of `HandleCarMovementAndRotation`, from `isTurbo = boost`
      on.  Grounded with drive enabled, the planar velocity follows the
      car's facing and the vertical velocity is kept; in the air only the
      spin is stopped; grounded without drive nothing is written. */
  function Drive(c: Car, t: Tuning, facing: Vec3, cmd: Command): (r: Car)
    ensures r.isTurbo == cmd.boost
    ensures c.isGrounded && cmd.enableDrive ==>
              var speed := CurrentSpeed(t, cmd.boost);
              r.velocity == Vec3(facing.x * cmd.forward * speed, c.velocity.y, facing.z * cmd.forward * speed)
              && r.angularVelocity == Vec3(0.0, TurnRate(t, cmd.turn), 0.0)
    ensures c.isGrounded && cmd.enableDrive && cmd.turn == 0.0 ==> r.angularVelocity == Zero3
    ensures !c.isGrounded ==> r.velocity == c.velocity && r.angularVelocity == Zero3
    ensures c.isGrounded && !cmd.enableDrive ==> r.velocity == c.velocity && r.angularVelocity == c.angularVelocity
    ensures r.(isTurbo := c.isTurbo, velocity := c.velocity, angularVelocity := c.angularVelocity) == c
  {
    var c := c.(isTurbo := cmd.boost);
    var speed := CurrentSpeed(t, c.isTurbo);
    if c.isGrounded && cmd.enableDrive then
      var fixed := Vec3(facing.x * cmd.forward * speed, facing.y * cmd.forward * speed, facing.z * cmd.forward * speed);
      var spin := if cmd.turn != 0.0 then Vec3(0.0, TurnRate(t, cmd.turn), 0.0) else Zero3;
      c.(velocity := Vec3(fixed.x, c.velocity.y, fixed.z), angularVelocity := spin)
    else if !c.isGrounded then c.(angularVelocity := Zero3)
    else c
  }

  /** On level ground (a facing with no vertical part, of unit length) the
      car's planar speed is the forward command's magnitude times the
      current speed, whatever the heading: the squared planar velocity is
      the squared product. */
  lemma DrivePlanarSpeed(c: Car, t: Tuning, facing: Vec3, cmd: Command)
    requires c.isGrounded && cmd.enableDrive
    requires facing.x * facing.x + facing.z * facing.z == 1.0
    ensures var v := Drive(c, t, facing, cmd).velocity;
            var k := cmd.forward * CurrentSpeed(t, cmd.boost);
            v.x * v.x + v.z * v.z == k * k
  {
    var v := Drive(c, t, facing, cmd).velocity;
    var k := cmd.forward * CurrentSpeed(t, cmd.boost);
    assert v.x == facing.x * k && v.z == facing.z * k;
    assert v.x * v.x + v.z * v.z == (facing.x * facing.x + facing.z * facing.z) * (k * k);
  }

  /** Turbo multiplies the planar velocity by `turboMultiplier` and leaves
      the vertical velocity and the spin as they are without it. */
  lemma TurboScalesDrive(c: Car, t: Tuning, facing: Vec3, cmd: Command)
    requires c.isGrounded && cmd.enableDrive
    ensures var plain := Drive(c, t, facing, cmd.(boost := false));
            var turbo := Drive(c, t, facing, cmd.(boost := true));
            turbo.velocity.x == t.turboMultiplier * plain.velocity.x
            && turbo.velocity.z == t.turboMultiplier * plain.velocity.z
            && turbo.velocity.y == plain.velocity.y
            && turbo.angularVelocity == plain.angularVelocity
  {
    var plain := Drive(c, t, facing, cmd.(boost := false));
    var turbo := Drive(c, t, facing, cmd.(boost := true));
    assert turbo.velocity.x == (facing.x * cmd.forward * t.moveSpeed) * t.turboMultiplier;
    assert turbo.velocity.z == (facing.z * cmd.forward * t.moveSpeed) * t.turboMultiplier;
  }

  // ---------------------------------------------------------------------
  // Wheel animation

  /** The arguments of one `SetWheelAnimationSpeed` call. */
  datatype WheelCall = WheelCall(speed: real, reverseAll: bool, reverseLeft: bool, reverseRight: bool)

  /** `SetWheelAnimationSpeed(0)`: the call that stops the wheels. */
  const StopCall: WheelCall := WheelCall(0.0, false, false, false)

  /** `SetWheelAnimationSpeed`: every assigned animator on a side gets the
      speed, and its `IsReversing` is the side's flag or `reverseAll`. */
  function SetWheelAnimationSpeed(c: Car, t: Tuning, call: WheelCall): (r: Car)
    ensures t.hasLeftWheels ==> r.left == WheelSide(call.speed, call.reverseAll || call.reverseLeft)
    ensures t.hasRightWheels ==> r.right == WheelSide(call.speed, call.reverseAll || call.reverseRight)
    ensures !t.hasLeftWheels ==> r.left == c.left
    ensures !t.hasRightWheels ==> r.right == c.right
    ensures r.(left := c.left, right := c.right) == c
  {
    c.(left := if t.hasLeftWheels then WheelSide(call.speed, call.reverseAll || call.reverseLeft) else c.left,
       right := if t.hasRightWheels then WheelSide(call.speed, call.reverseAll || call.reverseRight) else c.right)
  }

  /** The combined speed the wheels judge by: the body's speed plus the
      yaw rate the stored horizontal input asks for. */
  function CarSpeed(t: Tuning, bodySpeed: real, horizontalInput: real): (r: real)
    ensures r >= bodySpeed
    ensures horizontalInput == 0.0 ==> r == bodySpeed
  {
    bodySpeed + Abs(TurnRate(t, horizontalInput))
  }

  /** The animator speed: the combined speed as a share of the top turbo
      speed, clamped to [0, 1] and mapped onto the animation range.  A
      positive speed over a zero top speed is the float infinity, which
      the clamp makes 1. */
  function AnimationSpeed(t: Tuning, carSpeed: real): (r: real)
    requires carSpeed > 0.0
    ensures t.minAnimationSpeed <= t.maxAnimationSpeed ==> t.minAnimationSpeed <= r <= t.maxAnimationSpeed
    ensures t.moveSpeed * t.turboMultiplier == 0.0 ==> r == t.maxAnimationSpeed
    ensures t.moveSpeed * t.turboMultiplier > 0.0 && carSpeed >= t.moveSpeed * t.turboMultiplier ==> r == t.maxAnimationSpeed
  {
    var top := t.moveSpeed * t.turboMultiplier;
    var share := if top == 0.0 then 1.0 else carSpeed / top;
    Lerp(t.minAnimationSpeed, t.maxAnimationSpeed, share)
  }

  /** The car moves backwards when its velocity points against its facing. */
  predicate IsReversing(facing: Vec3, velocity: Vec3) {
    facing.x * velocity.x + facing.y * velocity.y + facing.z * velocity.z < 0.0
  }

  /** The call `JackalController` makes for a turn, with its positional arguments:
      the first flag lands in `reverseAll`, the second in `reverseLeft`,
      and `reverseRight` keeps its default. */
  function TurnCallAsWritten(speed: real, turn: real, reversing: bool): (r: WheelCall)
    ensures turn != 0.0 ==> r.reverseAll || r.reverseLeft
    ensures turn == 0.0 ==> r == WheelCall(speed, reversing, false, false)
    ensures !r.reverseRight && r.speed == speed
  {
    if turn > 0.0 then WheelCall(speed, !reversing, reversing, false)
    else if turn < 0.0 then WheelCall(speed, reversing, !reversing, false)
    else WheelCall(speed, reversing, false, false)
  }

  /** The call the comments describe: on a right turn the left wheels run
      backwards and the right ones forwards (flipped when reversing), and
      the other way round on a left turn. */
  function TurnCall(speed: real, turn: real, reversing: bool): (r: WheelCall)
    ensures !r.reverseAll || turn == 0.0
    ensures turn != 0.0 ==> r.reverseLeft != r.reverseRight
    ensures turn > 0.0 ==> r.reverseLeft == !reversing
    ensures turn < 0.0 ==> r.reverseLeft == reversing
    ensures turn == 0.0 ==> r == TurnCallAsWritten(speed, turn, reversing)
    ensures r.speed == speed
  {
    if turn > 0.0 then WheelCall(speed, false, !reversing, reversing)
    else if turn < 0.0 then WheelCall(speed, false, reversing, !reversing)
    else WheelCall(speed, reversing, false, false)
  }

  /** The wheels stop when the car is nearly still or drive is not held. */
  predicate WheelsStop(carSpeed: real, driveHeld: bool) {
    carSpeed < IdleSpeed || !driveHeld
  }

  /** `UpdateWheelAnimations` as `JackalController` writes it. */
  function UpdateWheelsAsWritten(c: Car, t: Tuning, carSpeed: real, driveHeld: bool, turn: real, reversing: bool): (r: Car)
    ensures WheelsStop(carSpeed, driveHeld) ==> r == SetWheelAnimationSpeed(c, t, StopCall)
    ensures !WheelsStop(carSpeed, driveHeld) && turn != 0.0 && t.hasLeftWheels ==> r.left.reversing
    ensures !WheelsStop(carSpeed, driveHeld) && t.hasLeftWheels && t.hasRightWheels ==>
              r.left.speed == r.right.speed == AnimationSpeed(t, carSpeed)
              && (turn == 0.0 ==> r.left.reversing == r.right.reversing == reversing)
              && (turn > 0.0 ==> r.right.reversing == !reversing)
              && (turn < 0.0 ==> r.right.reversing == reversing)
  {
    if WheelsStop(carSpeed, driveHeld) then SetWheelAnimationSpeed(c, t, StopCall)
    else SetWheelAnimationSpeed(c, t, TurnCallAsWritten(AnimationSpeed(t, carSpeed), turn, reversing))
  }

  /** `UpdateWheelAnimations` with the flags the comments describe: the
      corrected call, which the controllers would make once the arguments
      are passed as `reverseLeft` and `reverseRight`. */
  function UpdateWheels(c: Car, t: Tuning, carSpeed: real, driveHeld: bool, turn: real, reversing: bool): (r: Car)
    ensures WheelsStop(carSpeed, driveHeld) ==> r == SetWheelAnimationSpeed(c, t, StopCall)
    ensures WheelsStop(carSpeed, driveHeld) && t.hasLeftWheels ==> r.left == WheelSide(0.0, false)
    ensures !WheelsStop(carSpeed, driveHeld) && t.hasLeftWheels && t.hasRightWheels ==>
              r.left.speed == r.right.speed == AnimationSpeed(t, carSpeed)
              && (turn == 0.0 ==> r.left.reversing == r.right.reversing == reversing)
              && (turn > 0.0 ==> r.left.reversing == !reversing && r.right.reversing == reversing)
              && (turn < 0.0 ==> r.left.reversing == reversing && r.right.reversing == !reversing)
  {
    if WheelsStop(carSpeed, driveHeld) then SetWheelAnimationSpeed(c, t, StopCall)
    else SetWheelAnimationSpeed(c, t, TurnCall(AnimationSpeed(t, carSpeed), turn, reversing))
  }

  /** As written, a turn always reports the left side as reversing, and the
      right side as reversing whenever the car moves forward on a right
      turn or backward on a left turn. */
  lemma AsWrittenTurnFlags(c: Car, t: Tuning, carSpeed: real, driveHeld: bool, turn: real, reversing: bool)
    requires !WheelsStop(carSpeed, driveHeld) && t.hasLeftWheels && t.hasRightWheels
    ensures var r := UpdateWheelsAsWritten(c, t, carSpeed, driveHeld, turn, reversing);
            (turn != 0.0 ==> r.left.reversing)
            && (turn > 0.0 ==> r.right.reversing == !reversing)
            && (turn < 0.0 ==> r.right.reversing == reversing)
            && (turn == 0.0 ==> r == UpdateWheels(c, t, carSpeed, driveHeld, turn, reversing))
  {
  }

  /** The discrepancy on a concrete frame: a right turn while moving
      forward.  `JackalController` as written reports both sides reversing; the comments want
      the left side reversing and the right side forward. */
  lemma RightTurnForwardReportsBothReversing(c: Car)
    ensures var asWritten := UpdateWheelsAsWritten(c, DefaultTuning, 5.0, true, 1.0, false);
            var intended := UpdateWheels(c, DefaultTuning, 5.0, true, 1.0, false);
            asWritten.left.reversing && asWritten.right.reversing
            && intended.left.reversing && !intended.right.reversing
  {
  }

  /** With the corrected call the two sides turn opposite ways on every
      turn, and the correction changes nothing when driving straight or
      standing still. */
  lemma CorrectedTurnsOpposite(c: Car, t: Tuning, carSpeed: real, driveHeld: bool, turn: real, reversing: bool)
    requires t.hasLeftWheels && t.hasRightWheels
    ensures var r := UpdateWheels(c, t, carSpeed, driveHeld, turn, reversing);
            (!WheelsStop(carSpeed, driveHeld) && turn != 0.0 ==> r.left.reversing != r.right.reversing)
            && (WheelsStop(carSpeed, driveHeld) || turn == 0.0 ==> r == UpdateWheelsAsWritten(c, t, carSpeed, driveHeld, turn, reversing))
  {
  }
}

=== FILE: jackal_main_menu.dfy ===
/** `JackalMainMenu`: the robot that circles the main menu's centre point
    and, on request, drives back to it.  The robot's place is its
    distance from the centre point, which is all the two motions decide
    on; the clock and `deltaTime` are inputs. */
module JackalMainMenu {

  datatype Setup = Setup(radius: real, returnSpeed: real)

  const DefaultSpeed: real := 5.0
  const DefaultRadius: real := 10.0
  const DefaultReturnSpeed: real := 3.0

  /** The distance at which the robot counts as back at the centre. */
  const ArrivalDistance: real := 0.1

  datatype Robot = Robot(isMovingInCircle: bool, isReturningToCenter: bool, distance: real)

  /** Which motion a frame ran. */
  datatype Motion = Circling | Returning | Idle

  /** `StopAndReturnToCenter`. */
  function StopAndReturnToCenter(m: Robot): (r: Robot)
    ensures !r.isMovingInCircle && r.isReturningToCenter && r.distance == m.distance
  {
    m.(isMovingInCircle := false, isReturningToCenter := true)
  }

  /** `StartMovingInCircle`. */
  function StartMovingInCircle(m: Robot): (r: Robot)
    ensures r.isMovingInCircle && !r.isReturningToCenter && r.distance == m.distance
  {
    m.(isMovingInCircle := true, isReturningToCenter := false)
  }

  /** The distance left after `Vector3.MoveTowards` from `d` away with the
      step `maxDelta`: the target itself when it is within reach, else the
      distance less the step. */
  function MoveTowardsDistance(d: real, maxDelta: real): (r: real)
    requires d >= 0.0
    ensures maxDelta >= 0.0 ==> 0.0 <= r <= d
    ensures maxDelta > 0.0 && d > 0.0 ==> r < d
    ensures maxDelta >= d ==> r == 0.0
  {
    if d == 0.0 || (maxDelta >= 0.0 && d <= maxDelta) then 0.0 else d - maxDelta
  }

  /** `MoveInCircle`: the new position is the centre plus a horizontal
      offset whose length is the absolute value of `radius`. */
  function MoveInCircle(m: Robot, setup: Setup): (r: Robot)
    ensures r.distance >= 0.0 && (r.distance == setup.radius || r.distance == -setup.radius)
    ensures r.isMovingInCircle == m.isMovingInCircle && r.isReturningToCenter == m.isReturningToCenter
  {
    m.(distance := if setup.radius < 0.0 then -setup.radius else setup.radius)
  }

  /** `MoveToCenter`: one step towards the centre, and the mode ends once
      the robot is within 0.1 of it. */
  function MoveToCenter(m: Robot, setup: Setup, dt: real): (r: Robot)
    requires m.distance >= 0.0
    ensures r.isMovingInCircle == m.isMovingInCircle
    ensures r.isReturningToCenter <==> m.isReturningToCenter && r.distance >= ArrivalDistance
    ensures dt * setup.returnSpeed >= 0.0 ==> 0.0 <= r.distance <= m.distance
  {
    var d := MoveTowardsDistance(m.distance, dt * setup.returnSpeed);
    if d < ArrivalDistance then m.(distance := d, isReturningToCenter := false)
    else m.(distance := d)
  }

  /** `Update`: returning takes priority; circling runs only when not
      returning. */
  function Update(m: Robot, setup: Setup, dt: real): (r: (Robot, Motion))
    requires m.distance >= 0.0
    ensures r.1 == Returning <==> m.isReturningToCenter
    ensures r.1 == Circling <==> m.isMovingInCircle && !m.isReturningToCenter
    ensures r.1 == Idle ==> r.0 == m
    ensures r.0.distance >= 0.0
  {
    if m.isMovingInCircle && !m.isReturningToCenter then (MoveInCircle(m, setup), Circling)
    else if m.isReturningToCenter then
      (MoveToCenter(m, setup, dt), Returning)
    else (m, Idle)
  }

  /** The motions a run of frames with the given `deltaTime`s performs. */
  function Run(m: Robot, setup: Setup, dts: seq<real>): (r: (Robot, seq<Motion>))
    requires m.distance >= 0.0
    ensures |r.1| == |dts| && r.0.distance >= 0.0
    decreases |dts|
  {
    if |dts| == 0 then (m, [])
    else
      var u := Update(m, setup, dts[0]);
      var rest := Run(u.0, setup, dts[1..]);
      (rest.0, [u.1] + rest.1)
  }

  /** Once the robot has arrived it stays put: every later frame is idle
      until `StartMovingInCircle` is called. */
  lemma {:induction false} ArrivedStaysIdle(m: Robot, setup: Setup, dts: seq<real>)
    requires m.distance >= 0.0 && !m.isMovingInCircle && !m.isReturningToCenter
    ensures Run(m, setup, dts).0 == m
    ensures forall i :: 0 <= i < |dts| ==> Run(m, setup, dts).1[i] == Idle
    decreases |dts|
  {
    if |dts| > 0 {
      ArrivedStaysIdle(m, setup, dts[1..]);
    }
  }

  /** After `StopAndReturnToCenter`, a frame whose step reaches the centre
      ends the return and leaves the robot idle; a shorter step leaves it
      strictly closer and still returning. */
  lemma ReturnStep(m: Robot, setup: Setup, dt: real)
    requires m.distance > 0.0 && dt * setup.returnSpeed > 0.0
    ensures var u := Update(StopAndReturnToCenter(m), setup, dt);
            u.1 == Returning && u.0.distance < m.distance && !u.0.isMovingInCircle
            && (dt * setup.returnSpeed >= m.distance ==> !u.0.isReturningToCenter && u.0.distance == 0.0)
  {
  }

  /** Restarting the circle after a stop puts the robot back on its
      circle on the next frame. */
  lemma StopThenRestartCircles(m: Robot, setup: Setup, dt: real)
    requires m.distance >= 0.0
    ensures var u := Update(StartMovingInCircle(StopAndReturnToCenter(m)), setup, dt);
            u.1 == Circling && (u.0.distance == setup.radius || u.0.distance == -setup.radius)
  {
  }
}

=== FILE: jackal_no_camera.dfy ===
/** `JackalControllerNoCamera`: the main menu's copy of the controller,
    gamepad only and without the camera.  It drives with the shared core
    and agrees with `JackalController` on every gamepad frame. */
module JackalNoCamera {
  import opened Common
  import opened JackalDrive
  import JackalController

  /** The gamepad axes and buttons it reads. */
  datatype Pad = Pad(vertical: real, horizontal: real, leftBumper: bool, rightBumper: bool)

  /** The axes are stored, turbo is RightBumper with the stick pushed
      forward (negative), and LeftBumper drives with forward = −vertical. */
  function HandleCarMovementAndRotation(c: Car, t: Tuning, facing: Vec3, p: Pad): (r: Car)
    ensures r.verticalInput == p.vertical && r.horizontalInput == p.horizontal
    ensures r.isTurbo <==> p.rightBumper && p.vertical < 0.0
    ensures c.isGrounded && p.leftBumper ==>
              var speed := CurrentSpeed(t, r.isTurbo);
              r.velocity == Vec3(facing.x * -p.vertical * speed, c.velocity.y, facing.z * -p.vertical * speed)
              && r.angularVelocity == Vec3(0.0, TurnRate(t, p.horizontal), 0.0)
    ensures !c.isGrounded ==> r.velocity == c.velocity && r.angularVelocity == Zero3
    ensures c.isGrounded && !p.leftBumper ==> r.velocity == c.velocity && r.angularVelocity == c.angularVelocity
  {
    var c := c.(verticalInput := p.vertical, horizontalInput := p.horizontal);
    var turbo := p.rightBumper && c.verticalInput < 0.0;
    Drive(c, t, facing, Command(-c.verticalInput, c.horizontalInput, p.leftBumper, turbo))
  }

  /** `UpdateWheelAnimations` as written: the wheels follow the stored
      horizontal input and stop without LeftBumper.  The turn calls pass
      their flags as `reverseAll` and `reverseLeft`, as in the full
      controller. */
  function UpdateWheelAnimations(c: Car, t: Tuning, facing: Vec3, bodySpeed: real, p: Pad): (r: Car)
    ensures !p.leftBumper ==> r == SetWheelAnimationSpeed(c, t, StopCall)
    ensures CarSpeed(t, bodySpeed, c.horizontalInput) < IdleSpeed ==> r == SetWheelAnimationSpeed(c, t, StopCall)
    ensures p.leftBumper && CarSpeed(t, bodySpeed, c.horizontalInput) >= IdleSpeed && t.hasLeftWheels && t.hasRightWheels ==>
              var reversing := IsReversing(facing, c.velocity);
              r.left.reversing == (c.horizontalInput != 0.0 || reversing)
              && r.right.reversing == (if c.horizontalInput > 0.0 then !reversing else reversing)
    ensures r.(left := c.left, right := c.right) == c
  {
    UpdateWheelsAsWritten(c, t, CarSpeed(t, bodySpeed, c.horizontalInput), p.leftBumper, c.horizontalInput, IsReversing(facing, c.velocity))
  }

  /** `FixedUpdate`. */
  function FixedUpdate(c: Car, t: Tuning, hits: nat, now: real, facing: Vec3, p: Pad, bodySpeed: real): (r: Car)
    ensures r.isGrounded == CheckGroundStatus(c, t, hits, now).isGrounded
    ensures !r.isGrounded ==> r.velocity == c.velocity && r.angularVelocity == Zero3
    ensures r.isGrounded && !p.leftBumper ==> r.velocity == c.velocity && r.angularVelocity == c.angularVelocity
  {
    var grounded := CheckGroundStatus(c, t, hits, now);
    var driven := HandleCarMovementAndRotation(grounded, t, facing, p);
    UpdateWheelAnimations(driven, t, facing, bodySpeed, p)
  }

  /** The same pad as the full controller sees it. */
  function AsGamepad(p: Pad): JackalController.Input {
    JackalController.Gamepad(JackalController.Pad(p.vertical, p.horizontal, p.leftBumper, p.rightBumper))
  }

  /** The camera-less copy does exactly what the full controller does on a
      gamepad. */
  lemma SameAsGamepadController(c: Car, t: Tuning, hits: nat, now: real, facing: Vec3, p: Pad, bodySpeed: real)
    ensures FixedUpdate(c, t, hits, now, facing, p, bodySpeed)
         == JackalController.FixedUpdate(c, t, JackalController.Physics(hits, now, facing, AsGamepad(p), bodySpeed))
  {
  }
}

=== FILE: lidar_pickup.dfy ===
/** `LiDARPickup`: the floating sensor the robot drives into in module 2.
    Touching it shows instructions; any key closes them, fits the sensor
    to the robot, enables the `LiDARController` and destroys the pickup.
    A reference left unassigned in the scene is a `has…` flag that is
    false, and the object it names is then left alone. */
module LidarPickup {

  datatype Setup = Setup(
    hasPanel: bool,
    hasFloating: bool,
    hasRobotLidar: bool,
    hasController: bool)

  /** The pickup's fields and the active flags of the objects it drives.
      `destroyed` is `Destroy(gameObject)`: a destroyed pickup receives no
      more messages. */
  datatype Pickup = Pickup(
    panelActive: bool,
    floatingActive: bool,
    robotLidarActive: bool,
    controllerEnabled: bool,
    displaying: bool,
    activated: bool,
    destroyed: bool)

  /** A step's result and whether it switched the controller on. */
  datatype Tick = Tick(next: Pickup, enabledController: bool)

  /** `Start`: instructions hidden, pickup visible, robot sensor hidden,
      controller off. */
  function Start(p: Pickup, setup: Setup): (r: Pickup)
    ensures setup.hasPanel ==> !r.panelActive
    ensures setup.hasFloating ==> r.floatingActive
    ensures setup.hasRobotLidar ==> !r.robotLidarActive
    ensures setup.hasController ==> !r.controllerEnabled
    ensures !setup.hasPanel ==> r.panelActive == p.panelActive
    ensures !setup.hasFloating ==> r.floatingActive == p.floatingActive
    ensures !setup.hasRobotLidar ==> r.robotLidarActive == p.robotLidarActive
    ensures !setup.hasController ==> r.controllerEnabled == p.controllerEnabled
    ensures r.displaying == p.displaying && r.activated == p.activated && r.destroyed == p.destroyed
  {
    p.(panelActive := if setup.hasPanel then false else p.panelActive,
       floatingActive := if setup.hasFloating then true else p.floatingActive,
       robotLidarActive := if setup.hasRobotLidar then false else p.robotLidarActive,
       controllerEnabled := if setup.hasController then false else p.controllerEnabled)
  }

  /** The pickup as a fresh scene leaves it. */
  function Initial(setup: Setup): Pickup {
    Start(Pickup(false, true, false, false, false, false, false), setup)
  }

  /** `DisplayLiDARInstructions`. */
  function DisplayInstructions(p: Pickup, setup: Setup): (r: Pickup)
    ensures r.displaying
    ensures setup.hasPanel ==> r.panelActive
    ensures r.(displaying := p.displaying, panelActive := p.panelActive) == p
    ensures !setup.hasPanel ==> r.panelActive == p.panelActive
  {
    p.(displaying := true, panelActive := if setup.hasPanel then true else p.panelActive)
  }

  /** `OnTriggerEnter`: only the player hides the pickup and shows the
      instructions. */
  function OnTriggerEnter(p: Pickup, setup: Setup, isPlayer: bool): (r: Pickup)
    ensures !isPlayer ==> r == p
    ensures isPlayer ==> r.displaying && (setup.hasPanel ==> r.panelActive) && (setup.hasFloating ==> !r.floatingActive)
    ensures r.controllerEnabled == p.controllerEnabled && r.activated == p.activated && r.destroyed == p.destroyed
  {
    if isPlayer then
      DisplayInstructions(p.(floatingActive := if setup.hasFloating then false else p.floatingActive), setup)
    else p
  }

  /** `ActivateLiDARController`: the controller is switched on once,
      guarded by `lidarActivated`; the robot's sensor appears and the
      pickup is destroyed. */
  function Activate(p: Pickup, setup: Setup): (r: Tick)
    ensures r.enabledController <==> setup.hasController && !p.activated
    ensures r.enabledController ==> r.next.controllerEnabled && r.next.activated
    ensures !r.enabledController ==> r.next.controllerEnabled == p.controllerEnabled && r.next.activated == p.activated
    ensures setup.hasRobotLidar ==> r.next.robotLidarActive
    ensures r.next.destroyed
  {
    var enable := setup.hasController && !p.activated;
    var q := if enable then p.(controllerEnabled := true, activated := true) else p;
    var q := if setup.hasRobotLidar then q.(robotLidarActive := true) else q;
    Tick(q.(destroyed := true), enable)
  }

  /** `CloseLiDARInstructions`: the panel goes away first, then the
      controller is activated. */
  function CloseInstructions(p: Pickup, setup: Setup): (r: Tick)
    ensures !r.next.displaying
    ensures setup.hasPanel ==> !r.next.panelActive
    ensures r.next.destroyed
    ensures r.enabledController <==> setup.hasController && !p.activated
  {
    var q := p.(displaying := false, panelActive := if setup.hasPanel then false else p.panelActive);
    Activate(q, setup)
  }

  /** `Update`: a key press closes the instructions, and only while they
      are displayed. */
  function Update(p: Pickup, setup: Setup, anyKeyDown: bool): (r: Tick)
    ensures !(p.displaying && anyKeyDown) ==> r == Tick(p, false)
    ensures p.displaying && anyKeyDown ==> r.next.destroyed && !r.next.displaying
  {
    if p.displaying && anyKeyDown then CloseInstructions(p, setup) else Tick(p, false)
  }

  datatype Event = TriggerEnter(isPlayer: bool) | Frame(anyKeyDown: bool)

  /** One message to the pickup; a destroyed pickup ignores everything. */
  function Step(p: Pickup, setup: Setup, e: Event): (r: Tick)
    ensures p.destroyed ==> r == Tick(p, false)
    ensures r.enabledController ==> !p.destroyed && r.next.destroyed
  {
    if p.destroyed then Tick(p, false)
    else match e
      case TriggerEnter(isPlayer) => Tick(OnTriggerEnter(p, setup, isPlayer), false)
      case Frame(key) => Update(p, setup, key)
  }

  /** The number of times a run switches the controller on, and the
      pickup at its end. */
  datatype Outcome = Outcome(final: Pickup, enables: nat)

  function Run(p: Pickup, setup: Setup, events: seq<Event>): Outcome
    decreases |events|
  {
    if |events| == 0 then Outcome(p, 0)
    else
      var t := Step(p, setup, events[0]);
      var rest := Run(t.next, setup, events[1..]);
      Outcome(rest.final, rest.enables + if t.enabledController then 1 else 0)
  }

  /** A destroyed pickup stays as it is whatever arrives. */
  lemma {:induction false} DestroyedIsInert(p: Pickup, setup: Setup, events: seq<Event>)
    requires p.destroyed
    ensures Run(p, setup, events) == Outcome(p, 0)
    decreases |events|
  {
    if |events| > 0 {
      DestroyedIsInert(p, setup, events[1..]);
    }
  }

  /** Whatever the player does, the controller is switched on at most once,
      and never by a pickup that is already gone. */
  lemma {:induction false} EnabledAtMostOnce(p: Pickup, setup: Setup, events: seq<Event>)
    ensures Run(p, setup, events).enables <= if p.destroyed then 0 else 1
    decreases |events|
  {
    if |events| > 0 {
      var t := Step(p, setup, events[0]);
      if t.enabledController {
        DestroyedIsInert(t.next, setup, events[1..]);
      } else {
        EnabledAtMostOnce(t.next, setup, events[1..]);
      }
    }
  }

  /** The only way to the enabled controller: the player touches the
      pickup, then presses a key. */
  lemma TouchThenKeyEnables(setup: Setup)
    requires setup.hasController
    ensures var t := Step(Initial(setup), setup, TriggerEnter(true));
            var u := Step(t.next, setup, Frame(true));
            u.enabledController && u.next.controllerEnabled && u.next.destroyed
            && (setup.hasRobotLidar ==> u.next.robotLidarActive)
            && (setup.hasFloating ==> !u.next.floatingActive)
  {
  }

  /** Before the player has touched it, no key press does anything. */
  lemma KeysBeforeTouchIgnored(setup: Setup, key: bool)
    ensures Step(Initial(setup), setup, Frame(key)) == Tick(Initial(setup), false)
  {
  }
}

=== FILE: menu_controller.dfy ===
/** `MenuController`: the main menu's four panels, the level descriptions,
    the controller back button and the gamepad navigation cooldown.  The
    event system's selection is an optional button reference; walking the
    `Selectable` graph is replaced by the neighbour it finds. */
module MenuController {
  import opened Common
  import Inspect = ObjectInspector

  /** The four panels: `startMenu`, `selectionMenu`, `settingsMenu`,
      `inspectScreen`. */
  datatype Panel = StartMenu | SelectionMenu | SettingsMenu | InspectScreen

  /** What the event system can have selected. */
  datatype ButtonRef = PlayButton | LevelButton(level: int) | FirstButtonOf(panel: Panel) | Neighbour(id: nat)

  /** One `LevelInfo`'s two objects. */
  datatype LevelView = LevelView(descriptionActive: bool, titleActive: bool)

  /** The serialized references: how many level buttons there are, which
      panels hold a `Button`, and the inspector if one is assigned. */
  datatype Setup = Setup(
    levelButtons: nat,
    panelsWithButton: set<Panel>,
    hasInspector: bool,
    inspector: Inspect.Setup)

  datatype Menu = Menu(
    active: set<Panel>,
    current: Option<Panel>,
    selectedLevel: int,
    levels: seq<LevelView>,
    playShown: bool,
    controller: bool,
    selected: Option<ButtonRef>,
    lastNavigationTime: real,
    selectPending: bool,
    inspector: Inspect.Inspector,
    loadedScene: Option<string>)

  /** `navigationCooldown`, in seconds of unscaled time. */
  const NavigationCooldown: real := 0.25

  /** The scene-name prefix of `StartLevel`. */
  const ScenePrefix: string := "Module_"

  /** Exactly the current panel is showing. */
  predicate OnlyPanel(m: Menu, p: Panel) {
    m.active == {p} && m.current == Some(p)
  }

  /** The level views that are showing. */
  predicate LevelShown(v: LevelView) {
    v.descriptionActive || v.titleActive
  }

  /** `SelectButton`: the button is selected when a controller is
      connected; otherwise nothing is. */
  function SelectButton(m: Menu, b: ButtonRef): (r: Menu)
    ensures r.selected == (if m.controller then Some(b) else None)
    ensures r == m.(selected := r.selected)
  {
    m.(selected := if m.controller then Some(b) else None)
  }

  /** `SelectFirstButtonInMenu`. */
  function SelectFirstButton(m: Menu, setup: Setup, p: Panel): (r: Menu)
    ensures m.controller && p in setup.panelsWithButton ==> r.selected == Some(FirstButtonOf(p))
    ensures !(m.controller && p in setup.panelsWithButton) ==> r == m
    ensures r == m.(selected := r.selected)
  {
    if !m.controller then m
    else if p in setup.panelsWithButton then SelectButton(m, FirstButtonOf(p))
    else m
  }

  /** `HideAllLevelDescriptions`: every title and description and the play
      button are hidden. */
  function HideAllLevelDescriptions(m: Menu): (r: Menu)
    ensures |r.levels| == |m.levels| && !r.playShown
    ensures forall j :: 0 <= j < |r.levels| ==> !LevelShown(r.levels[j])
    ensures r == m.(levels := r.levels, playShown := false)
  {
    m.(levels := seq(|m.levels|, j => LevelView(false, false)), playShown := false)
  }

  /** `ShowLevelDescription`: the index is recorded, only that level's
      title and description show (none when out of range) and the play
      button shows. */
  function ShowLevelDescription(m: Menu, i: int): (r: Menu)
    ensures r.selectedLevel == i && r.playShown && |r.levels| == |m.levels|
    ensures forall j :: 0 <= j < |r.levels| ==>
              (r.levels[j].descriptionActive <==> j == i) && (r.levels[j].titleActive <==> j == i)
    ensures r == m.(levels := r.levels, playShown := true, selectedLevel := i)
  {
    var h := HideAllLevelDescriptions(m).(selectedLevel := i);
    var shown := if 0 <= i < |h.levels| then h.levels[i := LevelView(true, true)] else h.levels;
    h.(levels := shown, playShown := true)
  }

  /** `ShowStartMenu`. */
  function ShowStartMenu(m: Menu): (r: Menu)
    ensures OnlyPanel(r, StartMenu)
    ensures !r.playShown && forall j :: 0 <= j < |r.levels| ==> !LevelShown(r.levels[j])
    ensures r.selected == if m.controller then Some(PlayButton) else m.selected
    ensures r.selectedLevel == m.selectedLevel && r.inspector == m.inspector && r.controller == m.controller
  {
    var h := HideAllLevelDescriptions(m.(active := {StartMenu}));
    var r := h.(current := Some(StartMenu));
    if r.controller then SelectButton(r, PlayButton) else r
  }

  /** `ShowSelectionMenu`: the selected level's description shows. */
  function ShowSelectionMenu(m: Menu, setup: Setup): (r: Menu)
    requires setup.levelButtons > 0
    ensures OnlyPanel(r, SelectionMenu)
    ensures r.playShown && r.selectedLevel == m.selectedLevel && |r.levels| == |m.levels|
    ensures forall j :: 0 <= j < |r.levels| ==> (LevelShown(r.levels[j]) <==> j == m.selectedLevel)
    ensures r.selected == if m.controller then Some(LevelButton(0)) else m.selected
    ensures r.inspector == m.inspector && r.controller == m.controller
  {
    var h := HideAllLevelDescriptions(m.(active := {SelectionMenu}));
    var r := ShowLevelDescription(h, m.selectedLevel).(current := Some(SelectionMenu));
    if r.controller then SelectButton(r, LevelButton(0)) else r
  }

  /** `ShowSettingsMenu`. */
  function ShowSettingsMenu(m: Menu, setup: Setup): (r: Menu)
    ensures OnlyPanel(r, SettingsMenu)
    ensures r == m.(active := {SettingsMenu}, current := Some(SettingsMenu), selected := r.selected)
  {
    SelectFirstButton(m.(active := {SettingsMenu}, current := Some(SettingsMenu)), setup, SettingsMenu)
  }

  /** `ShowInspectScreen`. */
  function ShowInspectScreen(m: Menu, setup: Setup): (r: Menu)
    ensures OnlyPanel(r, InspectScreen)
    ensures r == m.(active := {InspectScreen}, current := Some(InspectScreen), selected := r.selected)
  {
    SelectFirstButton(m.(active := {InspectScreen}, current := Some(InspectScreen)), setup, InspectScreen)
  }

  /** `LevelButtonClicked`: the level is selected, described and its button
      selected. */
  function LevelButtonClicked(m: Menu, setup: Setup, i: int): (r: Menu)
    requires 0 <= i < setup.levelButtons
    ensures r.selectedLevel == i && r.playShown
    ensures forall j :: 0 <= j < |r.levels| ==> (LevelShown(r.levels[j]) <==> j == i)
    ensures r.active == m.active && r.current == m.current && r.inspector == m.inspector
  {
    SelectButton(ShowLevelDescription(m.(selectedLevel := i), i), LevelButton(i))
  }

  /** `PlayButtonClicked`: the selection menu, describing the level that was
      selected before. */
  function PlayButtonClicked(m: Menu, setup: Setup): (r: Menu)
    requires 0 <= m.selectedLevel < setup.levelButtons
    ensures OnlyPanel(r, SelectionMenu)
    ensures r.selectedLevel == m.selectedLevel
    ensures forall j :: 0 <= j < |r.levels| ==> (LevelShown(r.levels[j]) <==> j == m.selectedLevel)
  {
    LevelButtonClicked(ShowSelectionMenu(m, setup), setup, m.selectedLevel)
  }

  /** `BackToStartMenu`. */
  function BackToStartMenu(m: Menu): (r: Menu)
    ensures OnlyPanel(r, StartMenu)
    ensures r.selected == if m.controller then Some(PlayButton) else None
    ensures r.inspector == m.inspector && r.selectedLevel == m.selectedLevel
  {
    SelectButton(ShowStartMenu(m), PlayButton)
  }

  /** The scene `StartLevel` loads for a level index, if any. */
  function SceneFor(level: int): (r: Option<string>)
    ensures r.Some? <==> level >= 0
    ensures r.Some? ==> |r.value| > |ScenePrefix| && r.value[..|ScenePrefix|] == ScenePrefix
  {
    if level >= 0 then Some(ScenePrefix + IntToString(level + 1)) else None
  }

  /** The scene name carries the level number one above the index, and
      distinct levels load distinct scenes. */
  lemma SceneNameNumbersLevel(level: int, other: int)
    requires level >= 0
    ensures var name := SceneFor(level).value;
            && |name| > |ScenePrefix|
            && (forall k :: |ScenePrefix| <= k < |name| ==> IsDigit(name[k]))
            && ParseNat(name[|ScenePrefix|..]) == level + 1
    ensures other >= 0 && SceneFor(other) == SceneFor(level) ==> other == level
  {
    var name := SceneFor(level).value;
    assert name[|ScenePrefix|..] == NatToString(level + 1);
    ParseNatToString(level + 1);
    FramedIntInjective(ScenePrefix, "", level + 1, other + 1);
    assert ScenePrefix + IntToString(level + 1) + "" == ScenePrefix + IntToString(level + 1);
    assert ScenePrefix + IntToString(other + 1) + "" == ScenePrefix + IntToString(other + 1);
  }

  /** `StartLevel`: loads "Module_<index + 1>" for a non-negative index. */
  function StartLevel(m: Menu): (r: Menu)
    ensures r.loadedScene == if m.selectedLevel >= 0 then SceneFor(m.selectedLevel) else m.loadedScene
    ensures r == m.(loadedScene := r.loadedScene)
  {
    if m.selectedLevel >= 0 then m.(loadedScene := SceneFor(m.selectedLevel)) else m
  }

  /** `OpenSettingsMenu`. */
  function OpenSettingsMenu(m: Menu, setup: Setup): (r: Menu)
    ensures OnlyPanel(r, SettingsMenu)
    ensures r.inspector == m.inspector
  {
    SelectFirstButton(ShowSettingsMenu(m, setup), setup, SettingsMenu)
  }

  /** `OpenInspectScreen`: the inspect screen, and inspection starts when an
      inspector is assigned. */
  function OpenInspectScreen(m: Menu, setup: Setup): (r: Menu)
    ensures OnlyPanel(r, InspectScreen)
    ensures r.inspector == if setup.hasInspector then Inspect.StartInspection(m.inspector, setup.inspector) else m.inspector
  {
    var r := ShowInspectScreen(m, setup);
    if setup.hasInspector then r.(inspector := Inspect.StartInspection(r.inspector, setup.inspector)) else r
  }

  /** `BackToSelectionMenuFromInspect`: the selection menu with the first
      level button selected, and inspection stops. */
  function BackToSelectionMenuFromInspect(m: Menu, setup: Setup): (r: Menu)
    requires setup.levelButtons > 0
    ensures OnlyPanel(r, SelectionMenu)
    ensures r.selected == if m.controller then Some(LevelButton(0)) else None
    ensures r.inspector == if setup.hasInspector then Inspect.StopInspection(m.inspector, setup.inspector) else m.inspector
  {
    var r := SelectButton(ShowSelectionMenu(m, setup), LevelButton(0));
    if setup.hasInspector then r.(inspector := Inspect.StopInspection(r.inspector, setup.inspector)) else r
  }

  /** `BackToSelectionMenu`. */
  function BackToSelectionMenu(m: Menu, setup: Setup): (r: Menu)
    requires setup.levelButtons > 0
    ensures OnlyPanel(r, SelectionMenu)
    ensures r.selected == if m.controller then Some(LevelButton(0)) else None
    ensures r.inspector == m.inspector
  {
    SelectButton(ShowSelectionMenu(m, setup), LevelButton(0))
  }

  /** `HandleControllerBackInput`: B goes back one panel; on the start menu
      (or before any panel) it does nothing. */
  function HandleControllerBackInput(m: Menu, setup: Setup, bPressed: bool): (r: Menu)
    requires setup.levelButtons > 0
    ensures !bPressed || m.current == Some(StartMenu) || m.current.None? ==> r == m
    ensures r.lastNavigationTime == m.lastNavigationTime
  {
    if !bPressed then m
    else match m.current
      case Some(SelectionMenu) => BackToStartMenu(m)
      case Some(InspectScreen) => BackToSelectionMenuFromInspect(m, setup)
      case Some(SettingsMenu) => BackToSelectionMenu(m, setup)
      case _ => m
  }

  /** The back button's transitions: selection to start, inspect to
      selection with inspection stopped, settings to selection. */
  lemma BackTransitions(m: Menu, setup: Setup)
    requires setup.levelButtons > 0
    ensures m.current == Some(SelectionMenu) ==> OnlyPanel(HandleControllerBackInput(m, setup, true), StartMenu)
    ensures m.current == Some(SettingsMenu) ==>
              OnlyPanel(HandleControllerBackInput(m, setup, true), SelectionMenu)
              && HandleControllerBackInput(m, setup, true).inspector == m.inspector
    ensures m.current == Some(InspectScreen) ==>
              OnlyPanel(HandleControllerBackInput(m, setup, true), SelectionMenu)
              && (setup.hasInspector && setup.inspector.hasRobot ==>
                    !HandleControllerBackInput(m, setup, true).inspector.isInspecting)
  {
  }

  /** What `NavigateMenu` finds this frame: the neighbour in the stick's
      vertical direction and in its horizontal direction, when the stick is
      past the threshold and a neighbour exists. */
  datatype Navigation = Navigation(vertical: Option<ButtonRef>, horizontal: Option<ButtonRef>)

  /** `NavigateMenu` without slider steps: nothing within the cooldown;
      otherwise each found neighbour is selected and restarts the cooldown. */
  function NavigateMenu(m: Menu, now: real, nav: Navigation): (r: Menu)
    ensures now - m.lastNavigationTime < NavigationCooldown ==> r == m
    ensures r.selected != m.selected || r.lastNavigationTime != m.lastNavigationTime ==>
              now - m.lastNavigationTime >= NavigationCooldown && r.lastNavigationTime == now
    ensures r.active == m.active && r.current == m.current && r.controller == m.controller
    ensures r == m.(selected := r.selected, lastNavigationTime := r.lastNavigationTime)
  {
    if now - m.lastNavigationTime < NavigationCooldown then m
    else
      var m1 := if nav.vertical.Some? then m.(selected := nav.vertical, lastNavigationTime := now) else m;
      if nav.horizontal.Some? then m1.(selected := nav.horizontal, lastNavigationTime := now) else m1
  }

  /** `DetectController`: on connecting, the play button is selected if
      nothing is; on disconnecting, the selection is cleared. */
  function DetectController(m: Menu, connected: bool): (r: Menu)
    ensures r.controller == connected
    ensures connected == m.controller ==> r == m
    ensures connected && !m.controller ==> r.selected == if m.selected.None? then Some(PlayButton) else m.selected
    ensures !connected && m.controller ==> r.selected.None?
    ensures r.active == m.active && r.current == m.current && r.lastNavigationTime == m.lastNavigationTime
    ensures r == m.(controller := connected, selected := r.selected)
  {
    if connected == m.controller then m
    else
      var m1 := m.(controller := connected);
      if connected then (if m1.selected.None? then SelectButton(m1, PlayButton) else m1)
      else m1.(selected := None)
  }

  /** `Start`: the start menu, with the play button selected a frame later. */
  function Start(m: Menu, connected: bool): (r: Menu)
    ensures OnlyPanel(r, StartMenu) && r.selectPending && r.controller == connected
  {
    ShowStartMenu(DetectController(m, connected)).(selectPending := true)
  }

  /** `SelectPlayButtonNextFrame` resuming. */
  function ResumeSelect(m: Menu): (r: Menu)
    ensures !r.selectPending
    ensures m.selectPending && m.controller ==> r.selected == Some(PlayButton)
    ensures !m.selectPending ==> r == m
  {
    if !m.selectPending then m
    else
      var m1 := m.(selectPending := false);
      if m1.controller then SelectButton(m1, PlayButton) else m1
  }

  /** What one frame reads. */
  datatype Frame = Frame(bPressed: bool, now: real, nav: Navigation, joystickConnected: bool)

  /** `Update`: back button, navigation, controller detection. */
  function Update(m: Menu, setup: Setup, f: Frame): (r: Menu)
    requires setup.levelButtons > 0
    ensures !f.bPressed ==> r.active == m.active && r.current == m.current
    ensures r.controller == f.joystickConnected
    ensures r.lastNavigationTime == m.lastNavigationTime
            || (r.lastNavigationTime == f.now && f.now - m.lastNavigationTime >= NavigationCooldown)
  {
    var m1 := HandleControllerBackInput(m, setup, f.bPressed);
    var m2 := NavigateMenu(m1, f.now, f.nav);
    DetectController(m2, f.joystickConnected)
  }

  /** Any public operation or frame of the menu. */
  datatype Event =
    | PlayClicked
    | LevelClicked(level: int)
    | BackToStartClicked
    | StartLevelClicked
    | SettingsClicked
    | InspectClicked
    | BackFromInspectClicked
    | BackToSelectionClicked
    | NextFrame
    | OnFrame(frame: Frame)

  /** Level buttons only pass indices they have. */
  predicate EventAllowed(m: Menu, setup: Setup, e: Event) {
    && (e.LevelClicked? ==> 0 <= e.level < setup.levelButtons)
    && (e.PlayClicked? ==> 0 <= m.selectedLevel < setup.levelButtons)
  }

  function Step(m: Menu, setup: Setup, e: Event): (r: Menu)
    requires setup.levelButtons > 0 && EventAllowed(m, setup, e)
  {
    match e
    case PlayClicked => PlayButtonClicked(m, setup)
    case LevelClicked(i) => LevelButtonClicked(m, setup, i)
    case BackToStartClicked => BackToStartMenu(m)
    case StartLevelClicked => StartLevel(m)
    case SettingsClicked => OpenSettingsMenu(m, setup)
    case InspectClicked => OpenInspectScreen(m, setup)
    case BackFromInspectClicked => BackToSelectionMenuFromInspect(m, setup)
    case BackToSelectionClicked => BackToSelectionMenu(m, setup)
    case NextFrame => ResumeSelect(m)
    case OnFrame(f) => Update(m, setup, f)
  }

  /** Once a panel has been shown, exactly one panel is showing after every
      operation and frame, and `currentMenu` names it. */
  lemma StepKeepsOnePanel(m: Menu, setup: Setup, e: Event)
    requires setup.levelButtons > 0 && EventAllowed(m, setup, e)
    requires m.current.Some? && OnlyPanel(m, m.current.value)
    ensures var r := Step(m, setup, e); r.current.Some? && OnlyPanel(r, r.current.value)
  {
    if e.OnFrame? {
      var f := e.frame;
      var m1 := HandleControllerBackInput(m, setup, f.bPressed);
      assert m1.current.Some? && OnlyPanel(m1, m1.current.value);
    }
  }
}

=== FILE: object_inspector.dfy ===
/** `ObjectInspector`: the main menu's close look at the robot, one
    highlighted component at a time.  Scene objects are ids: an enabled
    `Outline` is membership of `highlighted`, `SetActive(false)` is
    membership of `inactive`.  The two one-frame coroutines are pending
    flags that `ResumeCoroutines` completes. */
module ObjectInspector {
  import opened Common

  type ObjectId = nat

  /** `InspectableComponent`. */
  datatype Component = Component(
    obj: Option<ObjectId>,
    name: string,
    description: string,
    focus: Vec3,
    toDisable: seq<Option<ObjectId>>)

  /** A transform's rotation: Euler angles, or `default(Quaternion)` when
      `Start` found no robot to cache. */
  datatype Rotation = Unset | Euler(angles: Vec3)

  /** The serialized references and settings.  `outlined` holds the objects
      that carry an `Outline` component. */
  datatype Setup = Setup(
    hasRobot: bool,
    hasRigidbody: bool,
    components: seq<Component>,
    outlined: set<ObjectId>,
    inspectPosition: Vec3,
    moveSpeed: real,
    controllerRotationSpeed: real,
    mouseRotationSpeed: real)

  /** The inspector's fields and the robot's transform and rigidbody. */
  datatype Inspector = Inspector(
    index: int,
    isInspecting: bool,
    rotation: Vec3,
    robotPos: Vec3,
    robotRot: Rotation,
    initialPos: Vec3,
    initialRot: Rotation,
    kinematic: bool,
    highlighted: set<ObjectId>,
    inactive: set<ObjectId>,
    motherBoardActive: bool,
    title: string,
    description: string,
    enablePending: bool,
    physicsPending: bool)

  /** The serialized defaults of the speeds. */
  const DefaultMoveSpeed: real := 2.0
  const DefaultControllerRotationSpeed: real := 100.0
  const DefaultMouseRotationSpeed: real := 200.0

  /** The tilt limit of `RotateRobot`, in degrees either way. */
  const MaxTilt: real := 20.0

  /** The stick deflection below which a stick counts as centred. */
  const StickDeadZone: real := 0.1

  /** The object a component's outline shows on, if it has one. */
  function OutlineOf(setup: Setup, c: Component): (r: set<ObjectId>)
    ensures r <= setup.outlined
    ensures forall o :: o in r <==> c.obj == Some(o) && o in setup.outlined
  {
    if c.obj.Some? && c.obj.value in setup.outlined then {c.obj.value} else {}
  }

  /** `EnableHighlight(component, enable)`: switches the component's outline,
      if it has one, and nothing else. */
  function EnableHighlight(h: set<ObjectId>, setup: Setup, c: Component, enable: bool): (r: set<ObjectId>)
    ensures enable ==> OutlineOf(setup, c) <= r
    ensures !enable ==> r !! OutlineOf(setup, c)
    ensures forall o :: o !in OutlineOf(setup, c) ==> (o in r <==> o in h)
  {
    if enable then h + OutlineOf(setup, c) else h - OutlineOf(setup, c)
  }

  /** Every component's outline. */
  function AllOutlines(setup: Setup): (r: set<ObjectId>)
    ensures forall i :: 0 <= i < |setup.components| ==> OutlineOf(setup, setup.components[i]) <= r
    ensures forall o :: o in r ==> exists i :: 0 <= i < |setup.components| && o in OutlineOf(setup, setup.components[i])
  {
    set i, o | 0 <= i < |setup.components| && o in OutlineOf(setup, setup.components[i]) :: o
  }

  /** The non-null entries of an `objectsToDisable` list. */
  function NonNull(objs: seq<Option<ObjectId>>): (r: set<ObjectId>)
    ensures forall i :: 0 <= i < |objs| && objs[i].Some? ==> objs[i].value in r
    ensures forall o :: o in r ==> exists i :: 0 <= i < |objs| && objs[i] == Some(o)
  {
    set i | 0 <= i < |objs| && objs[i].Some? :: objs[i].value
  }

  /** Every component's objects to disable. */
  function AllToDisable(cs: seq<Component>): (r: set<ObjectId>)
    ensures forall i :: 0 <= i < |cs| ==> NonNull(cs[i].toDisable) <= r
    ensures forall o :: o in r ==> exists i :: 0 <= i < |cs| && o in NonNull(cs[i].toDisable)
  {
    set i, o | 0 <= i < |cs| && o in NonNull(cs[i].toDisable) :: o
  }

  /** The index `CycleComponent` moves to: C#'s truncating `%`, then a
      negative result becomes the last index. */
  function CycleIndex(i: int, dir: int, n: int): (r: int)
    requires n > 0
    ensures 0 <= r < n
    ensures dir == 1 && 0 <= i < n - 1 ==> r == i + 1
    ensures dir == 1 && i == n - 1 ==> r == 0
    ensures dir == -1 && 0 < i < n ==> r == i - 1
    ensures dir == -1 && i == 0 ==> r == n - 1
  {
    var m := TruncMod(i + dir, n);
    if m < 0 then n - 1 else m
  }

  /** Cycling right then left, or left then right, comes back. */
  lemma CycleIndexInverse(i: int, n: int)
    requires 0 <= i < n
    ensures CycleIndex(CycleIndex(i, 1, n), -1, n) == i
    ensures CycleIndex(CycleIndex(i, -1, n), 1, n) == i
  {
  }

  /** The component at a valid index is showing. */
  predicate IndexValid(s: Inspector, setup: Setup) {
    0 <= s.index < |setup.components|
  }

  /** `UpdateComponentView` with `RotateToFocusOnComponent`: the texts show
      the current component and the robot turns to its focus rotation
      (without a robot the transform access throws after the texts). */
  function ShowComponent(s: Inspector, setup: Setup): (r: Inspector)
    requires IndexValid(s, setup)
    ensures r.title == setup.components[s.index].name
    ensures r.description == setup.components[s.index].description
    ensures setup.hasRobot ==> r.rotation == setup.components[s.index].focus
                               && r.robotRot == Euler(setup.components[s.index].focus)
    ensures r == s.(title := r.title, description := r.description, rotation := r.rotation, robotRot := r.robotRot)
    ensures !setup.hasRobot ==> r.rotation == s.rotation && r.robotRot == s.robotRot
  {
    var c := setup.components[s.index];
    var s1 := s.(title := c.name, description := c.description);
    if !setup.hasRobot then s1
    else s1.(robotRot := Euler(c.focus), rotation := c.focus)
  }

  /** `Start`: the robot's pose is cached, every outline is switched off and
      the first component is shown.  With no components the view update
      throws, after the outlines are off. */
  function Init(setup: Setup, robotPos: Vec3, robotRot: Vec3, highlighted: set<ObjectId>,
                inactive: set<ObjectId>, motherBoardActive: bool, kinematic: bool): (r: Inspector)
    ensures r.index == 0 && !r.isInspecting && !r.enablePending && !r.physicsPending
    ensures r.highlighted !! AllOutlines(setup)
    ensures setup.hasRobot ==> r.initialPos == robotPos && r.initialRot == Euler(robotRot)
    ensures !setup.hasRobot ==> r.initialPos == Zero3 && r.initialRot == Unset
  {
    var s := Inspector(0, false, Zero3, robotPos, Euler(robotRot),
                       if setup.hasRobot then robotPos else Zero3,
                       if setup.hasRobot then Euler(robotRot) else Unset,
                       kinematic, highlighted - AllOutlines(setup), inactive, motherBoardActive,
                       "", "", false, false);
    if |setup.components| == 0 then s else ShowComponent(s, setup)
  }

  /** `StartInspection`: from the first component, with the robot kinematic
      at the inspection point, only the first component's outline on and its
      objects hidden; inspection begins a frame later.  With no components
      the first component's lookup throws after the robot has moved. */
  function StartInspection(s: Inspector, setup: Setup): (r: Inspector)
    ensures !setup.hasRobot ==> r == s
    ensures setup.hasRobot ==> r.index == 0 && r.robotPos == setup.inspectPosition
    ensures setup.hasRobot && setup.hasRigidbody ==> r.kinematic
    ensures r.initialPos == s.initialPos && r.initialRot == s.initialRot && r.isInspecting == s.isInspecting
    ensures setup.hasRobot && |setup.components| > 0 ==>
              && r.rotation == setup.components[0].focus
              && r.robotRot == Euler(setup.components[0].focus)
              && r.highlighted * AllOutlines(setup) == OutlineOf(setup, setup.components[0])
              && r.highlighted - AllOutlines(setup) == s.highlighted - AllOutlines(setup)
              && r.inactive == s.inactive + NonNull(setup.components[0].toDisable)
              && r.enablePending
  {
    if !setup.hasRobot then s
    else
      var s1 := s.(index := 0, kinematic := if setup.hasRigidbody then true else s.kinematic,
                   robotPos := setup.inspectPosition);
      if |setup.components| == 0 then s1
      else
        var c := setup.components[0];
        var h := EnableHighlight(s1.highlighted - AllOutlines(setup), setup, c, true);
        var s2 := s1.(robotRot := Euler(c.focus), rotation := c.focus, highlighted := h,
                      inactive := s1.inactive + NonNull(c.toDisable));
        ShowComponent(s2, setup).(enablePending := true)
  }

  /** `StopInspection`: inspection ends, the cached pose comes back with a
      zero rotation, every outline is off, every listed object is shown
      again and the motherboard is hidden; physics returns a frame later. */
  function StopInspection(s: Inspector, setup: Setup): (r: Inspector)
    ensures !setup.hasRobot ==> r == s
    ensures setup.hasRobot ==>
              && !r.isInspecting && r.physicsPending && !r.motherBoardActive
              && r.robotPos == s.initialPos && r.robotRot == s.initialRot && r.rotation == Zero3
              && r.highlighted == s.highlighted - AllOutlines(setup)
              && r.inactive == s.inactive - AllToDisable(setup.components)
              && r.index == s.index
    ensures setup.hasRobot && setup.hasRigidbody ==> r.kinematic
  {
    if !setup.hasRobot then s
    else
      s.(isInspecting := false,
         kinematic := if setup.hasRigidbody then true else s.kinematic,
         robotPos := s.initialPos, robotRot := s.initialRot, rotation := Zero3,
         highlighted := s.highlighted - AllOutlines(setup),
         inactive := s.inactive - AllToDisable(setup.components),
         motherBoardActive := false, physicsPending := true)
  }

  /** The one-frame coroutines `EnableInspectionAfterFrame` and
      `ReenablePhysicsAfterReset` resume. */
  function ResumeCoroutines(s: Inspector, setup: Setup): (r: Inspector)
    ensures !r.enablePending && !r.physicsPending
    ensures r.isInspecting == (s.isInspecting || s.enablePending)
    ensures r.kinematic == if s.physicsPending && setup.hasRigidbody then false else s.kinematic
    ensures r == s.(isInspecting := r.isInspecting, kinematic := r.kinematic,
                    enablePending := false, physicsPending := false)
  {
    var s1 := if s.enablePending then s.(isInspecting := true, enablePending := false) else s;
    if s1.physicsPending
    then s1.(physicsPending := false, kinematic := if setup.hasRigidbody then false else s1.kinematic)
    else s1
  }

  /** `StartInspection` then `StopInspection`: the robot is back where it
      started, no component is outlined and every listed object is shown. */
  lemma InspectionRoundTrip(s: Inspector, setup: Setup)
    requires setup.hasRobot
    ensures var r := StopInspection(StartInspection(s, setup), setup);
            && r.robotPos == s.initialPos && r.robotRot == s.initialRot
            && r.highlighted !! AllOutlines(setup)
            && r.inactive !! AllToDisable(setup.components)
            && !r.isInspecting
  {
  }

  /** `CycleComponent`: the old component's outline goes off and its objects
      come back, then the next component (wrapping both ways) is outlined,
      its objects are hidden and it is shown. */
  function CycleComponent(s: Inspector, setup: Setup, dir: int): (r: Inspector)
    ensures !IndexValid(s, setup) ==> r == s
    ensures IndexValid(s, setup) ==>
              && r.index == CycleIndex(s.index, dir, |setup.components|)
              && r.highlighted == EnableHighlight(EnableHighlight(s.highlighted, setup, setup.components[s.index], false),
                                                  setup, setup.components[r.index], true)
              && r.inactive == (s.inactive - NonNull(setup.components[s.index].toDisable))
                               + NonNull(setup.components[r.index].toDisable)
              && r.isInspecting == s.isInspecting && r.robotPos == s.robotPos
  {
    if !IndexValid(s, setup) then s
    else
      var prev := setup.components[s.index];
      var h1 := EnableHighlight(s.highlighted, setup, prev, false);
      var in1 := s.inactive - NonNull(prev.toDisable);
      var i := CycleIndex(s.index, dir, |setup.components|);
      var s1 := s.(index := i, highlighted := EnableHighlight(h1, setup, setup.components[i], true),
                   inactive := in1 + NonNull(setup.components[i].toDisable));
      ShowComponent(s1, setup)
  }

  /** Cycling by one step keeps exactly the current component outlined: if
      only the shown component's outline was on, only the new one's is. */
  lemma CycleKeepsOneOutline(s: Inspector, setup: Setup, dir: int)
    requires IndexValid(s, setup)
    requires s.highlighted == OutlineOf(setup, setup.components[s.index])
    ensures IndexValid(CycleComponent(s, setup, dir), setup)
    ensures CycleComponent(s, setup, dir).highlighted ==
              OutlineOf(setup, setup.components[CycleComponent(s, setup, dir).index])
  {
  }

  /** With every component outlined on an object of its own, the outline set
      names the shown component and no other. */
  lemma OneComponentOutlined(s: Inspector, setup: Setup, j: int)
    requires IndexValid(s, setup) && 0 <= j < |setup.components|
    requires forall k :: 0 <= k < |setup.components| ==>
               setup.components[k].obj.Some? && setup.components[k].obj.value in setup.outlined
    requires forall k, m :: 0 <= k < m < |setup.components| ==> setup.components[k].obj != setup.components[m].obj
    requires s.highlighted == OutlineOf(setup, setup.components[s.index])
    ensures setup.components[j].obj.value in s.highlighted <==> j == s.index
  {
    if j != s.index {
      if j < s.index {
        assert setup.components[j].obj != setup.components[s.index].obj;
      } else {
        assert setup.components[s.index].obj != setup.components[j].obj;
      }
    }
  }

  /** After a cycle every object of the new component is hidden, and an
      object only the old component hid is shown again. */
  lemma CycleHidesNewObjects(s: Inspector, setup: Setup, dir: int)
    requires IndexValid(s, setup)
    ensures var r := CycleComponent(s, setup, dir);
            && NonNull(setup.components[r.index].toDisable) <= r.inactive
            && (NonNull(setup.components[s.index].toDisable) - NonNull(setup.components[r.index].toDisable)) !! r.inactive
  {
  }

  /** What one frame reads for rotation: the mouse button and axes, the
      right stick and the frame time. */
  datatype RotationInput = RotationInput(
    mouseHeld: bool, mouseX: real, mouseY: real, stickX: real, stickY: real, dt: real)

  predicate IsRotating(input: RotationInput) {
    input.mouseHeld || Abs(input.stickX) > StickDeadZone || Abs(input.stickY) > StickDeadZone
  }

  /** `RotateRobot`: with input, the tilt stays within 20 degrees either
      way, the yaw accumulates and the roll is zero; without input nothing
      changes. */
  function RotateRobot(s: Inspector, setup: Setup, input: RotationInput): (r: Inspector)
    ensures !IsRotating(input) ==> r == s
    ensures IsRotating(input) ==> -MaxTilt <= r.rotation.x <= MaxTilt && r.rotation.z == 0.0
    ensures IsRotating(input) && setup.hasRobot ==> r.robotRot == Euler(r.rotation)
    ensures r == s.(rotation := r.rotation, robotRot := r.robotRot)
  {
    if !IsRotating(input) then s
    else
      var rotationY := if input.mouseHeld then -input.mouseX * setup.mouseRotationSpeed * input.dt else 0.0;
      var rotationX := if input.mouseHeld then input.mouseY * setup.mouseRotationSpeed * input.dt else 0.0;
      var yaw := rotationY + input.stickX * setup.controllerRotationSpeed * input.dt;
      var tilt := rotationX + -input.stickY * setup.controllerRotationSpeed * input.dt;
      var rot := Vec3(ClampReal(s.rotation.x + tilt, -MaxTilt, MaxTilt), s.rotation.y + yaw, 0.0);
      if setup.hasRobot then s.(rotation := rot, robotRot := Euler(rot)) else s.(rotation := rot)
  }

  /** `Vector3.Lerp`. */
  function LerpVec(a: Vec3, b: Vec3, t: real): (r: Vec3)
    ensures t >= 1.0 ==> r == b
    ensures t <= 0.0 ==> r == a
  {
    Vec3(Lerp(a.x, b.x, t), Lerp(a.y, b.y, t), Lerp(a.z, b.z, t))
  }

  /** What one frame reads. */
  datatype Frame = Frame(leftBumperDown: bool, rightBumperDown: bool, rotation: RotationInput)

  /** `Update`: only while inspecting, a bumper cycles (left first), the
      robot turns and moves toward the inspection point. */
  function Update(s: Inspector, setup: Setup, f: Frame): (r: Inspector)
    ensures !s.isInspecting ==> r == s
    ensures s.isInspecting && !f.leftBumperDown && !f.rightBumperDown ==> r.index == s.index
    ensures s.isInspecting && IndexValid(s, setup) && f.leftBumperDown ==>
              r.index == CycleIndex(s.index, -1, |setup.components|)
    ensures s.isInspecting && IndexValid(s, setup) && !f.leftBumperDown && f.rightBumperDown ==>
              r.index == CycleIndex(s.index, 1, |setup.components|)
  {
    if !s.isInspecting then s
    else
      var s1 := if f.leftBumperDown then CycleComponent(s, setup, -1)
                else if f.rightBumperDown then CycleComponent(s, setup, 1)
                else s;
      var s2 := RotateRobot(s1, setup, f.rotation);
      s2.(robotPos := LerpVec(s2.robotPos, setup.inspectPosition, f.rotation.dt * setup.moveSpeed))
  }
}

=== FILE: ocean_reset.dfy ===
/** `OceanReset`: the water in module 1 that sends the robot back to its
    last checkpoint.  The `ResetAfterEffect` coroutine becomes the
    `EffectDone` event that arrives when its wait is over; the particle
    system is two flags, and the two calls out (the reset sound and the
    `ResetToCheckpoint` message) are reported per step. */
module OceanReset {

  /** Whether `Start` found a `CheckpointManager`, and whether the effect
      reference is assigned. */
  datatype Setup = Setup(hasManager: bool, hasEffect: bool)

  datatype Ocean = Ocean(isResetting: bool, effectActive: bool, effectPlaying: bool)

  /** What a step sent out: the reset sound, and the `ResetToCheckpoint`
      message. */
  datatype Tick = Tick(next: Ocean, started: bool, sound: bool, reset: bool)

  /** `OnTriggerEnter`: a reset starts for the player when a manager exists
      and none is under way; the effect and its sound start only when the
      effect exists and is not already playing. */
  function OnTriggerEnter(o: Ocean, setup: Setup, isPlayer: bool): (r: Tick)
    ensures r.started <==> isPlayer && setup.hasManager && !o.isResetting
    ensures !r.started ==> r == Tick(o, false, false, false)
    ensures r.started ==> r.next.isResetting
    ensures r.sound <==> r.started && setup.hasEffect && !o.effectPlaying
    ensures r.sound ==> r.next.effectActive && r.next.effectPlaying
    ensures !r.sound ==> r.next.effectActive == o.effectActive && r.next.effectPlaying == o.effectPlaying
    ensures !r.reset
  {
    if isPlayer && setup.hasManager && !o.isResetting then
      var q := o.(isResetting := true);
      if setup.hasEffect && !q.effectPlaying then
        Tick(q.(effectActive := true, effectPlaying := true), true, true, false)
      else Tick(q, true, false, false)
    else Tick(o, false, false, false)
  }

  /** `ResetAfterEffect` after its wait: the effect is stopped and hidden,
      the checkpoint manager is told to reset, and the latch is cleared. */
  function ResetAfterEffect(o: Ocean, setup: Setup): (r: Tick)
    ensures r.reset && !r.sound && !r.started
    ensures !r.next.isResetting
    ensures setup.hasEffect ==> !r.next.effectActive && !r.next.effectPlaying
    ensures !setup.hasEffect ==> r.next.effectActive == o.effectActive && r.next.effectPlaying == o.effectPlaying
  {
    var q := if setup.hasEffect then o.(effectPlaying := false, effectActive := false) else o;
    Tick(q.(isResetting := false), false, false, true)
  }

  /** A collider entering, the coroutine's wait running out, or the
      particle system finishing on its own. */
  datatype Event = TriggerEnter(isPlayer: bool) | EffectDone | ParticlesEnded

  /** `EffectDone` only arrives while a coroutine is waiting, which is
      exactly while the latch is set. */
  predicate Possible(o: Ocean, e: Event) {
    e.EffectDone? ==> o.isResetting
  }

  function Step(o: Ocean, setup: Setup, e: Event): Tick
    requires Possible(o, e)
  {
    match e
    case TriggerEnter(isPlayer) => OnTriggerEnter(o, setup, isPlayer)
    case EffectDone => ResetAfterEffect(o, setup)
    case ParticlesEnded => Tick(o.(effectPlaying := false), false, false, false)
  }

  predicate PossibleRun(o: Ocean, setup: Setup, events: seq<Event>)
    decreases |events|
  {
    |events| > 0 ==>
      Possible(o, events[0]) && PossibleRun(Step(o, setup, events[0]).next, setup, events[1..])
  }

  /** How many resets a run started, sounds it played and messages it sent. */
  datatype Outcome = Outcome(final: Ocean, started: nat, sounds: nat, resets: nat)

  function Run(o: Ocean, setup: Setup, events: seq<Event>): Outcome
    requires PossibleRun(o, setup, events)
    decreases |events|
  {
    if |events| == 0 then Outcome(o, 0, 0, 0)
    else
      var t := Step(o, setup, events[0]);
      var rest := Run(t.next, setup, events[1..]);
      Outcome(rest.final,
        rest.started + (if t.started then 1 else 0),
        rest.sounds + (if t.sound then 1 else 0),
        rest.resets + (if t.reset then 1 else 0))
  }

  function Bit(b: bool): nat { if b then 1 else 0 }

  /** Every started cycle sends `ResetToCheckpoint` exactly once: over any
      run, resets sent plus the cycle still open equal cycles started plus
      the one open at the beginning. */
  lemma {:induction false} OneResetPerCycle(o: Ocean, setup: Setup, events: seq<Event>)
    requires PossibleRun(o, setup, events)
    ensures var r := Run(o, setup, events);
            r.resets + Bit(r.final.isResetting) == r.started + Bit(o.isResetting)
    decreases |events|
  {
    if |events| > 0 {
      OneResetPerCycle(Step(o, setup, events[0]).next, setup, events[1..]);
    }
  }

  /** The sound never plays more often than resets start, and never without
      an effect. */
  lemma {:induction false} SoundsOnlyWithResets(o: Ocean, setup: Setup, events: seq<Event>)
    requires PossibleRun(o, setup, events)
    ensures Run(o, setup, events).sounds <= Run(o, setup, events).started
    ensures !setup.hasEffect ==> Run(o, setup, events).sounds == 0
    decreases |events|
  {
    if |events| > 0 {
      SoundsOnlyWithResets(Step(o, setup, events[0]).next, setup, events[1..]);
    }
  }

  /** Triggers during a reset change nothing; after `EffectDone` the next
      player trigger starts a new cycle. */
  lemma LatchBlocksThenReleases(o: Ocean, setup: Setup, isPlayer: bool)
    requires o.isResetting && setup.hasManager
    ensures OnTriggerEnter(o, setup, isPlayer) == Tick(o, false, false, false)
    ensures OnTriggerEnter(ResetAfterEffect(o, setup).next, setup, true).started
  {
  }

  /** Without a checkpoint manager the ocean never starts a reset. */
  lemma {:induction false} NoManagerNoReset(o: Ocean, setup: Setup, events: seq<Event>)
    requires !setup.hasManager && PossibleRun(o, setup, events)
    ensures Run(o, setup, events).started == 0
    decreases |events|
  {
    if |events| > 0 {
      NoManagerNoReset(Step(o, setup, events[0]).next, setup, events[1..]);
    }
  }
}

=== FILE: pause_menu.dfy ===
/** `PauseMenuController`: the in-game pause screen.  The three panels are
    active flags, `Time.timeScale` is a real, the shared cursor manager is
    one visibility flag, and the event system's selected object is an
    optional id. */
module PauseMenu {
  import opened Common

  /** A selectable scene object. */
  type SelectableId = nat

  /** A scene load request, with the time scale in force when it was made. */
  datatype SceneLoad = SceneLoad(scene: string, timeScale: real)

  datatype Pause = Pause(
    pauseActive: bool,
    settingsActive: bool,
    mainUIActive: bool,
    isPaused: bool,
    timeScale: real,
    cursorShown: bool,
    selected: Option<SelectableId>,
    lastSelected: Option<SelectableId>,
    loaded: Option<SceneLoad>)

  const MainMenuScene: string := "MainMenu"

  /** The pause and settings panels are never on screen together. */
  predicate Exclusive(p: Pause) {
    !(p.pauseActive && p.settingsActive)
  }

  /** `InitializeMenus`, run from `Start`: both menus hidden. */
  function InitializeMenus(p: Pause): (r: Pause)
    ensures Exclusive(r)
    ensures !r.pauseActive && !r.settingsActive
    ensures r.mainUIActive == p.mainUIActive && r.isPaused == p.isPaused && r.selected == p.selected
  {
    p.(pauseActive := false, settingsActive := false)
  }

  /** `TogglePauseMenuVisibility(visible)`: the pause menu follows
      `visible`, settings is hidden, and the game UI is the opposite. */
  function ToggleVisibility(p: Pause, visible: bool): (r: Pause)
    ensures Exclusive(r)
    ensures r.pauseActive == visible && !r.settingsActive && r.mainUIActive == !visible
    ensures r.(pauseActive := p.pauseActive, settingsActive := p.settingsActive, mainUIActive := p.mainUIActive) == p
  {
    p.(pauseActive := visible, settingsActive := false, mainUIActive := !visible)
  }

  /** `PauseGame`. */
  function PauseGame(p: Pause): (r: Pause)
    ensures r.isPaused && r.timeScale == 0.0
    ensures r.pauseActive && !r.settingsActive && !r.mainUIActive
    ensures r.cursorShown
    ensures r.lastSelected == p.selected && r.selected == p.selected
    ensures r.loaded == p.loaded
  {
    var q := ToggleVisibility(p.(isPaused := true, timeScale := 0.0), true);
    q.(cursorShown := true, lastSelected := q.selected)
  }

  /** `ResumeGame`. */
  function ResumeGame(p: Pause): (r: Pause)
    ensures !r.isPaused && r.timeScale == 1.0
    ensures !r.pauseActive && !r.settingsActive && r.mainUIActive
    ensures !r.cursorShown
    ensures r.selected == p.lastSelected && r.lastSelected == p.lastSelected
    ensures r.loaded == p.loaded
  {
    var q := ToggleVisibility(p.(isPaused := false, timeScale := 1.0), false);
    q.(cursorShown := false, selected := q.lastSelected)
  }

  /** `HandlePauseToggle`: Escape or the start button flips between the
      two. */
  function HandlePauseToggle(p: Pause, keyDown: bool): (r: Pause)
    ensures !keyDown ==> r == p
    ensures keyDown ==> r.isPaused == !p.isPaused
    ensures keyDown ==> r.pauseActive == r.isPaused && r.mainUIActive == !r.isPaused && !r.settingsActive
  {
    if keyDown then (if p.isPaused then ResumeGame(p) else PauseGame(p)) else p
  }

  /** `QuitToMainMenu`: the time scale is put back to 1 and then the main
      menu is loaded, so the load sees a running clock. */
  function QuitToMainMenu(p: Pause): (r: Pause)
    ensures r.timeScale == 1.0
    ensures r.loaded == Some(SceneLoad(MainMenuScene, 1.0))
    ensures r.pauseActive == p.pauseActive && r.settingsActive == p.settingsActive && r.mainUIActive == p.mainUIActive
  {
    var q := p.(timeScale := 1.0);
    q.(loaded := Some(SceneLoad(MainMenuScene, q.timeScale)))
  }

  /** `OpenSettingsMenu`: the pause menu gives way to settings while the
      game UI, switched on by the toggle, stays on. */
  function OpenSettingsMenu(p: Pause): (r: Pause)
    ensures Exclusive(r)
    ensures r.settingsActive && !r.pauseActive && r.mainUIActive
    ensures r.cursorShown
    ensures r.isPaused == p.isPaused && r.timeScale == p.timeScale && r.selected == p.selected
  {
    ToggleVisibility(p, false).(settingsActive := true, cursorShown := true)
  }

  /** `CloseSettingsMenu`: back to the pause menu. */
  function CloseSettingsMenu(p: Pause): (r: Pause)
    ensures Exclusive(r)
    ensures !r.settingsActive && r.pauseActive && !r.mainUIActive
    ensures r.cursorShown
    ensures r.isPaused == p.isPaused && r.timeScale == p.timeScale && r.selected == p.selected
  {
    ToggleVisibility(p.(settingsActive := false), true).(cursorShown := true)
  }

  /** `Show`, the `IMenu` entry point: the pause menu's panels only. */
  function Show(p: Pause): (r: Pause)
    ensures Exclusive(r)
    ensures r.pauseActive && !r.settingsActive && !r.mainUIActive
    ensures r.isPaused == p.isPaused && r.cursorShown == p.cursorShown && r.timeScale == p.timeScale
  {
    ToggleVisibility(p, true)
  }

  /** `Hide`: only the pause panel goes away. */
  function Hide(p: Pause): (r: Pause)
    ensures Exclusive(p) ==> Exclusive(r)
    ensures !r.pauseActive
    ensures r.(pauseActive := p.pauseActive) == p
  {
    p.(pauseActive := false)
  }

  /** `CursorManager.Update` as far as the selection goes: while the cursor
      is shown, the event system's selection becomes the button or slider
      under the cursor, or nothing.  The object under the cursor is an
      input: the raycast over the screen is not modelled. */
  function CursorUpdate(p: Pause, hovered: Option<SelectableId>): (r: Pause)
    ensures p.cursorShown ==> r.selected == hovered
    ensures !p.cursorShown ==> r == p
    ensures r.(selected := p.selected) == p
  {
    if p.cursorShown then p.(selected := hovered) else p
  }

  /** `Update`: the pause key first, then, if the game is paused after it,
      the shared cursor manager's frame. */
  function Update(p: Pause, keyDown: bool, hovered: Option<SelectableId>): (r: Pause)
    ensures r.isPaused == (p.isPaused != keyDown)
    ensures r.(selected := HandlePauseToggle(p, keyDown).selected) == HandlePauseToggle(p, keyDown)
    ensures r.isPaused && r.cursorShown ==> r.selected == hovered
    ensures !r.isPaused ==> r == HandlePauseToggle(p, keyDown)
    ensures !keyDown && !p.isPaused ==> r == p
  {
    var q := HandlePauseToggle(p, keyDown);
    if q.isPaused then CursorUpdate(q, hovered) else q
  }

  /** Everything that can happen to the controller: a frame with the pause
      key's state and the object under the cursor, or a button wired to a
      public method. */
  datatype Event =
    | Frame(pauseKeyDown: bool, hovered: Option<SelectableId>)
    | PauseClicked
    | ResumeClicked
    | QuitClicked
    | SettingsOpened
    | SettingsClosed
    | Shown
    | Hidden

  /** One event.  No event puts the pause and settings menus on screen
      together, and only the pause key or a button changes the time
      scale. */
  function Step(p: Pause, e: Event): (r: Pause)
    ensures Exclusive(p) ==> Exclusive(r)
    ensures e.Frame? && !e.pauseKeyDown ==> r.timeScale == p.timeScale && r.isPaused == p.isPaused
    ensures e.Frame? ==> r.pauseActive == (if e.pauseKeyDown then !p.isPaused else p.pauseActive)
  {
    match e
    case Frame(down, hovered) => Update(p, down, hovered)
    case PauseClicked => PauseGame(p)
    case ResumeClicked => ResumeGame(p)
    case QuitClicked => QuitToMainMenu(p)
    case SettingsOpened => OpenSettingsMenu(p)
    case SettingsClosed => CloseSettingsMenu(p)
    case Shown => Show(p)
    case Hidden => Hide(p)
  }

  function Run(p: Pause, events: seq<Event>): Pause
    decreases |events|
  {
    if |events| == 0 then p else Run(Step(p, events[0]), events[1..])
  }

  /** Once initialised, no sequence of frames and button presses ever shows
      the pause and settings menus together. */
  lemma {:induction false} NeverBothMenus(p: Pause, events: seq<Event>)
    requires Exclusive(p)
    ensures Exclusive(Run(p, events))
    decreases |events|
  {
    if |events| > 0 {
      var q := Step(p, events[0]);
      assert Exclusive(q);
      NeverBothMenus(q, events[1..]);
    }
  }

  /** Starting from anything, initialisation then any run keeps the two
      menus apart. */
  lemma InitializedNeverBothMenus(p: Pause, events: seq<Event>)
    ensures Exclusive(Run(InitializeMenus(p), events))
  {
    NeverBothMenus(InitializeMenus(p), events);
  }

  /** The game as it runs unpaused: game UI up, menus and cursor hidden,
      clock at 1. */
  predicate Running(p: Pause) {
    !p.isPaused && p.timeScale == 1.0 && !p.pauseActive && !p.settingsActive
    && p.mainUIActive && !p.cursorShown
  }

  /** Two presses of the pause key pause and resume: the game comes back
      exactly as it was, with the selection it had, and only the recorded
      selection is new. */
  lemma PauseKeyTwiceRestores(p: Pause)
    requires Running(p)
    ensures HandlePauseToggle(HandlePauseToggle(p, true), true) == p.(lastSelected := p.selected)
  {
  }

  /** The pause key alternates: pressed while unpaused it pauses, pressed
      while paused it resumes. */
  lemma PauseKeyAlternates(p: Pause)
    ensures HandlePauseToggle(p, true) == if p.isPaused then ResumeGame(p) else PauseGame(p)
    ensures HandlePauseToggle(HandlePauseToggle(p, true), true).isPaused == p.isPaused
  {
  }

  /** Opening and closing settings from the pause menu returns to the pause
      menu's panels. */
  lemma SettingsRoundTrip(p: Pause)
    requires p.pauseActive && !p.settingsActive && !p.mainUIActive
    ensures CloseSettingsMenu(OpenSettingsMenu(p)) == p.(cursorShown := true)
  {
  }
}

=== FILE: photo_capture.dfy ===
/** `PhotoController.MakeScrenshot` and `PhotoController.Start`: taking a
    photo into the collection, and rebuilding the collection from the data
    directory when the scene starts. */
module PhotoCapture {
  import opened Common
  import opened PhotoStorage
  import opened PhotoSequence
  import opened PhotoState
  import PhotoUI
  import opened PhotoCollection
  import opened PhotoCards

  /** `Mathf.RoundToInt`: the nearest integer, a tie going to the even one. */
  function RoundToInt(x: real): (r: int)
    ensures x - 0.5 <= r as real <= x + 0.5
  {
    var f := x.Floor;
    var d := x - f as real;
    if d < 0.5 then f
    else if d > 0.5 then f + 1
    else if f % 2 == 0 then f else f + 1
  }

  /** Off a tie the rounding is the one integer within a half; on a tie it
      is the even neighbour. */
  lemma RoundToIntNearest(x: real, n: int)
    ensures -0.5 < n as real - x < 0.5 ==> RoundToInt(x) == n
    ensures (n as real - x == 0.5 || x - n as real == 0.5) ==> (RoundToInt(x) == n <==> n % 2 == 0)
  {
    var f := x.Floor;
    if n as real - x == 0.5 || x - n as real == 0.5 {
      assert x - f as real == 0.5;
      assert n == f || n == f + 1;
      assert (f + 1) % 2 == 0 <==> f % 2 != 0;
    }
  }

  /** The crop corner on one axis (lines 272-276): centred on the rounded
      pointer and clamped, lower bound first, into [0, screen - cropSize]. */
  function CropStart(pointer: real, cropSize: int, screen: int): (r: int)
    requires cropSize >= 1
    ensures 0 <= r && r + cropSize <= screen <==> cropSize <= screen
    ensures cropSize / 2 <= RoundToInt(pointer) <= screen - cropSize + cropSize / 2 ==>
              r == RoundToInt(pointer) - cropSize / 2
  {
    ClampInt(RoundToInt(pointer) - cropSize / 2, 0, screen - cropSize)
  }

  /** What a capture reads from outside the model: the pointer, the
      camera's pixel size, the screen size, the `cropSize` setting (an
      inspector range of [1, 500]) and the length of the encoded PNG. */
  datatype Shot = Shot(pointerX: real, pointerY: real,
                       cameraWidth: int, cameraHeight: int,
                       screenWidth: int, screenHeight: int,
                       cropSize: int, pngSize: nat)

  predicate WellFormedShot(shot: Shot) {
    1 <= shot.cropSize <= 500
  }

  /** The square read by `GetPixels` lies inside the camera's screenshot. */
  predicate CropFits(shot: Shot)
    requires WellFormedShot(shot)
  {
    var x := CropStart(shot.pointerX, shot.cropSize, shot.screenWidth);
    var y := CropStart(shot.pointerY, shot.cropSize, shot.screenHeight);
    0 <= x && x + shot.cropSize <= shot.cameraWidth && 0 <= y && y + shot.cropSize <= shot.cameraHeight
  }

  /** When the camera renders the whole screen, the crop fits exactly when
      the screen is at least `cropSize` on both axes. */
  lemma FullScreenCropFits(shot: Shot)
    requires WellFormedShot(shot)
    requires shot.cameraWidth == shot.screenWidth && shot.cameraHeight == shot.screenHeight
    ensures CropFits(shot) <==> shot.cropSize <= shot.screenWidth && shot.cropSize <= shot.screenHeight
  {
  }

  /** Outcome of `MakeScrenshot`: it returned at once, it threw from
      `GetPixels` before changing anything, or it took the photo. */
  datatype Capture = Refused | OutOfBounds | Captured(next: Photos)

  /** A card freshly instantiated under `photoHolder` at the origin for
      photo `index`; every other field is the prefab's. */
  function Instantiate(c: Controller, prefab: Card, index: int): (r: Controller)
    requires Valid(c)
    ensures Valid(r) && c.nextId !in c.cards && c.nextId !in c.allCards
    ensures r.cards.Keys == c.cards.Keys + {c.nextId}
    ensures r.cards[c.nextId] == prefab.(index := index, parent := PhotoHolder, position := Zero3)
    ensures forall k :: k in c.cards ==> r.cards[k] == c.cards[k]
    ensures r == c.(cards := r.cards, nextId := c.nextId + 1)
  {
    var id := c.nextId;
    assert id !in c.cards;
    assert id !in c.allCards;
    c.(cards := c.cards[id := prefab.(index := index, parent := PhotoHolder, position := Zero3)], nextId := id + 1)
  }

  /** Listing a card appends its index to the listed indices. */
  lemma {:induction false} CardIndicesAppend(cards: map<CardId, Card>, ids: seq<CardId>, id: CardId)
    requires forall i :: 0 <= i < |ids| ==> ids[i] in cards
    requires id in cards
    ensures CardIndices(cards, ids + [id]) == CardIndices(cards, ids) + [cards[id].index]
  {
    if |ids| > 0 {
      assert (ids + [id])[1..] == ids[1..] + [id];
      CardIndicesAppend(cards, ids[1..], id);
    }
  }

  /** Lines 286-302: a new card for photo `howManySprites` is made, started
      and listed (the `Contains` check finds it already listed), and the
      counter advances with C# `int` wrap-around. */
  function AddPhoto(c: Controller, disk: Disk, prefab: Card): (r: Controller)
    requires Valid(c)
    ensures Valid(r)
    ensures r.allCards == c.allCards + [c.nextId]
    ensures r.cards.Keys == c.cards.Keys + {c.nextId}
    ensures r.howManySprites == WrapInt32(c.howManySprites + 1)
  {
    var id := c.nextId;
    var c1 := Instantiate(c, prefab, c.howManySprites);
    var c2 := TheStart(c1, disk, id);
    RegisterIdempotent(c1.allCards, id);
    var c3 := c2.(allCards := Register(c2.allCards, id));
    var c4 := SetCard(c3, id, c3.cards[id].(position := Zero3));
    c4.(howManySprites := WrapInt32(c4.howManySprites + 1))
  }

  /** The new card carries the photo's index, keys derived from it, the
      "collection" start parent, `sizeMini`, and is disabled; every older
      card is as it was. */
  lemma AddPhotoCard(c: Controller, disk: Disk, prefab: Card)
    requires Valid(c)
    ensures c.nextId in AddPhoto(c, disk, prefab).cards
    ensures AddPhoto(c, disk, prefab).cards[c.nextId] ==
              prefab.(index := c.howManySprites, parent := PhotoHolder, position := Zero3,
                      key := Some(PositionKey(c.howManySprites)), keydata := Some(DataKey(c.howManySprites)),
                      startParent := Some(Collection), scale := SizeMini, enabled := false)
    ensures forall k :: k in c.cards ==> AddPhoto(c, disk, prefab).cards[k] == c.cards[k]
  {
    var id := c.nextId;
    var c1 := Instantiate(c, prefab, c.howManySprites);
    var c2 := TheStart(c1, disk, id);
    assert forall k :: k in c.cards ==> c2.cards[k] == c.cards[k];
  }

  /** The listed indices gain the new photo's index at the end, so the
      saved order gains it at the end unless it is already there. */
  lemma AddPhotoOrder(c: Controller, disk: Disk, prefab: Card)
    requires Valid(c)
    ensures CardIndices(AddPhoto(c, disk, prefab).cards, AddPhoto(c, disk, prefab).allCards) ==
              CardIndices(c.cards, c.allCards) + [c.howManySprites]
    ensures SequenceOf(AddPhoto(c, disk, prefab)) ==
              if c.howManySprites in SequenceOf(c) then SequenceOf(c) else SequenceOf(c) + [c.howManySprites]
  {
    var r := AddPhoto(c, disk, prefab);
    AddPhotoCard(c, disk, prefab);
    CardIndicesAppend(r.cards, c.allCards, c.nextId);
    CardIndicesAgree(r.cards, c.cards, c.allCards);
    var xs := CardIndices(r.cards, r.allCards);
    assert xs[..|xs| - 1] == CardIndices(c.cards, c.allCards);
  }

  /** The disk side of a capture: the counter is saved (line 305), the PNG
      written (line 307) and the order saved (line 309). */
  function SaveCapture(disk: Disk, count: int, index: int, pngSize: nat, order: seq<int>): (r: Disk)
    ensures LoadGlobalData(r) == LoadGlobalData(disk).(photoCount := count, sequence := order)
    ensures SpriteName(index) in r && r[SpriteName(index)] == Png(pngSize)
  {
    var d1 := SaveGlobalData(disk, LoadGlobalData(disk).(photoCount := count));
    SpriteNamesDistinct(index, index);
    var d2 := d1[SpriteName(index) := Png(pngSize)];
    GlobalDataFrame(d2, d1);
    SaveOrder(d2, order)
  }

  /** A capture rewrites no photo record. */
  lemma SaveCaptureKeepsRecords(disk: Disk, count: int, index: int, pngSize: nat, order: seq<int>, j: int)
    ensures LoadPhotoData(SaveCapture(disk, count, index, pngSize, order), j) == LoadPhotoData(disk, j)
  {
    var d1 := SaveGlobalData(disk, LoadGlobalData(disk).(photoCount := count));
    var d2 := d1[SpriteName(index) := Png(pngSize)];
    GlobalIsNotPhotoDataPath(j);
    SpriteNamesDistinct(index, j);
    SaveOrderKeepsRecords(d2, order);
  }

  /** `MakeScrenshot`: refused while a card is dragged or capture is
      blocked; fails before any change when the crop leaves the screenshot;
      otherwise adds the photo, saves it, shows the confirmation square,
      saves the order and forbids further held input until release. */
  function MakeScreenshot(s: Photos, shot: Shot, prefab: Card): (r: Capture)
    requires Valid(s.ctrl) && WellFormedShot(shot)
    ensures r.Refused? <==> s.ctrl.movingCard.Some? || s.ui.cantPhoto
    ensures r.OutOfBounds? <==> !r.Refused? && !CropFits(shot)
    ensures r.Captured? ==>
              && r.next.ctrl == SortPhotos(AddPhoto(s.ctrl, s.disk, prefab))
              && r.next.ui == PhotoUI.SetSquare(s.ui)
              && r.next.input == s.input.(forbiddenInput := true)
              && Valid(r.next.ctrl)
              && r.next.disk == SaveCapture(s.disk, r.next.ctrl.howManySprites, s.ctrl.howManySprites,
                                            shot.pngSize, SequenceOf(r.next.ctrl))
  {
    if s.ctrl.movingCard.Some? || s.ui.cantPhoto then Refused
    else if !CropFits(shot) then OutOfBounds
    else Captured(TakePhoto(s, shot, prefab))
  }

  /** Lines 286-310 of a capture that goes ahead: the photo is added and
      its counter saved, the PNG written, the square shown, the order saved
      and held input forbidden. */
  function TakePhoto(s: Photos, shot: Shot, prefab: Card): (r: Photos)
    requires Valid(s.ctrl)
    ensures r.ctrl == SortPhotos(AddPhoto(s.ctrl, s.disk, prefab))
    ensures r.ui == PhotoUI.SetSquare(s.ui)
    ensures r.input == s.input.(forbiddenInput := true)
    ensures Valid(r.ctrl)
    ensures r.disk == SaveCapture(s.disk, r.ctrl.howManySprites, s.ctrl.howManySprites, shot.pngSize, SequenceOf(r.ctrl))
  {
    var index := s.ctrl.howManySprites;
    var c := AddPhoto(s.ctrl, s.disk, prefab);
    var d1 := SaveGlobalData(s.disk, LoadGlobalData(s.disk).(photoCount := c.howManySprites));
    var d2 := d1[SpriteName(index) := Png(shot.pngSize)];
    var s3 := SaveCurrentSequence(Photos(c, PhotoUI.SetSquare(s.ui), s.input, d2));
    CaptureWrites(s.disk, c.howManySprites, index, shot.pngSize, SequenceOf(c));
    s3.(input := s3.input.(forbiddenInput := true))
  }


  /** The files a capture writes, one after the other, are `SaveCapture`'s. */
  lemma CaptureWrites(disk: Disk, count: int, index: int, pngSize: nat, order: seq<int>)
    ensures SaveOrder(SaveGlobalData(disk, LoadGlobalData(disk).(photoCount := count))[SpriteName(index) := Png(pngSize)], order)
         == SaveCapture(disk, count, index, pngSize, order)
  {
  }

  /** The card side of `SortPhotos`: only the remembered order changes. */
  function SortPhotos(c: Controller): (r: Controller)
    requires ListedCardsLive(c)
    ensures r == c.(subsequenceCards := SequenceOf(c))
    ensures Valid(c) ==> Valid(r) && SequenceOf(r) == SequenceOf(c)
  {
    c.(subsequenceCards := SequenceOf(c))
  }

  /** The disk a capture leaves, as a single fact. */
  lemma CaptureDisk(s: Photos, shot: Shot, prefab: Card)
    requires Valid(s.ctrl) && WellFormedShot(shot)
    requires MakeScreenshot(s, shot, prefab).Captured?
    ensures MakeScreenshot(s, shot, prefab).next.disk ==
              SaveCapture(s.disk, WrapInt32(s.ctrl.howManySprites + 1), s.ctrl.howManySprites,
                          shot.pngSize, SequenceOf(AddPhoto(s.ctrl, s.disk, prefab)))
  {
  }

  /** The new photo's index is in the order a capture saves. */
  lemma AddPhotoListsIndex(c: Controller, disk: Disk, prefab: Card)
    requires Valid(c)
    ensures c.howManySprites in SequenceOf(AddPhoto(c, disk, prefab))
  {
    AddPhotoOrder(c, disk, prefab);
  }

  /** A captured photo's PNG and the counter are on disk. */
  lemma CaptureFiles(s: Photos, shot: Shot, prefab: Card)
    requires Valid(s.ctrl) && WellFormedShot(shot)
    requires MakeScreenshot(s, shot, prefab).Captured?
    ensures var d := MakeScreenshot(s, shot, prefab).next.disk;
            && SpriteName(s.ctrl.howManySprites) in d
            && d[SpriteName(s.ctrl.howManySprites)] == Png(shot.pngSize)
            && LoadGlobalData(d).photoCount == WrapInt32(s.ctrl.howManySprites + 1)
  {
    CaptureDisk(s, shot, prefab);
  }

  /** The captured photo's index is in the saved order. */
  lemma CaptureSavesOrder(s: Photos, shot: Shot, prefab: Card)
    requires Valid(s.ctrl) && WellFormedShot(shot)
    requires MakeScreenshot(s, shot, prefab).Captured?
    ensures s.ctrl.howManySprites in LoadGlobalData(MakeScreenshot(s, shot, prefab).next.disk).sequence
  {
    CaptureDisk(s, shot, prefab);
    AddPhotoListsIndex(s.ctrl, s.disk, prefab);
  }

  /** The file `photo<i>` exists and is within the default size limit, so
      it loads as a sprite (its bytes are not checked to be an image). */
  predicate SpriteLoads(disk: Disk, index: int) {
    LoadSpriteFromDisk(disk, SpriteName(index), DefaultMaxSizeInMB).Some?
  }

  /** The saved indices whose sprite file loads, in saved order. */
  function Loadable(disk: Disk, indices: seq<int>): (r: seq<int>)
    ensures |r| <= |indices|
    ensures forall k :: 0 <= k < |r| ==> r[k] in indices && SpriteLoads(disk, r[k])
  {
    if |indices| == 0 then []
    else (if SpriteLoads(disk, indices[0]) then [indices[0]] else []) + Loadable(disk, indices[1..])
  }

  /** Exactly the saved indices whose sprite file loads survive the filter. */
  lemma {:induction false} LoadableMembers(disk: Disk, indices: seq<int>, x: int)
    ensures x in Loadable(disk, indices) <==> x in indices && SpriteLoads(disk, x)
  {
    if |indices| > 0 {
      LoadableMembers(disk, indices[1..], x);
      assert indices == [indices[0]] + indices[1..];
    }
  }

  /** When every saved sprite file loads, nothing is filtered out. */
  lemma {:induction false} LoadableAll(disk: Disk, indices: seq<int>)
    requires forall i :: 0 <= i < |indices| ==> SpriteLoads(disk, indices[i])
    ensures Loadable(disk, indices) == indices
  {
    if |indices| > 0 {
      LoadableAll(disk, indices[1..]);
    }
  }

  /** One loaded photo: a new card for `index` is instantiated and listed. */
  function AddListedCard(c: Controller, prefab: Card, index: int): (r: Controller)
    requires Valid(c)
    ensures Valid(r)
    ensures CardIndices(r.cards, r.allCards) == CardIndices(c.cards, c.allCards) + [index]
    ensures forall k :: k in c.cards ==> k in r.cards && r.cards[k] == c.cards[k]
  {
    var c1 := Instantiate(c, prefab, index);
    CardIndicesAppend(c1.cards, c.allCards, c.nextId);
    CardIndicesAgree(c1.cards, c.cards, c.allCards);
    c1.(allCards := c1.allCards + [c.nextId])
  }

  /** Lines 113-133 for the indices whose sprite file loads: a listed card for
      each, in order.  The loop also instantiates a card for every other
      index, but destroys it at once and never lists it. */
  function LoadCards(c: Controller, prefab: Card, indices: seq<int>): (r: Controller)
    requires Valid(c)
    ensures Valid(r)
    ensures CardIndices(r.cards, r.allCards) == CardIndices(c.cards, c.allCards) + indices
    decreases |indices|
  {
    if |indices| == 0 then c
    else
      var c1 := AddListedCard(c, prefab, indices[0]);
      var r := LoadCards(c1, prefab, indices[1..]);
      ConsTail(CardIndices(c.cards, c.allCards), indices);
      r
  }

  /** Lines 142-145: `TheStart` on every listed card, in list order. */
  function StartCards(c: Controller, disk: Disk, ids: seq<CardId>): (r: Controller)
    requires Valid(c) && forall i :: 0 <= i < |ids| ==> ids[i] in c.allCards
    ensures Valid(r)
    ensures r.allCards == c.allCards && r.cards.Keys == c.cards.Keys
    ensures forall k :: k in c.cards ==> r.cards[k].index == c.cards[k].index
    decreases |ids|
  {
    if |ids| == 0 then c
    else
      var c1 := TheStart(c, disk, ids[0]);
      StartCards(c1, disk, ids[1..])
  }

  /** Lines 110-145: the cards of the saved photos that load are listed
      after the existing ones, and every listed card is started. */
  function RestoreCards(c: Controller, disk: Disk, prefab: Card): (r: Controller)
    requires Valid(c)
    ensures Valid(r)
    ensures CardIndices(r.cards, r.allCards) ==
              CardIndices(c.cards, c.allCards) + Loadable(disk, LoadGlobalData(disk).sequence)
  {
    var c1 := LoadCards(c, prefab, Loadable(disk, LoadGlobalData(disk).sequence));
    var c2 := StartCards(c1, disk, c1.allCards);
    CardIndicesAgree(c2.cards, c1.cards, c1.allCards);
    c2
  }

  /** The card side of a first `Start`: the counter is read, the cards are
      restored and laid out. */
  function Rebuild(c: Controller, disk: Disk, prefab: Card): (r: Controller)
    requires Valid(c)
    ensures Valid(r) && r.initialReady
    ensures r.howManySprites == LoadGlobalData(disk).photoCount
    ensures CardIndices(r.cards, r.allCards) ==
              CardIndices(c.cards, c.allCards) + Loadable(disk, LoadGlobalData(disk).sequence)
  {
    var c1 := RestoreCards(c, disk, prefab);
    ArrangeKeepsIndices(c1);
    Arrange(c1).(howManySprites := LoadGlobalData(disk).photoCount, initialReady := true)
  }

  /** `Start`: reads the counter; on the first run rebuilds the collection
      and saves its order (`SortPhotos` before `ShufflePositions`, which
      keeps the order); always re-allows capture.  The fields the rebuild
      does not read are set after it rather than before. */
  function Start(s: Photos, prefab: Card): (r: Photos)
    requires Valid(s.ctrl)
    ensures r.ui == PhotoUI.CanPhotos(s.ui) && r.input == s.input
    ensures s.ctrl.initialReady ==>
              r.ctrl == s.ctrl.(howManySprites := LoadGlobalData(s.disk).photoCount) && r.disk == s.disk
    ensures !s.ctrl.initialReady ==>
              r.ctrl == Rebuild(s.ctrl, s.disk, prefab) && r.disk == SaveOrder(s.disk, SequenceOf(r.ctrl))
  {
    if s.ctrl.initialReady then
      s.(ctrl := s.ctrl.(howManySprites := LoadGlobalData(s.disk).photoCount), ui := PhotoUI.CanPhotos(s.ui))
    else
      var c := Rebuild(s.ctrl, s.disk, prefab);
      s.(ctrl := c, disk := SaveOrder(s.disk, SequenceOf(c)), ui := PhotoUI.CanPhotos(s.ui))
  }

  /** On a first start with no cards, the collection lists exactly the saved
      photos whose sprite file loads, in saved order, and saves that order back. */
  lemma StartRestoresCollection(s: Photos, prefab: Card)
    requires Valid(s.ctrl) && !s.ctrl.initialReady && s.ctrl.allCards == []
    ensures CardIndices(Start(s, prefab).ctrl.cards, Start(s, prefab).ctrl.allCards) ==
              Loadable(s.disk, LoadGlobalData(s.disk).sequence)
    ensures LoadGlobalData(Start(s, prefab).disk) ==
              LoadGlobalData(s.disk).(sequence := Dedup(Loadable(s.disk, LoadGlobalData(s.disk).sequence)))
  {
  }

  /** A saved order without repeats whose sprite files all load survives a restart
      unchanged. */
  lemma StartKeepsIntactOrder(s: Photos, prefab: Card)
    requires Valid(s.ctrl) && !s.ctrl.initialReady && s.ctrl.allCards == []
    requires NoDuplicates(LoadGlobalData(s.disk).sequence)
    requires forall i :: 0 <= i < |LoadGlobalData(s.disk).sequence| ==>
               SpriteLoads(s.disk, LoadGlobalData(s.disk).sequence[i])
    ensures LoadGlobalData(Start(s, prefab).disk) == LoadGlobalData(s.disk)
  {
    var saved := LoadGlobalData(s.disk).sequence;
    StartRestoresCollection(s, prefab);
    LoadableAll(s.disk, saved);
    DedupOfNoDuplicates(saved);
  }

  /** A photo captured with a PNG within the size limit is in the saved
      order and loads again, so the next start lists it. */
  lemma CaptureSurvivesRestart(s: Photos, shot: Shot, prefab: Card)
    requires Valid(s.ctrl) && WellFormedShot(shot)
    requires MakeScreenshot(s, shot, prefab).Captured?
    requires shot.pngSize <= SizeLimit(DefaultMaxSizeInMB)
    ensures var d := MakeScreenshot(s, shot, prefab).next.disk;
            s.ctrl.howManySprites in Loadable(d, LoadGlobalData(d).sequence)
  {
    CaptureFiles(s, shot, prefab);
    CaptureSavesOrder(s, shot, prefab);
    var d := MakeScreenshot(s, shot, prefab).next.disk;
    LoadableMembers(d, LoadGlobalData(d).sequence, s.ctrl.howManySprites);
  }
}

=== FILE: photo_cards.dfy ===
/** `PhotoPrefab`: one photo card's start-up, drag and drop, and deletion. */
module PhotoCards {
  import opened Common
  import opened PhotoStorage
  import opened PhotoState
  import opened PhotoCollection

  /** The position key a card stores under. */
  function PositionKey(index: int): string {
    "photopos" + IntToString(index)
  }

  /** The content key a card stores under. */
  function DataKey(index: int): string {
    "DataKey" + IntToString(index)
  }

  /** The start parent every card ends `TheStart` with. */
  const Collection: string := "collection"

  /** Distinct photo indices give distinct keys, and a position key is never
      a content key. */
  lemma KeysDistinct(i: int, j: int)
    ensures PositionKey(i) == PositionKey(j) <==> i == j
    ensures DataKey(i) == DataKey(j) <==> i == j
    ensures PositionKey(i) != DataKey(j)
  {
    FramedIntInjective("photopos", "", i, j);
    FramedIntInjective("DataKey", "", i, j);
    assert PositionKey(i) + "" == PositionKey(i);
    assert PositionKey(j) + "" == PositionKey(j);
    assert DataKey(i) + "" == DataKey(i);
    assert DataKey(j) + "" == DataKey(j);
    assert PositionKey(i)[0] == 'p';
    assert DataKey(j)[0] == 'D';
  }

  /** `RegisterWithController`: appends the card unless it is already listed. */
  function Register(allCards: seq<CardId>, id: CardId): (r: seq<CardId>)
    ensures id in r
    ensures forall x :: x in r <==> x in allCards || x == id
    ensures |allCards| <= |r| <= |allCards| + 1 && r[..|allCards|] == allCards
    ensures NoDuplicates(allCards) ==> NoDuplicates(r)
  {
    if id in allCards then allCards else allCards + [id]
  }

  /** Registering twice lists the card once, as registering once does. */
  lemma RegisterIdempotent(allCards: seq<CardId>, id: CardId)
    ensures Register(Register(allCards, id), id) == Register(allCards, id)
  {
  }

  /** The start parent `LoadPhotoData` leaves: the saved parent is copied and
      then overwritten, and a missing record falls back to the same value. */
  function LoadedStartParent(saved: Option<PhotoData>): (r: Option<string>)
    ensures r == Some(Collection)
  {
    match saved
    case Some(_) => Some(Collection)
    case None => Some(Collection)
  }

  /** `TheStart`: the card's keys come from its index, its start parent is
      "collection", it is registered once, shrunk to `sizeMini` and
      disabled; no other card changes. */
  function TheStart(c: Controller, disk: Disk, id: CardId): (r: Controller)
    requires Valid(c) && id in c.cards
    ensures Valid(r)
    ensures r.allCards == Register(c.allCards, id)
    ensures r.cards.Keys == c.cards.Keys
    ensures r.cards[id] == c.cards[id].(key := Some(PositionKey(c.cards[id].index)),
                                        keydata := Some(DataKey(c.cards[id].index)),
                                        startParent := Some(Collection),
                                        scale := SizeMini, enabled := false)
    ensures forall k :: k in c.cards && k != id ==> r.cards[k] == c.cards[k]
    ensures r == c.(cards := r.cards, allCards := r.allCards)
  {
    var card := c.cards[id];
    var card1 := card.(key := Some(PositionKey(card.index)), keydata := Some(DataKey(card.index)));
    var card2 := card1.(startParent := LoadedStartParent(LoadPhotoData(disk, card.index)));
    var card3 := card2.(scale := SizeMini, enabled := false);
    c.(cards := c.cards[id := card3], allCards := Register(c.allCards, id))
  }

  /** `ClickIt` with `InitiateDragMode`: the card turns half transparent,
      moves under the capture square and becomes the dragged card.  The
      tint is set without a null check, so a card without an image throws
      before anything changes. */
  function ClickIt(c: Controller, id: CardId): (r: Controller)
    requires Valid(c) && id in c.cards
    ensures Valid(r)
    ensures c.cards[id].hasImage ==> r.movingCard == Some(id)
    ensures !c.cards[id].hasImage ==> r == c
    ensures r.allCards == c.allCards && r.cards.Keys == c.cards.Keys
  {
    if !c.cards[id].hasImage then c
    else
    var cards := DisableOtherCards(SetCard(c, id, c.cards[id].(color := HalfTransparent, parent := TargetSquare)));
    var dragged := cards.cards[id].(scale := SizeMax);
    SetCard(cards, id, dragged.(startPos := dragged.position, enabled := true)).(movingCard := Some(id))
  }

  /** `DisableOtherCards`: every listed card with an image stops taking
      raycasts and every listed card shrinks to `sizeMini`. */
  function DisableOtherCards(c: Controller): (r: Controller)
    requires Valid(c)
    ensures Valid(r)
    ensures r.cards.Keys == c.cards.Keys
    ensures forall k :: k in c.cards ==> r.cards[k] == if k in c.allCards then ApplyUpdate(c.cards[k], DisableAndShrink) else c.cards[k]
    ensures r == c.(cards := r.cards)
  {
    c.(cards := UpdateCards(c.cards, c.allCards, DisableAndShrink))
  }

  /** While a card is dragged every listed card with an image ignores
      raycasts, every other listed card is at `sizeMini` and unlisted cards
      are untouched. */
  lemma ClickItDisablesOthers(c: Controller, id: CardId)
    requires Valid(c) && id in c.cards
    ensures c.cards[id].hasImage ==>
              forall k :: k in c.allCards && c.cards[k].hasImage ==> !ClickIt(c, id).cards[k].raycastTarget
    ensures c.cards[id].hasImage ==>
              forall k :: k in c.allCards && k != id ==> ClickIt(c, id).cards[k].scale == SizeMini
    ensures forall k :: k in c.cards && k !in c.allCards && k != id ==> ClickIt(c, id).cards[k] == c.cards[k]
  {
    if !c.cards[id].hasImage { return; }
    var c1 := SetCard(c, id, c.cards[id].(color := HalfTransparent, parent := TargetSquare));
    var c2 := DisableOtherCards(c1);
    var r := ClickIt(c, id);
    assert forall k :: k in c.cards && k != id ==> r.cards[k] == c2.cards[k];
    assert r.cards[id].raycastTarget == c2.cards[id].raycastTarget;
  }

  /** A dragged card with an image is half transparent under the capture
      square, at `sizeMax`, enabled, and remembers where it was. */
  lemma ClickItDraggedCard(c: Controller, id: CardId)
    requires Valid(c) && id in c.cards
    ensures c.cards[id].hasImage ==>
              ClickIt(c, id).cards[id].scale == SizeMax && ClickIt(c, id).cards[id].color == HalfTransparent
    ensures c.cards[id].hasImage ==>
              ClickIt(c, id).cards[id].parent == TargetSquare && ClickIt(c, id).cards[id].enabled
    ensures c.cards[id].hasImage ==> ClickIt(c, id).cards[id].startPos == c.cards[id].position
    ensures ClickIt(c, id).cards[id].index == c.cards[id].index
  {
    var c1 := SetCard(c, id, c.cards[id].(color := HalfTransparent, parent := TargetSquare));
    var c2 := DisableOtherCards(c1);
    assert c2.cards[id].position == c.cards[id].position;
  }

  /** `MoveIt`: the card follows the pointer in the plane `z = 0`. */
  function MoveIt(c: Controller, id: CardId, inputPos: Vec3): (r: Controller)
    requires id in c.cards
    ensures r.cards.Keys == c.cards.Keys
    ensures r.cards[id].position == Vec3(inputPos.x, inputPos.y, 0.0)
    ensures r.cards[id] == c.cards[id].(position := r.cards[id].position)
    ensures forall k :: k in c.cards && k != id ==> r.cards[k] == c.cards[k]
    ensures r == c.(cards := r.cards)
  {
    c.(cards := c.cards[id := c.cards[id].(position := inputPos.(z := 0.0))])
  }

  /** `new PhotoData(this)` for a card. */
  function CardRecord(card: Card): (d: PhotoData)
    ensures d.position == card.position && d.parentType == card.startParent
    ensures d.key == card.key && d.keyData == card.keydata
  {
    FromCard(card.position, card.startParent, card.key, card.keydata)
  }

  /** The card side of `LetItGo` through `FinalizePhotoPlacement`: the card
      goes under `holder`, turns white and shrinks to `sizeMini`; the cards
      are laid out, nothing is dragged and the card is disabled.  The tint
      is set without a null check, so for a card without an image the drop
      stops with the card under `holder` and still dragged. */
  function DropCard(c: Controller, id: CardId): (r: Controller)
    requires Valid(c) && id in c.cards
    ensures Valid(r)
    ensures c.cards[id].hasImage ==> r.movingCard.None?
    ensures !c.cards[id].hasImage ==> r == SetCard(c, id, c.cards[id].(parent := Holder))
    ensures r.allCards == c.allCards && r.cards.Keys == c.cards.Keys
  {
    if !c.cards[id].hasImage then SetCard(c, id, c.cards[id].(parent := Holder))
    else
    var placed := c.cards[id].(parent := Holder, color := White, scale := SizeMini);
    var c1 := Arrange(SetCard(c, id, placed));
    var c2 := c1.(movingCard := None);
    SetCard(c2, id, c2.cards[id].(enabled := false))
  }

  /** A dropped card with an image is white, at `sizeMini` and disabled; a
      listed card ends under `photoHolder`, where `ShufflePositions` puts it
      back, and an unlisted one under `holder`.  One without an image only
      moves under `holder`. */
  lemma DropCardPlacesCard(c: Controller, id: CardId)
    requires Valid(c) && id in c.cards
    ensures c.cards[id].hasImage ==>
              DropCard(c, id).cards[id].scale == SizeMini && DropCard(c, id).cards[id].color == White
    ensures c.cards[id].hasImage ==> !DropCard(c, id).cards[id].enabled
    ensures DropCard(c, id).cards[id].parent ==
              if id in c.allCards && c.cards[id].hasImage then PhotoHolder else Holder
  {
    if !c.cards[id].hasImage { return; }
    var placed := c.cards[id].(parent := Holder, color := White, scale := SizeMini);
    ArrangeCard(SetCard(c, id, placed), id);
  }

  /** Dropping a card changes no card's photo index and keeps the saved
      order. */
  lemma DropCardKeepsIndices(c: Controller, id: CardId)
    requires Valid(c) && id in c.cards
    ensures forall k :: k in c.cards ==> DropCard(c, id).cards[k].index == c.cards[k].index
    ensures SequenceOf(DropCard(c, id)) == SequenceOf(c)
  {
    var placed := c.cards[id].(parent := Holder, color := White, scale := SizeMini);
    var c0 := SetCard(c, id, placed);
    var c1 := Arrange(c0);
    var r := DropCard(c, id);
    forall k | k in c.cards
      ensures r.cards[k].index == c.cards[k].index
    {
      ArrangeCard(c0, k);
    }
    CardIndicesAgree(r.cards, c.cards, c.allCards);
  }

  /** `LetItGo` through `FinalizePhotoPlacement`: the card is dropped, its
      record saved, the order re-saved and the cards laid out.  For a card
      without an image the drop throws before anything is saved. */
  function LetItGo(s: Photos, id: CardId): (r: Photos)
    requires Valid(s.ctrl) && id in s.ctrl.cards
    ensures r.ctrl == DropCard(s.ctrl, id) && r.ui == s.ui && r.input == s.input
    ensures s.ctrl.cards[id].hasImage ==>
              r.disk == SaveOrder(SavePhotoData(s.disk, s.ctrl.cards[id].index, CardRecord(s.ctrl.cards[id])),
                                  SequenceOf(s.ctrl))
    ensures !s.ctrl.cards[id].hasImage ==> r.disk == s.disk
  {
    if !s.ctrl.cards[id].hasImage then s.(ctrl := DropCard(s.ctrl, id))
    else
    var card := s.ctrl.cards[id];
    var placed := card.(parent := Holder, color := White, scale := SizeMini);
    var s1 := s.(ctrl := SetCard(s.ctrl, id, placed));
    var s2 := s1.(disk := SavePhotoData(s1.disk, card.index, CardRecord(placed)));
    var s3 := SortAndShuffle(s2);
    var c := s3.ctrl.(movingCard := None);
    CardIndicesAgree(s1.ctrl.cards, s.ctrl.cards, s.ctrl.allCards);
    s3.(ctrl := SetCard(c, id, c.cards[id].(enabled := false)))
  }

  /** What `LetItGo` does to the files: the card's record holds its
      position, start parent and keys; other records are untouched; the
      saved order is that of the cards. */
  lemma LetItGoFiles(s: Photos, id: CardId)
    requires Valid(s.ctrl) && id in s.ctrl.cards
    ensures s.ctrl.cards[id].hasImage ==>
              LoadPhotoData(LetItGo(s, id).disk, s.ctrl.cards[id].index) ==
              Some(FromCard(s.ctrl.cards[id].position, s.ctrl.cards[id].startParent,
                            s.ctrl.cards[id].key, s.ctrl.cards[id].keydata))
    ensures forall j :: j != s.ctrl.cards[id].index ==>
              LoadPhotoData(LetItGo(s, id).disk, j) == LoadPhotoData(s.disk, j)
    ensures s.ctrl.cards[id].hasImage ==>
              LoadGlobalData(LetItGo(s, id).disk) == LoadGlobalData(s.disk).(sequence := SequenceOf(LetItGo(s, id).ctrl))
  {
    if !s.ctrl.cards[id].hasImage { return; }
    var index := s.ctrl.cards[id].index;
    var data := CardRecord(s.ctrl.cards[id]);
    var d1 := SavePhotoData(s.disk, index, data);
    SaveOrderKeepsRecords(d1, SequenceOf(s.ctrl));
    SaveThenLoadPhotoData(s.disk, index, data);
    forall j | j != index
      ensures LoadPhotoData(d1, j) == LoadPhotoData(s.disk, j)
    {
      SavePhotoDataFrame(s.disk, index, j, data);
    }
    SavePhotoDataFrame(s.disk, index, index + 1, data);
    DropCardKeepsIndices(s.ctrl, id);
  }

  /** `allCards.Remove(this)` on its own keeps the bookkeeping valid. */
  function Unlist(c: Controller, id: CardId): (r: Controller)
    requires Valid(c)
    ensures Valid(r)
    ensures id !in r.allCards && r.allCards == RemoveFirst(c.allCards, id)
    ensures r == c.(allCards := r.allCards)
  {
    RemoveFirstNoDuplicates(c.allCards, id);
    var l := RemoveFirst(c.allCards, id);
    assert forall i :: 0 <= i < |l| ==> l[i] in c.allCards;
    c.(allCards := l)
  }

  /** `Delete`: the card leaves `allCards`, its record is deleted, and then
      `DeleteIt` removes the image and the card itself. */
  function Delete(s: Photos, id: CardId): (r: Photos)
    requires Valid(s.ctrl) && id in s.ctrl.cards
    ensures r.ctrl == RemoveCard(Unlist(s.ctrl, id), id)
    ensures r.ui == s.ui.(cantPhoto := true) && r.input == s.input.(isClicking := false)
    ensures r.disk == DeleteIt(s.(ctrl := Unlist(s.ctrl, id), disk := DeletePhotoData(s.disk, s.ctrl.cards[id].index)), id).disk
  {
    var index := s.ctrl.cards[id].index;
    DeleteIt(s.(ctrl := Unlist(s.ctrl, id), disk := DeletePhotoData(s.disk, index)), id)
  }

  /** After `Delete` the card is gone from the objects and the list, which
      lost exactly that card; nothing is dragged and capture is blocked. */
  lemma DeleteRemovesCard(s: Photos, id: CardId)
    requires Valid(s.ctrl) && id in s.ctrl.cards
    ensures Valid(Delete(s, id).ctrl)
    ensures id !in Delete(s, id).ctrl.cards && id !in Delete(s, id).ctrl.allCards
    ensures Delete(s, id).ctrl.allCards == RemoveFirst(s.ctrl.allCards, id)
    ensures Delete(s, id).ctrl.movingCard.None? && Delete(s, id).ui.cantPhoto
  {
    var c1 := Unlist(s.ctrl, id);
    assert RemoveFirst(c1.allCards, id) == c1.allCards;
  }

  /** What `Delete` does to the files: the card's record and image are gone,
      other records are untouched and the saved order is that of the
      remaining cards. */
  lemma DeleteFiles(s: Photos, id: CardId)
    requires Valid(s.ctrl) && id in s.ctrl.cards
    ensures LoadPhotoData(Delete(s, id).disk, s.ctrl.cards[id].index).None?
    ensures forall j :: j != s.ctrl.cards[id].index ==> LoadPhotoData(Delete(s, id).disk, j) == LoadPhotoData(s.disk, j)
    ensures SpriteName(s.ctrl.cards[id].index) !in Delete(s, id).disk
    ensures LoadGlobalData(Delete(s, id).disk) == LoadGlobalData(s.disk).(sequence := SequenceOf(Delete(s, id).ctrl))
  {
    var index := s.ctrl.cards[id].index;
    var s1 := s.(ctrl := Unlist(s.ctrl, id), disk := DeletePhotoData(s.disk, index));
    DeleteItFiles(s1, id);
    DeleteItRemovesCard(s1, id);
    forall j ensures LoadPhotoData(s1.disk, j) == (if j == index then None else LoadPhotoData(s.disk, j)) {
      DeleteThenLoadPhotoData(s.disk, index, j);
    }
    DeleteThenLoadPhotoData(s.disk, index, index);
  }

  /** When no other listed card shares the deleted card's photo index, the
      index is gone from the saved order. */
  lemma DeleteDropsIndexFromOrder(s: Photos, id: CardId)
    requires Valid(s.ctrl) && id in s.ctrl.cards
    requires forall k :: k in s.ctrl.allCards && k != id ==> s.ctrl.cards[k].index != s.ctrl.cards[id].index
    ensures s.ctrl.cards[id].index !in LoadGlobalData(Delete(s, id).disk).sequence
  {
    var c1 := Unlist(s.ctrl, id);
    var r := Delete(s, id);
    DeleteFiles(s, id);
    DeleteRemovesCard(s, id);
    RemoveCardKeepsIndices(c1, id);
    RemoveFirstNoDuplicates(s.ctrl.allCards, id);
    var indices := CardIndices(r.ctrl.cards, r.ctrl.allCards);
    forall i | 0 <= i < |indices| ensures indices[i] != s.ctrl.cards[id].index {
      assert r.ctrl.allCards[i] in s.ctrl.allCards;
    }
  }
}

=== FILE: photo_collection.dfy ===
/** `PhotoController`'s collection bookkeeping: persisting the photo order,
    laying the cards out, loading a photo's image and deleting a photo. */
module PhotoCollection {
  import opened Common
  import opened PhotoStorage
  import opened PhotoSequence
  import opened PhotoState
  import PhotoUI

  /** The order persisted for the current cards. */
  function SequenceOf(c: Controller): seq<int>
    requires ListedCardsLive(c)
  {
    Dedup(CardIndices(c.cards, c.allCards))
  }

  /** Writes `order` into the global record, keeping the stored photo count. */
  function SaveOrder(disk: Disk, order: seq<int>): (r: Disk)
    ensures LoadGlobalData(r) == LoadGlobalData(disk).(sequence := order)
    ensures forall p :: p != GlobalDataPath ==> (p in r <==> p in disk) && (p in disk ==> r[p] == disk[p])
  {
    var globalData := LoadGlobalData(disk);
    SaveGlobalData(disk, globalData.(sequence := order))
  }

  /** Saving the order leaves every photo record as it was. */
  lemma SaveOrderKeepsRecords(disk: Disk, order: seq<int>)
    ensures forall j :: LoadPhotoData(SaveOrder(disk, order), j) == LoadPhotoData(disk, j)
  {
    forall j ensures LoadPhotoData(SaveOrder(disk, order), j) == LoadPhotoData(disk, j) {
      GlobalIsNotPhotoDataPath(j);
    }
  }

  /** `SaveCurrentSequence(allCards)` (also `SortPhotos`): keeps the computed
      order in `subsequenceCards` and writes it into the global record,
      keeping the stored photo count; no other file changes. */
  function SaveCurrentSequence(s: Photos): (r: Photos)
    requires ListedCardsLive(s.ctrl)
    ensures r == s.(ctrl := s.ctrl.(subsequenceCards := SequenceOf(s.ctrl)),
                    disk := SaveOrder(s.disk, SequenceOf(s.ctrl)))
  {
    var sequence := SequenceOf(s.ctrl);
    var globalData := LoadGlobalData(s.disk);
    s.(ctrl := s.ctrl.(subsequenceCards := sequence),
       disk := SaveGlobalData(s.disk, globalData.(sequence := sequence)))
  }

  /** The saved order lists each photo index of a listed card exactly once,
      nothing else, in order of first appearance in `allCards`. */
  lemma SavedSequenceCharacterized(s: Photos)
    requires ListedCardsLive(s.ctrl)
    ensures NoDuplicates(LoadGlobalData(SaveCurrentSequence(s).disk).sequence)
    ensures forall x :: x in LoadGlobalData(SaveCurrentSequence(s).disk).sequence <==>
              exists i :: 0 <= i < |s.ctrl.allCards| && s.ctrl.cards[s.ctrl.allCards[i]].index == x
    ensures forall a, b :: 0 <= a < b < |SequenceOf(s.ctrl)| ==>
              FirstIndex(CardIndices(s.ctrl.cards, s.ctrl.allCards), SequenceOf(s.ctrl)[a]) <
              FirstIndex(CardIndices(s.ctrl.cards, s.ctrl.allCards), SequenceOf(s.ctrl)[b])
  {
    var c := s.ctrl;
    var indices := CardIndices(c.cards, c.allCards);
    DedupKeepsFirstOccurrenceOrder(indices);
    forall x
      ensures x in indices <==> exists i :: 0 <= i < |c.allCards| && c.cards[c.allCards[i]].index == x
    {
      if x in indices {
        var i :| 0 <= i < |indices| && indices[i] == x;
        assert c.cards[c.allCards[i]].index == x;
      }
    }
  }

  /** `ShufflePositions`: every listed card goes back under `photoHolder`
      at `sizeMini` (its sibling order is a rendering detail). */
  function ShufflePositions(c: Controller): (r: Controller)
    ensures r.cards.Keys == c.cards.Keys
    ensures forall id :: id in c.allCards && id in c.cards ==>
              r.cards[id] == c.cards[id].(parent := PhotoHolder, scale := SizeMini)
    ensures forall id :: id in c.cards && id !in c.allCards ==> r.cards[id] == c.cards[id]
    ensures r == c.(cards := r.cards)
  {
    c.(cards := UpdateCards(c.cards, c.allCards, ReturnToHolder))
  }

  /** The default `maxSizeInMB` of `LoadSpriteFromDisk`. */
  const DefaultMaxSizeInMB: int := 10

  /** `maxSizeInMB * 1024 * 1024` in C# `int` arithmetic. */
  function SizeLimit(maxSizeInMB: int): (r: int)
    requires IsInt32(maxSizeInMB)
    ensures IsInt32(r)
    ensures 0 <= maxSizeInMB < 2048 ==> r == maxSizeInMB * 1048576
  {
    WrapInt32(WrapInt32(maxSizeInMB * 1024) * 1024)
  }

  /** `LoadSpriteFromDisk`: the size of the file behind the sprite, or `None`
      (a null sprite) when the file is absent or longer than the limit. The
      bytes are not checked to be an image: `Texture2D.LoadImage`'s result is
      ignored, so any file within the limit yields a sprite. */
  function LoadSpriteFromDisk(disk: Disk, fileName: string, maxSizeInMB: int): (r: Option<nat>)
    requires IsInt32(maxSizeInMB)
    ensures fileName !in disk ==> r.None?
    ensures r.Some? <==> fileName in disk && disk[fileName].size <= SizeLimit(maxSizeInMB)
    ensures r.Some? ==> r.value == disk[fileName].size
  {
    if fileName !in disk then None
    else if disk[fileName].size > SizeLimit(maxSizeInMB) then None
    else Some(disk[fileName].size)
  }

  /** With the default limit a file of exactly 10 MB loads and one byte more
      does not. */
  lemma DefaultLimitIsInclusive(disk: Disk, fileName: string)
    requires fileName in disk
    ensures disk[fileName].size == 10485760 ==> LoadSpriteFromDisk(disk, fileName, DefaultMaxSizeInMB).Some?
    ensures disk[fileName].size == 10485761 ==> LoadSpriteFromDisk(disk, fileName, DefaultMaxSizeInMB).None?
  {
  }

  /** The card side of `SortPhotos` then `ShufflePositions`: the order is
      kept in `subsequenceCards` and every listed card goes back under
      `photoHolder` at `sizeMini`. */
  function Arrange(c: Controller): (r: Controller)
    requires Valid(c)
    ensures Valid(r)
    ensures r.allCards == c.allCards && r.cards.Keys == c.cards.Keys && r.movingCard == c.movingCard
    ensures SequenceOf(r) == SequenceOf(c) && r.subsequenceCards == SequenceOf(c)
    ensures forall id :: id in c.allCards && id in c.cards ==>
              r.cards[id] == c.cards[id].(parent := PhotoHolder, scale := SizeMini)
    ensures forall id :: id in c.cards && id !in c.allCards ==> r.cards[id] == c.cards[id]
    ensures r == c.(cards := r.cards, subsequenceCards := r.subsequenceCards)
  {
    var r := ShufflePositions(c.(subsequenceCards := SequenceOf(c)));
    CardIndicesAgree(r.cards, c.cards, c.allCards);
    r
  }

  /** What laying the cards out does to one card. */
  lemma ArrangeCard(c: Controller, id: CardId)
    requires Valid(c) && id in c.cards
    ensures Arrange(c).cards[id] ==
              if id in c.allCards then c.cards[id].(parent := PhotoHolder, scale := SizeMini) else c.cards[id]
  {
  }

  /** Laying the cards out changes no listed card's photo index. */
  lemma ArrangeKeepsIndices(c: Controller)
    requires Valid(c)
    ensures CardIndices(Arrange(c).cards, Arrange(c).allCards) == CardIndices(c.cards, c.allCards)
  {
    CardIndicesAgree(Arrange(c).cards, c.cards, c.allCards);
  }

  /** `SortPhotos` then `ShufflePositions`, as every card change ends. */
  function SortAndShuffle(s: Photos): (r: Photos)
    requires Valid(s.ctrl)
    ensures r == s.(ctrl := Arrange(s.ctrl), disk := SaveOrder(s.disk, SequenceOf(s.ctrl)))
  {
    var saved := SaveCurrentSequence(s);
    saved.(ctrl := ShufflePositions(saved.ctrl))
  }

  /** `allCards.Remove(photo)` followed by `Destroy(photo.gameObject)`. */
  function RemoveAndDestroy(c: Controller, id: CardId): (r: Controller)
    ensures r.allCards == RemoveFirst(c.allCards, id)
    ensures r.cards == c.cards - {id}
    ensures r.movingCard == (if c.movingCard == Some(id) then None else c.movingCard)
    ensures r == c.(allCards := r.allCards, cards := r.cards, movingCard := r.movingCard)
  {
    c.(allCards := RemoveFirst(c.allCards, id), cards := c.cards - {id},
       movingCard := if c.movingCard == Some(id) then None else c.movingCard)
  }

  /** Removing and destroying a card keeps the bookkeeping valid, and on a
      list without repeats the card is gone from the list entirely. */
  lemma RemoveAndDestroyValid(c: Controller, id: CardId)
    requires Valid(c)
    ensures Valid(RemoveAndDestroy(c, id))
    ensures id !in RemoveAndDestroy(c, id).allCards
  {
    var r := RemoveAndDestroy(c, id);
    RemoveFirstNoDuplicates(c.allCards, id);
    assert NoDuplicates(r.allCards);
    forall i | 0 <= i < |r.allCards|
      ensures r.allCards[i] in r.cards
    {
      var x := r.allCards[i];
      assert x in RemoveFirst(c.allCards, id);
      assert x in c.allCards && x != id;
    }
    assert r.movingCard.Some? ==> r.movingCard.value in r.cards;
    assert forall k :: k in r.cards ==> k in c.cards;
  }

  /** The card side of `DeleteIt`: the cards are reset, the card is removed
      and destroyed, the rest are laid out and nothing is dragged. */
  function RemoveCard(c: Controller, id: CardId): (r: Controller)
    requires Valid(c) && id in c.cards
    ensures Valid(r)
    ensures id !in r.cards && id !in r.allCards
    ensures r.allCards == RemoveFirst(c.allCards, id)
    ensures r.cards.Keys == c.cards.Keys - {id}
    ensures r.movingCard.None?
  {
    var c1 := PhotoUI.ResetCards(c);
    RemoveAndDestroyValid(c1, id);
    var c2 := Arrange(RemoveAndDestroy(c1, id));
    c2.(movingCard := None)
  }

  /** Deleting a card changes no other card's photo index, nor the photo
      counter. */
  lemma RemoveCardKeepsIndices(c: Controller, id: CardId)
    requires Valid(c) && id in c.cards
    ensures forall k :: k in RemoveCard(c, id).cards ==> RemoveCard(c, id).cards[k].index == c.cards[k].index
    ensures RemoveCard(c, id).howManySprites == c.howManySprites
  {
    var c1 := PhotoUI.ResetCards(c);
    RemoveAndDestroyValid(c1, id);
    var c2 := Arrange(RemoveAndDestroy(c1, id));
    assert RemoveCard(c, id).cards == c2.cards;
  }

  /** `DeleteIt`: blocks capture, resets the cards, deletes the photo's PNG,
      drops the card from `allCards` and destroys it, re-saves the order,
      lays the cards out and clears the dragged card. */
  function DeleteIt(s: Photos, id: CardId): (r: Photos)
    requires Valid(s.ctrl) && id in s.ctrl.cards
    ensures r.ctrl == RemoveCard(s.ctrl, id)
    ensures r.ui == s.ui.(cantPhoto := true) && r.input == s.input.(isClicking := false)
    ensures r.disk == SaveOrder(DeleteFile(s.disk, SpriteName(s.ctrl.cards[id].index)),
                                SequenceOf(RemoveCard(s.ctrl, id)))
  {
    var s1 := PhotoUI.ResetPhotos(PhotoUI.CantPhotos(s));
    var s2 := s1.(ui := s1.ui.(cantPhoto := true));
    var s3 := s2.(disk := DeleteFile(s2.disk, SpriteName(s.ctrl.cards[id].index)));
    RemoveAndDestroyValid(s3.ctrl, id);
    var s4 := SortAndShuffle(s3.(ctrl := RemoveAndDestroy(s3.ctrl, id)));
    var r := s4.(ctrl := s4.ctrl.(movingCard := None));
    assert SequenceOf(RemoveAndDestroy(s3.ctrl, id)) == SequenceOf(RemoveCard(s.ctrl, id));
    r
  }

  /** After `DeleteIt` the card is gone, nothing is dragged, capture is
      blocked, and the order saved for the remaining cards. */
  lemma DeleteItRemovesCard(s: Photos, id: CardId)
    requires Valid(s.ctrl) && id in s.ctrl.cards
    ensures id !in DeleteIt(s, id).ctrl.cards && id !in DeleteIt(s, id).ctrl.allCards
    ensures DeleteIt(s, id).ctrl.movingCard.None? && DeleteIt(s, id).ui.cantPhoto
    ensures !DeleteIt(s, id).input.isClicking
    ensures LoadGlobalData(DeleteIt(s, id).disk) ==
              LoadGlobalData(s.disk).(sequence := SequenceOf(DeleteIt(s, id).ctrl))
  {
    var index := s.ctrl.cards[id].index;
    SpriteNameDisjointFromRecords(index);
    GlobalDataFrame(DeleteFile(s.disk, SpriteName(index)), s.disk);
  }

  /** What `DeleteIt` does to the other files: the photo's PNG is gone and
      every photo record is as it was. */
  lemma DeleteItFiles(s: Photos, id: CardId)
    requires Valid(s.ctrl) && id in s.ctrl.cards
    ensures SpriteName(s.ctrl.cards[id].index) !in DeleteIt(s, id).disk
    ensures forall j :: LoadPhotoData(DeleteIt(s, id).disk, j) == LoadPhotoData(s.disk, j)
  {
    var index := s.ctrl.cards[id].index;
    var d := DeleteFile(s.disk, SpriteName(index));
    SpriteNameDisjointFromRecords(index);
    SaveOrderKeepsRecords(d, SequenceOf(RemoveCard(s.ctrl, id)));
  }

  /** A PNG name is never a JSON record's name. */
  lemma SpriteNameDisjointFromRecords(index: int)
    ensures SpriteName(index) != GlobalDataPath
    ensures forall j :: SpriteName(index) != PhotoDataPath(j)
  {
    forall j ensures SpriteName(index) != PhotoDataPath(j) {
      SpriteNamesDistinct(index, j);
    }
    SpriteNamesDistinct(index, 0);
  }
}

=== FILE: photo_data.dfy ===
/** `PhotoData.cs`: the per-photo record, the global record and
    `PhotoStorageManager`'s file naming and save/load/delete.  The persistent
    data directory is a map from file name to file; JSON text is kept as the
    document it encodes, so the JSON codec is an exact round trip. */
module PhotoStorage {
  import opened Common

  /** `PhotoData`: the fields a card saves.  Strings may be C# `null`. */
  datatype PhotoData = PhotoData(
    position: Vec3,
    parentType: Option<string>,
    holdedObjectToCopy: int,
    description: Option<string>,
    rotation: int,
    key: Option<string>,
    keyData: Option<string>)

  /** `GlobalPhotoData`: the photo counter and the ordered photo indices. */
  datatype GlobalPhotoData = GlobalPhotoData(photoCount: int, sequence: seq<int>)

  /** A fresh `new GlobalPhotoData()`. */
  const DefaultGlobal: GlobalPhotoData := GlobalPhotoData(0, [])

  /** What `JsonUtility.FromJson<PhotoData>` yields for a document with none
      of the record's fields: every field at its default. */
  const BlankPhotoData: PhotoData := PhotoData(Zero3, None, 0, None, 0, None, None)

  /** The content of a text file: a serialized record, or text that
      `JsonUtility` reads back as `null`. */
  datatype Doc = PhotoDoc(data: PhotoData) | GlobalDoc(global: GlobalPhotoData) | NullText

  /** A file of the persistent data directory and its length in bytes: JSON
      text or PNG bytes. */
  datatype File = Text(doc: Doc, size: nat) | Png(size: nat)

  /** The length recorded for a JSON file this model writes. The model does
      not render JSON text, so it records no length of its own for it. */
  const WrittenJsonSize: nat := 0

  /** `Application.persistentDataPath`, by file name. */
  type Disk = map<string, File>

  /** `new PhotoData(photo)`: copies the card's local position, start parent
      and both keys; the other fields keep their defaults. */
  function FromCard(localPosition: Vec3, startParent: Option<string>,
                    key: Option<string>, keydata: Option<string>): (d: PhotoData)
    ensures d.position == localPosition && d.parentType == startParent
    ensures d.key == key && d.keyData == keydata
    ensures d.holdedObjectToCopy == 0 && d.rotation == 0 && d.description.None?
  {
    BlankPhotoData.(position := localPosition, parentType := startParent, key := key, keyData := keydata)
  }

  function PhotoDataPath(photoIndex: int): string {
    "photoData_" + IntToString(photoIndex) + ".json"
  }

  const GlobalDataPath: string := "global_photo_data.json"

  /** The PNG file name `PhotoController` uses for photo `i`. */
  function SpriteName(i: int): string {
    "photo" + IntToString(i)
  }

  /** Distinct photo indices never share a data file. */
  lemma PhotoDataPathInjective(i: int, j: int)
    ensures PhotoDataPath(i) == PhotoDataPath(j) <==> i == j
  {
    FramedIntInjective("photoData_", ".json", i, j);
  }

  /** The global file is never a per-photo file. */
  lemma GlobalIsNotPhotoDataPath(i: int)
    ensures GlobalDataPath != PhotoDataPath(i)
  {
    assert PhotoDataPath(i)[0] == 'p';
    assert GlobalDataPath[0] == 'g';
  }

  /** PNG names are disjoint from both kinds of JSON file, and distinct photo
      indices never share a PNG. */
  lemma SpriteNamesDistinct(i: int, j: int)
    ensures SpriteName(i) != PhotoDataPath(j)
    ensures SpriteName(i) != GlobalDataPath
    ensures SpriteName(i) == SpriteName(j) <==> i == j
  {
    assert PhotoDataPath(j)[5] == 'D';
    assert SpriteName(i)[5] == IntToString(i)[0];
    assert GlobalDataPath[0] == 'g';
    assert SpriteName(i)[0] == 'p';
    FramedIntInjective("photo", "", i, j);
    assert SpriteName(i) + "" == SpriteName(i);
    assert SpriteName(j) + "" == SpriteName(j);
  }

  /** `JsonUtility.FromJson<PhotoData>` of a file's text. */
  function ReadPhotoData(f: File): (r: Option<PhotoData>)
    ensures f.Text? && f.doc == NullText ==> r.None?
  {
    match f
    case Text(PhotoDoc(d), _) => Some(d)
    case Text(GlobalDoc(_), _) => Some(BlankPhotoData)
    case _ => None
  }

  /** `JsonUtility.FromJson<GlobalPhotoData>` of a file's text. */
  function ReadGlobalData(f: File): (r: Option<GlobalPhotoData>)
    ensures f.Text? && f.doc == NullText ==> r.None?
  {
    match f
    case Text(GlobalDoc(g), _) => Some(g)
    case Text(PhotoDoc(_), _) => Some(DefaultGlobal)
    case _ => None
  }

  function SavePhotoData(disk: Disk, photoIndex: int, data: PhotoData): (r: Disk)
    ensures PhotoDataPath(photoIndex) in r
    ensures forall p :: p != PhotoDataPath(photoIndex) ==>
              (p in r <==> p in disk) && (p in disk ==> r[p] == disk[p])
  {
    disk[PhotoDataPath(photoIndex) := Text(PhotoDoc(data), WrittenJsonSize)]
  }

  /** `LoadPhotoData`: `null` when there is no file for the index. */
  function LoadPhotoData(disk: Disk, photoIndex: int): (r: Option<PhotoData>)
    ensures PhotoDataPath(photoIndex) !in disk ==> r.None?
  {
    var path := PhotoDataPath(photoIndex);
    if path !in disk then None else ReadPhotoData(disk[path])
  }

  /** `File.Exists` then `File.Delete`. */
  function DeleteFile(disk: Disk, path: string): (r: Disk)
    ensures path !in r
    ensures path !in disk ==> r == disk
    ensures forall p :: p != path ==> (p in r <==> p in disk) && (p in disk ==> r[p] == disk[p])
  {
    if path in disk then disk - {path} else disk
  }

  function DeletePhotoData(disk: Disk, photoIndex: int): (r: Disk)
    ensures PhotoDataPath(photoIndex) !in r
    ensures PhotoDataPath(photoIndex) !in disk ==> r == disk
    ensures forall p :: p != PhotoDataPath(photoIndex) ==>
              (p in r <==> p in disk) && (p in disk ==> r[p] == disk[p])
  {
    DeleteFile(disk, PhotoDataPath(photoIndex))
  }

  function SaveGlobalData(disk: Disk, data: GlobalPhotoData): (r: Disk)
    ensures GlobalDataPath in r
    ensures forall p :: p != GlobalDataPath ==> (p in r <==> p in disk) && (p in disk ==> r[p] == disk[p])
  {
    disk[GlobalDataPath := Text(GlobalDoc(data), WrittenJsonSize)]
  }

  /** `LoadGlobalData`: a fresh default when the file is missing or reads
      back as `null`. */
  function LoadGlobalData(disk: Disk): (r: GlobalPhotoData)
    ensures GlobalDataPath !in disk ==> r == DefaultGlobal
    ensures GlobalDataPath in disk && disk[GlobalDataPath].Text? && disk[GlobalDataPath].doc == NullText ==> r == DefaultGlobal
  {
    if GlobalDataPath !in disk then DefaultGlobal
    else match ReadGlobalData(disk[GlobalDataPath])
      case Some(g) => g
      case None => DefaultGlobal
  }

  /** The global record depends only on the global file. */
  lemma GlobalDataFrame(d1: Disk, d2: Disk)
    requires GlobalDataPath in d1 <==> GlobalDataPath in d2
    requires GlobalDataPath in d1 ==> d1[GlobalDataPath] == d2[GlobalDataPath]
    ensures LoadGlobalData(d1) == LoadGlobalData(d2)
  {
  }

  /** A saved record reads back as itself. */
  lemma SaveThenLoadPhotoData(disk: Disk, i: int, d: PhotoData)
    ensures LoadPhotoData(SavePhotoData(disk, i, d), i) == Some(d)
  {
  }

  /** Saving photo `i` leaves every other photo's record and the global record
      as they were. */
  lemma SavePhotoDataFrame(disk: Disk, i: int, j: int, d: PhotoData)
    requires i != j
    ensures LoadPhotoData(SavePhotoData(disk, i, d), j) == LoadPhotoData(disk, j)
    ensures LoadGlobalData(SavePhotoData(disk, i, d)) == LoadGlobalData(disk)
  {
    PhotoDataPathInjective(i, j);
    GlobalIsNotPhotoDataPath(i);
  }

  /** After a delete the record is gone; other records are untouched. */
  lemma DeleteThenLoadPhotoData(disk: Disk, i: int, j: int)
    ensures LoadPhotoData(DeletePhotoData(disk, i), i).None?
    ensures i != j ==> LoadPhotoData(DeletePhotoData(disk, i), j) == LoadPhotoData(disk, j)
    ensures LoadGlobalData(DeletePhotoData(disk, i)) == LoadGlobalData(disk)
  {
    PhotoDataPathInjective(i, j);
    GlobalIsNotPhotoDataPath(i);
  }

  /** Saving then loading the global record gives back the saved value, and
      leaves every photo record as it was. */
  lemma SaveThenLoadGlobalData(disk: Disk, g: GlobalPhotoData, j: int)
    ensures LoadGlobalData(SaveGlobalData(disk, g)) == g
    ensures LoadPhotoData(SaveGlobalData(disk, g), j) == LoadPhotoData(disk, j)
  {
    GlobalIsNotPhotoDataPath(j);
  }
}

=== FILE: photo_input.dfy ===
/** `InputController`: turns mouse button 0 into clicks, long-press photo
    captures and card drags, one frame at a time.  Card clicks and delete
    presses, which Unity's event system delivers between frames, are events
    of their own. */
module PhotoInput {
  import opened Common
  import opened PhotoState
  import PhotoUI
  import opened PhotoCards
  import opened PhotoCapture

  /** `InitializeDeviceType`: handheld exactly when `SystemInfo.deviceType`
      prints as "Handheld". */
  function InitializeDeviceType(systemDeviceType: string): (r: Device)
    ensures r == Handheld <==> systemDeviceType == "Handheld"
  {
    if systemDeviceType == "Handheld" then Handheld else Desktop
  }

  /** Mouse button 0 in one frame: `Pressed` is the frame in which
      `GetMouseButtonDown` holds (`GetMouseButton` holds too), `Held` a later
      frame with `GetMouseButton` only, `Released` the frame in which
      `GetMouseButtonUp` holds. */
  datatype Button = Idle | Pressed | Held | Released

  /** `Input.GetMouseButton(0)`. */
  predicate ButtonIsDown(b: Button) {
    b == Pressed || b == Held
  }

  /** What one frame reads from outside: the button, the pointer, the frame
      time, and what a capture in this frame would read besides the
      pointer (a capture crops around `pointer`; `shot`'s own pointer is
      replaced by it, see `ShotAt`). */
  datatype Frame = Frame(button: Button, pointer: Vec3, dt: real, shot: Shot)

  /** The state after part of a frame, whether a photo was taken, and
      whether an exception escaped (which ends the frame's `Update`). */
  datatype Tick = Tick(next: Photos, captured: bool, threw: bool)

  /** `CheckForInteraction`: a press starts a click with a full timer. */
  function CheckForInteraction(input: Input): (r: Input)
    ensures r.isClicking && r.clickTimer == LongClickDuration && r.specialHeldTimer == 0.0
    ensures r.forbiddenInput == input.forbiddenInput && r.deviceType == input.deviceType
  {
    input.(specialHeldTimer := 0.0, isClicking := true, clickTimer := LongClickDuration)
  }

  /** The capture `MakeScrenshot(inputPos)` performs: the frame's camera,
      screen, crop and PNG readings, centred on the held pointer. */
  function ShotAt(shot: Shot, pos: Vec3): (r: Shot)
    ensures r.pointerX == pos.x && r.pointerY == pos.y
    ensures r.(pointerX := shot.pointerX, pointerY := shot.pointerY) == shot
    ensures WellFormedShot(r) <==> WellFormedShot(shot)
  {
    shot.(pointerX := pos.x, pointerY := pos.y)
  }

  /** `ProcessHeldInput`: a click whose timer has run out ends and attempts
      a capture; a running click counts its timer down; with no click the
      idle hold timer grows, and after more than a second a new click
      starts.  The capture crops around the same `pos` that is stored in
      `lastVector`. */
  function ProcessHeldInput(s: Photos, pos: Vec3, dt: real, shot: Shot, prefab: Card): (r: Tick)
    requires Valid(s.ctrl) && WellFormedShot(shot)
    ensures Valid(r.next.ctrl)
    ensures r.captured ==> s.input.isClicking && s.input.clickTimer <= 0.0 && r.next.input.forbiddenInput
    ensures !r.captured ==> r.next.input.forbiddenInput == s.input.forbiddenInput
    ensures r.next.input.deviceType == s.input.deviceType
  {
    var in1 := if s.input.specialHeldTimer > 1.0 && !s.input.isClicking
               then s.input.(isClicking := true, clickTimer := LongClickDuration)
               else s.input;
    if in1.isClicking then
      var in2 := in1.(lastVector := pos);
      if in2.clickTimer <= 0.0 then
        var s1 := s.(input := in2.(isClicking := false));
        match MakeScreenshot(s1, ShotAt(shot, pos), prefab)
        case Refused => Tick(s1, false, false)
        case OutOfBounds => Tick(s1, false, true)
        case Captured(next) => Tick(next, true, false)
      else Tick(s.(input := in2.(clickTimer := in2.clickTimer - dt)), false, false)
    else Tick(s.(input := in1.(specialHeldTimer := in1.specialHeldTimer + dt)), false, false)
  }

  /** A running click only counts down: nothing but the timer and the last
      pointer position changes. */
  lemma HeldClickCountsDown(s: Photos, pos: Vec3, dt: real, shot: Shot, prefab: Card)
    requires Valid(s.ctrl) && WellFormedShot(shot)
    requires s.input.isClicking && s.input.clickTimer > 0.0
    ensures ProcessHeldInput(s, pos, dt, shot, prefab) ==
              Tick(s.(input := s.input.(lastVector := pos, clickTimer := s.input.clickTimer - dt)), false, false)
  {
  }

  /** A click whose timer has run out takes a photo exactly when no card is
      dragged, capture is allowed and the crop centred on the held pointer
      fits; it throws exactly when only the crop is at fault.  The photo
      taken is the capture at the held pointer. */
  lemma ExpiredClickCaptures(s: Photos, pos: Vec3, dt: real, shot: Shot, prefab: Card)
    requires Valid(s.ctrl) && WellFormedShot(shot)
    requires s.input.isClicking && s.input.clickTimer <= 0.0
    ensures ProcessHeldInput(s, pos, dt, shot, prefab).captured <==>
              s.ctrl.movingCard.None? && !s.ui.cantPhoto && CropFits(ShotAt(shot, pos))
    ensures ProcessHeldInput(s, pos, dt, shot, prefab).threw <==>
              s.ctrl.movingCard.None? && !s.ui.cantPhoto && !CropFits(ShotAt(shot, pos))
    ensures !ProcessHeldInput(s, pos, dt, shot, prefab).next.input.isClicking
    ensures ProcessHeldInput(s, pos, dt, shot, prefab).captured ==>
              ProcessHeldInput(s, pos, dt, shot, prefab).next ==
                TakePhoto(s.(input := s.input.(lastVector := pos, isClicking := false)), ShotAt(shot, pos), prefab)
  {
    var s1 := s.(input := s.input.(lastVector := pos, isClicking := false));
    assert ProcessHeldInput(s, pos, dt, shot, prefab) ==
             match MakeScreenshot(s1, ShotAt(shot, pos), prefab)
             case Refused => Tick(s1, false, false)
             case OutOfBounds => Tick(s1, false, true)
             case Captured(next) => Tick(next, true, false);
  }

  /** Where the frame's own reading puts the pointer makes no difference:
      only the held pointer decides the crop. */
  lemma HeldPointerDecidesCrop(s: Photos, pos: Vec3, dt: real, shot: Shot, px: real, py: real, prefab: Card)
    requires Valid(s.ctrl) && WellFormedShot(shot)
    ensures ProcessHeldInput(s, pos, dt, shot, prefab) ==
              ProcessHeldInput(s, pos, dt, shot.(pointerX := px, pointerY := py), prefab)
  {
    assert ShotAt(shot, pos) == ShotAt(shot.(pointerX := px, pointerY := py), pos);
  }

  /** `ResetInputState` (the release): the cards and capture permission are
      reset, the click ends and held input is allowed again. */
  function ResetInputState(s: Photos): (r: Photos)
    ensures r.ctrl == PhotoUI.ResetCards(s.ctrl) && r.disk == s.disk
    ensures !r.ui.cantPhoto && r.ui == s.ui.(cantPhoto := false)
    ensures r.input == s.input.(isClicking := false, specialHeldTimer := 0.0, forbiddenInput := false)
  {
    var s1 := PhotoUI.ResetPhotos(s);
    s1.(input := s1.input.(specialHeldTimer := 0.0, forbiddenInput := false))
  }

  /** `HandleMouseInput`: press starts a click, a held button is processed
      unless input is forbidden since the last capture, release resets. */
  function HandleMouseInput(s: Photos, f: Frame, prefab: Card): (r: Tick)
    requires Valid(s.ctrl) && WellFormedShot(f.shot)
    ensures Valid(r.next.ctrl)
    ensures r.captured ==> f.button == Held && !s.input.forbiddenInput && r.next.input.forbiddenInput
    ensures !r.captured && f.button != Released ==> r.next.input.forbiddenInput == s.input.forbiddenInput
    ensures r.next.input.deviceType == s.input.deviceType
  {
    match f.button
    case Pressed => Tick(s.(input := CheckForInteraction(s.input)), false, false)
    case Held =>
      if s.input.forbiddenInput then Tick(s, false, false)
      else ProcessHeldInput(s, f.pointer, f.dt, f.shot, prefab)
    case Released => Tick(ResetInputState(s), false, false)
    case Idle => Tick(s, false, false)
  }

  /** `HandleMovingCard`: on a desktop the dragged card follows a held
      button and is dropped on release. */
  function HandleMovingCard(s: Photos, f: Frame): (r: Photos)
    requires Valid(s.ctrl)
    ensures Valid(r.ctrl) && r.input == s.input
    ensures s.ctrl.movingCard.None? || s.input.deviceType == Handheld ==> r == s
    ensures r.ctrl.movingCard.Some? ==>
              f.button != Released || s.input.deviceType == Handheld
              || (s.ctrl.movingCard.Some? && !s.ctrl.cards[s.ctrl.movingCard.value].hasImage)
  {
    if s.ctrl.movingCard.None? || s.input.deviceType == Handheld then s
    else
      var id := s.ctrl.movingCard.value;
      if ButtonIsDown(f.button) then s.(ctrl := MoveIt(s.ctrl, id, f.pointer))
      else if f.button == Released then LetItGo(s, id)
      else s
  }

  /** `Update`: mouse input, then the capture square, then the dragged
      card; an exception from the capture skips the rest of the frame. */
  function Update(s: Photos, f: Frame, prefab: Card): (r: Tick)
    requires Valid(s.ctrl) && WellFormedShot(f.shot)
    ensures Valid(r.next.ctrl)
    ensures r.captured ==> f.button == Held && !s.input.forbiddenInput && r.next.input.forbiddenInput
    ensures !r.captured && f.button != Released ==> r.next.input.forbiddenInput == s.input.forbiddenInput
    ensures r.next.input.deviceType == s.input.deviceType
  {
    var m := HandleMouseInput(s, f, prefab);
    if m.threw then m
    else
      var s1 := m.next.(ui := PhotoUI.UpdatePhotoSquare(m.next.ui, m.next.input.isClicking,
                                                        m.next.ctrl.movingCard, f.dt));
      Tick(HandleMovingCard(s1, f), m.captured, false)
  }

  /** A frame with the button held and a running click only counts the
      click down, whatever else the frame does. */
  lemma UpdateCountsDown(s: Photos, f: Frame, prefab: Card)
    requires Valid(s.ctrl) && WellFormedShot(f.shot)
    requires f.button == Held && !s.input.forbiddenInput
    requires s.input.isClicking && s.input.clickTimer > 0.0
    ensures !Update(s, f, prefab).captured
    ensures Update(s, f, prefab).next.input ==
              s.input.(lastVector := f.pointer, clickTimer := s.input.clickTimer - f.dt)
  {
    HeldClickCountsDown(s, f.pointer, f.dt, f.shot, prefab);
  }

  /** What happens between frames: a frame, or a click on a card or on its
      delete button (an event for a destroyed card never arrives). */
  datatype Event = OnFrame(frame: Frame) | CardClicked(card: CardId) | DeletePressed(card: CardId)

  predicate WellFormedEvent(e: Event) {
    e.OnFrame? ==> WellFormedShot(e.frame.shot)
  }

  /** One event. */
  function Step(s: Photos, e: Event, prefab: Card): (r: Tick)
    requires Valid(s.ctrl) && WellFormedEvent(e)
    ensures Valid(r.next.ctrl)
    ensures r.captured ==> e.OnFrame? && e.frame.button == Held && !s.input.forbiddenInput && r.next.input.forbiddenInput
    ensures !r.captured && !(e.OnFrame? && e.frame.button == Released) ==>
              r.next.input.forbiddenInput == s.input.forbiddenInput
  {
    match e
    case OnFrame(f) => Update(s, f, prefab)
    case CardClicked(id) =>
      if id in s.ctrl.cards then Tick(s.(ctrl := ClickIt(s.ctrl, id)), false, false) else Tick(s, false, false)
    case DeletePressed(id) =>
      if id in s.ctrl.cards then Tick(Delete(s, id), false, false) else Tick(s, false, false)
  }

  /** A release frame. */
  predicate IsRelease(e: Event) {
    e.OnFrame? && e.frame.button == Released
  }

  /** The state after a run of events and the number of photos taken. */
  datatype Outcome = Outcome(state: Photos, photos: nat)

  function Run(s: Photos, events: seq<Event>, prefab: Card): (r: Outcome)
    requires Valid(s.ctrl) && forall i :: 0 <= i < |events| ==> WellFormedEvent(events[i])
    ensures Valid(r.state.ctrl)
    decreases |events|
  {
    if |events| == 0 then Outcome(s, 0)
    else
      var t := Step(s, events[0], prefab);
      var rest := Run(t.next, events[1..], prefab);
      Outcome(rest.state, rest.photos + if t.captured then 1 else 0)
  }

  /** Once a photo has been taken, no other is taken before a release. */
  lemma {:induction false} ForbiddenUntilRelease(s: Photos, events: seq<Event>, prefab: Card)
    requires Valid(s.ctrl) && forall i :: 0 <= i < |events| ==> WellFormedEvent(events[i])
    requires s.input.forbiddenInput
    requires forall i :: 0 <= i < |events| ==> !IsRelease(events[i])
    ensures Run(s, events, prefab).photos == 0
    ensures Run(s, events, prefab).state.input.forbiddenInput
    decreases |events|
  {
    if |events| > 0 {
      var t := Step(s, events[0], prefab);
      ForbiddenUntilRelease(t.next, events[1..], prefab);
    }
  }

  /** Between two releases at most one photo is taken, however long the
      button is held. */
  lemma {:induction false} OnePhotoPerPress(s: Photos, events: seq<Event>, prefab: Card)
    requires Valid(s.ctrl) && forall i :: 0 <= i < |events| ==> WellFormedEvent(events[i])
    requires forall i :: 0 <= i < |events| ==> !IsRelease(events[i])
    ensures Run(s, events, prefab).photos <= 1
    decreases |events|
  {
    if |events| > 0 {
      var t := Step(s, events[0], prefab);
      if t.captured {
        ForbiddenUntilRelease(t.next, events[1..], prefab);
      } else {
        OnePhotoPerPress(t.next, events[1..], prefab);
      }
    }
  }

  /** The frame time that passes over a run of frames. */
  function Elapsed(frames: seq<Frame>): real {
    if |frames| == 0 then 0.0 else frames[0].dt + Elapsed(frames[1..])
  }

  /** A press held for less than `longClickDuration`, with no card or
      delete clicks in between, takes no photo: the click's timer is still
      running at every frame. */
  lemma {:induction false} ShortPressTakesNoPhoto(s: Photos, frames: seq<Frame>, prefab: Card)
    requires Valid(s.ctrl)
    requires forall i :: 0 <= i < |frames| ==> frames[i].button == Held && frames[i].dt >= 0.0 && WellFormedShot(frames[i].shot)
    requires s.input.isClicking && !s.input.forbiddenInput
    requires s.input.clickTimer > Elapsed(frames)
    ensures Run(s, seq(|frames|, i requires 0 <= i < |frames| => OnFrame(frames[i])), prefab).photos == 0
    decreases |frames|
  {
    var events := seq(|frames|, i requires 0 <= i < |frames| => OnFrame(frames[i]));
    if |frames| > 0 {
      ElapsedNonNegative(frames[1..]);
      var f := frames[0];
      UpdateCountsDown(s, f, prefab);
      var t := Step(s, events[0], prefab);
      assert events[1..] == seq(|frames[1..]|, i requires 0 <= i < |frames[1..]| => OnFrame(frames[1..][i]));
      ShortPressTakesNoPhoto(t.next, frames[1..], prefab);
    }
  }

  lemma {:induction false} ElapsedNonNegative(frames: seq<Frame>)
    requires forall i :: 0 <= i < |frames| ==> frames[i].dt >= 0.0
    ensures Elapsed(frames) >= 0.0
  {
    if |frames| > 0 {
      ElapsedNonNegative(frames[1..]);
    }
  }
}

=== FILE: photo_sequence.dfy ===
/** The photo order `PhotoController.SaveCurrentSequence` persists: the
    cards' photo indices, each once, in order of first occurrence. */
module PhotoSequence {
  import opened Common

  /** Position of the first occurrence of `x` in `xs`. */
  function FirstIndex(xs: seq<int>, x: int): (i: nat)
    requires x in xs
    ensures i < |xs| && xs[i] == x && x !in xs[..i]
  {
    if xs[0] == x then 0
    else
      assert xs == [xs[0]] + xs[1..];
      var k := FirstIndex(xs[1..], x);
      assert xs[..k + 1] == [xs[0]] + xs[1..][..k];
      k + 1
  }

  /** The indices of `xs` with every repeat dropped, scanning left to right. */
  function Dedup(xs: seq<int>): (r: seq<int>)
    ensures NoDuplicates(r)
    ensures forall x :: x in r <==> x in xs
    ensures |r| <= |xs|
  {
    if |xs| == 0 then []
    else
      var init := xs[..|xs| - 1];
      var last := xs[|xs| - 1];
      assert xs == init + [last];
      var r := Dedup(init);
      if last in r then r else r + [last]
  }

  /** The first occurrence of an element of a prefix is found in the prefix. */
  lemma FirstIndexOfPrefix(xs: seq<int>, n: nat, x: int)
    requires n <= |xs| && x in xs[..n]
    ensures FirstIndex(xs, x) == FirstIndex(xs[..n], x)
  {
    var j := FirstIndex(xs[..n], x);
    assert xs[..n][j] == xs[j];
  }

  /** `Dedup` keeps the order of first occurrences. */
  lemma {:induction false} DedupKeepsFirstOccurrenceOrder(xs: seq<int>)
    ensures forall a, b :: 0 <= a < b < |Dedup(xs)| ==>
              FirstIndex(xs, Dedup(xs)[a]) < FirstIndex(xs, Dedup(xs)[b])
  {
    if |xs| > 0 {
      var init := xs[..|xs| - 1];
      var last := xs[|xs| - 1];
      var r0 := Dedup(init);
      DedupKeepsFirstOccurrenceOrder(init);
      forall y | y in r0
        ensures FirstIndex(xs, y) == FirstIndex(init, y) && FirstIndex(init, y) < |init|
      {
        FirstIndexOfPrefix(xs, |xs| - 1, y);
      }
      if last !in r0 {
        assert last !in init;
        assert FirstIndex(xs, last) == |xs| - 1;
      }
    }
  }

  /** On a list without repeats `Dedup` changes nothing, so it is idempotent. */
  lemma {:induction false} DedupOfNoDuplicates(xs: seq<int>)
    requires NoDuplicates(xs)
    ensures Dedup(xs) == xs
  {
    if |xs| > 0 {
      var init := xs[..|xs| - 1];
      DedupOfNoDuplicates(init);
      assert xs[|xs| - 1] !in init;
      assert xs == init + [xs[|xs| - 1]];
    }
  }

  lemma DedupIdempotent(xs: seq<int>)
    ensures Dedup(Dedup(xs)) == Dedup(xs)
  {
    DedupOfNoDuplicates(Dedup(xs));
  }

  /** The loop of `SaveCurrentSequence` with its `HashSet` of seen indices. */
  method CollectSequence(indices: seq<int>) returns (subsequence: seq<int>)
    ensures subsequence == Dedup(indices)
  {
    subsequence := [];
    var seenIndices: set<int> := {};
    var i := 0;
    while i < |indices|
      invariant 0 <= i <= |indices|
      invariant subsequence == Dedup(indices[..i])
      invariant forall x :: x in seenIndices <==> x in subsequence
    {
      var currentIndex := indices[i];
      assert indices[..i + 1][..i] == indices[..i];
      if currentIndex !in seenIndices {
        subsequence := subsequence + [currentIndex];
        seenIndices := seenIndices + {currentIndex};
      }
      i := i + 1;
    }
    assert indices[..i] == indices;
  }
}

=== FILE: photo_state.dfy ===
/** The state shared by the photo-collection components.  `PhotoController`,
    `PhotoPrefab`, `PhotoUIManager` and `InputController` read and write each
    other's fields, so their fields live in one record; each component's
    operations are in a module of its own. */
module PhotoState {
  import opened Common
  import opened PhotoStorage

  /** Identity of a live card object (a `PhotoPrefab` instance). */
  type CardId = nat

  /** The transform a card hangs under: the collection's `photoHolder`, the
      capture square's `targetSquarePos`, or the UI root `holder`. */
  datatype Parent = PhotoHolder | TargetSquare | Holder

  /** The card image's tint: as instantiated, `whiteColor` or
      `halfTransparentColor`. */
  datatype Tint = PrefabTint | White | HalfTransparent

  /** The fields of one `PhotoPrefab` and its transform. `hasImage` says
      whether `thisImage` is assigned; scales are uniform. */
  datatype Card = Card(
    index: int,
    key: Option<string>,
    keydata: Option<string>,
    startParent: Option<string>,
    startPos: Vec3,
    position: Vec3,
    scale: real,
    parent: Parent,
    hasImage: bool,
    raycastTarget: bool,
    color: Tint,
    enabled: bool)

  datatype Device = Desktop | Handheld

  /** `PhotoController`'s fields. */
  datatype Controller = Controller(
    cards: map<CardId, Card>,
    allCards: seq<CardId>,
    movingCard: Option<CardId>,
    howManySprites: int,
    initialReady: bool,
    subsequenceCards: seq<int>,
    nextId: CardId)

  /** `PhotoUIManager`'s fields. */
  datatype Ui = Ui(cantPhoto: bool, moveSquare: bool, squareScale: real, confirmScale: real)

  /** `InputController`'s fields. */
  datatype Input = Input(
    isClicking: bool,
    clickTimer: real,
    specialHeldTimer: real,
    forbiddenInput: bool,
    deviceType: Device,
    lastVector: Vec3)

  /** The three components and the persistent data directory. */
  datatype Photos = Photos(ctrl: Controller, ui: Ui, input: Input, disk: Disk)

  /** `PhotoController` scale settings (their serialized defaults). */
  const SizeMini: real := 0.5
  const SizeNormal: real := 0.7
  const SizeMax: real := 1.0

  /** `PhotoUIManager`'s private animation constants. */
  const MaxScale: real := 0.5
  const GrowSpeed: real := 10.0
  const RotationScaleStep: real := 0.1
  const ScaleIndex: real := 4.0

  /** `InputController.longClickDuration`. */
  const LongClickDuration: real := 1.0

  /** The bookkeeping every operation keeps: the card list has no repeats and
      names live cards, the dragged card is live, and object ids are fresh. */
  predicate Valid(c: Controller) {
    && NoDuplicates(c.allCards)
    && ListedCardsLive(c)
    && (c.movingCard.Some? ==> c.movingCard.value in c.cards)
    && (forall id :: id in c.cards ==> id < c.nextId)
  }

  /** Every card in `allCards` is a live object. */
  predicate ListedCardsLive(c: Controller) {
    forall i :: 0 <= i < |c.allCards| ==> c.allCards[i] in c.cards
  }

  /** Validity depends on the card map only through its keys. */
  lemma SameKeysValid(c: Controller, m: map<CardId, Card>)
    requires m.Keys == c.cards.Keys
    ensures Valid(c) ==> Valid(c.(cards := m))
  {
  }

  /** Replaces one live card's fields. */
  function SetCard(c: Controller, id: CardId, card: Card): (r: Controller)
    requires id in c.cards
    ensures Valid(c) ==> Valid(r)
    ensures r.cards.Keys == c.cards.Keys && r.cards[id] == card
    ensures forall k :: k in c.cards && k != id ==> r.cards[k] == c.cards[k]
    ensures r == c.(cards := r.cards)
  {
    c.(cards := c.cards[id := card])
  }

  /** The photo indices of the cards in `allCards`, in list order. */
  function CardIndices(cards: map<CardId, Card>, ids: seq<CardId>): (r: seq<int>)
    requires forall i :: 0 <= i < |ids| ==> ids[i] in cards
    ensures |r| == |ids|
    ensures forall i :: 0 <= i < |ids| ==> r[i] == cards[ids[i]].index
  {
    if |ids| == 0 then [] else [cards[ids[0]].index] + CardIndices(cards, ids[1..])
  }

  /** The indices depend only on the listed cards' `index` fields. */
  lemma CardIndicesAgree(c1: map<CardId, Card>, c2: map<CardId, Card>, ids: seq<CardId>)
    requires forall i :: 0 <= i < |ids| ==> ids[i] in c1 && ids[i] in c2 && c1[ids[i]].index == c2[ids[i]].index
    ensures CardIndices(c1, ids) == CardIndices(c2, ids)
  {
  }

  /** The per-card updates that loops over `allCards` perform. */
  datatype CardUpdate =
    | EnableRaycast       // PhotoUIManager.ResetPhotos
    | DisableAndShrink    // PhotoPrefab.DisableOtherCards
    | ReturnToHolder      // PhotoController.ShufflePositions

  function ApplyUpdate(c: Card, u: CardUpdate): (r: Card)
    ensures r.index == c.index && r.hasImage == c.hasImage
    ensures u == EnableRaycast ==> r.raycastTarget == (c.raycastTarget || c.hasImage)
    ensures u == DisableAndShrink ==> r.raycastTarget == (c.raycastTarget && !c.hasImage) && r.scale == SizeMini
    ensures u == ReturnToHolder ==> r.parent == PhotoHolder && r.scale == SizeMini && r.raycastTarget == c.raycastTarget
    ensures u != ReturnToHolder ==> r.parent == c.parent
    ensures r == c.(raycastTarget := r.raycastTarget, scale := r.scale, parent := r.parent)
  {
    match u
    case EnableRaycast => if c.hasImage then c.(raycastTarget := true) else c
    case DisableAndShrink =>
      (if c.hasImage then c.(raycastTarget := false) else c).(scale := SizeMini)
    case ReturnToHolder => c.(parent := PhotoHolder, scale := SizeMini)
  }

  /** Each update sets fields to fixed values, so applying it twice is the
      same as applying it once. */
  lemma ApplyUpdateIdempotent(c: Card, u: CardUpdate)
    ensures ApplyUpdate(ApplyUpdate(c, u), u) == ApplyUpdate(c, u)
  {
  }

  /** A `foreach` over the listed cards applying one update to each. */
  function UpdateCards(cards: map<CardId, Card>, ids: seq<CardId>, u: CardUpdate): (r: map<CardId, Card>)
    ensures r.Keys == cards.Keys
    ensures forall id :: id in cards ==>
              r[id] == if id in ids then ApplyUpdate(cards[id], u) else cards[id]
  {
    if |ids| == 0 then cards
    else
      var rest := UpdateCards(cards, ids[1..], u);
      assert forall id :: id in ids <==> id == ids[0] || id in ids[1..];
      if ids[0] in rest then
        ApplyUpdateIdempotent(cards[ids[0]], u);
        rest[ids[0] := ApplyUpdate(rest[ids[0]], u)]
      else rest
  }
}

=== FILE: photo_ui.dfy ===
/** `PhotoUIManager`: the capture-permission flags, the capture square that
    grows while a long press is held, and the confirmation square that
    shrinks away after a capture. */
module PhotoUI {
  import opened Common
  import opened PhotoState

  /** The loop of `ResetPhotos`: every listed card with an image becomes a
      raycast target again; nothing else changes. */
  function ResetCards(c: Controller): (r: Controller)
    ensures Valid(c) ==> Valid(r)
    ensures r.cards.Keys == c.cards.Keys
    ensures forall id :: id in c.allCards && id in c.cards && c.cards[id].hasImage ==> r.cards[id].raycastTarget
    ensures forall id :: id in c.cards && id !in c.allCards ==> r.cards[id] == c.cards[id]
    ensures forall id :: id in c.cards ==> r.cards[id] == c.cards[id].(raycastTarget := r.cards[id].raycastTarget)
    ensures r == c.(cards := r.cards)
  {
    var m := UpdateCards(c.cards, c.allCards, EnableRaycast);
    SameKeysValid(c, m);
    c.(cards := m)
  }

  /** `ResetPhotos`: the cards are reset, capturing is allowed and the click
      is over. */
  function ResetPhotos(s: Photos): (r: Photos)
    ensures r.ctrl == ResetCards(s.ctrl)
    ensures !r.ui.cantPhoto && !r.input.isClicking
    ensures r.ui == s.ui.(cantPhoto := false) && r.input == s.input.(isClicking := false) && r.disk == s.disk
  {
    s.(ctrl := ResetCards(s.ctrl),
       ui := s.ui.(cantPhoto := false),
       input := s.input.(isClicking := false))
  }

  /** `CanPhotos`: only `cantPhoto` changes. */
  function CanPhotos(ui: Ui): (r: Ui)
    ensures !r.cantPhoto && r == ui.(cantPhoto := false)
  {
    ui.(cantPhoto := false)
  }

  /** `CantPhotos`: blocks capture and ends the click. */
  function CantPhotos(s: Photos): (r: Photos)
    ensures r.ui.cantPhoto && !r.input.isClicking
    ensures r == s.(ui := s.ui.(cantPhoto := true), input := s.input.(isClicking := false))
  {
    s.(input := s.input.(isClicking := false), ui := s.ui.(cantPhoto := true))
  }

  /** `CantPhotos2`: blocks capture and leaves the click alone. */
  function CantPhotos2(ui: Ui): (r: Ui)
    ensures r.cantPhoto && r == ui.(cantPhoto := true)
  {
    ui.(cantPhoto := true)
  }

  /** `SetSquare`: shows the confirmation square at full size and starts its
      shrinking animation. */
  function SetSquare(ui: Ui): (r: Ui)
    ensures r.moveSquare && r.confirmScale == MaxScale
    ensures r == ui.(moveSquare := true, confirmScale := MaxScale)
  {
    ui.(confirmScale := MaxScale, moveSquare := true)
  }

  /** `HandleSquareMovement`: while `moveSquare`, the confirmation square is
      lerped toward zero by `dt * scaleIndex`; the animation stops once the
      scale reaches zero. */
  function HandleSquareMovement(ui: Ui, dt: real): (r: Ui)
    ensures !ui.moveSquare ==> r == ui
    ensures r.moveSquare ==> ui.moveSquare && r.confirmScale > 0.0
    ensures ui.moveSquare && ui.confirmScale >= 0.0 ==> 0.0 <= r.confirmScale <= ui.confirmScale
    ensures ui.moveSquare && ui.confirmScale > 0.0 && dt * ScaleIndex >= 1.0 ==> !r.moveSquare
    ensures r == ui.(confirmScale := r.confirmScale, moveSquare := r.moveSquare)
  {
    if !ui.moveSquare then ui
    else
      var scale := Lerp(ui.confirmScale, 0.0, dt * ScaleIndex);
      ui.(confirmScale := scale, moveSquare := !(scale <= 0.0))
  }

  /** The condition of line 89 under which the capture square may grow. */
  predicate SquareMayGrow(ui: Ui, isClicking: bool, movingCard: Option<CardId>) {
    isClicking && movingCard.None? && !ui.cantPhoto
  }

  /** `HandleSquareScaling`: the square grows by `rotationScaleStep *
      growSpeed * dt` while below `maxScale` and the gate is open, holds its
      size at or above `maxScale`, and is reset to zero when the gate is
      closed. */
  function HandleSquareScaling(ui: Ui, isClicking: bool, movingCard: Option<CardId>, dt: real): (r: Ui)
    ensures !SquareMayGrow(ui, isClicking, movingCard) ==> r.squareScale == 0.0
    ensures SquareMayGrow(ui, isClicking, movingCard) && ui.squareScale >= MaxScale ==>
              r.squareScale == ui.squareScale
    ensures SquareMayGrow(ui, isClicking, movingCard) && ui.squareScale < MaxScale && dt > 0.0 ==>
              r.squareScale > ui.squareScale
    ensures r == ui.(squareScale := r.squareScale)
  {
    if SquareMayGrow(ui, isClicking, movingCard) then
      if ui.squareScale < MaxScale then ui.(squareScale := ui.squareScale + RotationScaleStep * GrowSpeed * dt)
      else ui
    else ui.(squareScale := 0.0)
  }

  /** The square never exceeds `maxScale` by more than one frame's growth:
      with frame times in [0, step], its scale stays in [0, maxScale + step]. */
  lemma SquareScaleBounded(ui: Ui, isClicking: bool, movingCard: Option<CardId>, dt: real, step: real)
    requires 0.0 <= dt <= step
    requires 0.0 <= ui.squareScale <= MaxScale + step
    ensures 0.0 <= HandleSquareScaling(ui, isClicking, movingCard, dt).squareScale <= MaxScale + step
  {
  }

  /** `UpdatePhotoSquare`, called with the input controller's `IsClicking`. */
  function UpdatePhotoSquare(ui: Ui, isClicking: bool, movingCard: Option<CardId>, dt: real): (r: Ui)
    ensures !SquareMayGrow(ui, isClicking, movingCard) ==> r.squareScale == 0.0
    ensures r.cantPhoto == ui.cantPhoto
  {
    HandleSquareScaling(HandleSquareMovement(ui, dt), isClicking, movingCard, dt)
  }
}

=== FILE: pressure_plates.dfy ===
/** The pressure-plate progress gate of Module 2 (`PressurePlateManager`).
    Levels hold groups of plates; a group whose plates are all activated opens
    its intermediate door, a completed level 4 enables its platforms, and
    when every plate everywhere is activated every level's final door opens.

    The scene is the set of game objects that are currently active: opening
    a door is `SetActive(false)` (removal), enabling a platform is
    `SetActive(true)` (insertion). A plate's `IsActivated()` is membership of
    its id in the set of activated plates. */
module PressurePlates {
  import opened Common

  type PlateId = nat
  type ObjId = nat

  /** A `PressurePlate`: its identity and the (level, group) it registers into. */
  datatype Plate = Plate(id: PlateId, level: int, groupId: int)

  /** `GroupData`: the registered plates and an optional intermediate door. */
  datatype Group = Group(groupId: int, plates: seq<Plate>, intermediateDoor: Option<ObjId>)

  /** `LevelData`: groups, an optional shared final door and the objects a
      completed level 4 enables (entries may be null). */
  datatype Level = Level(level: int, groups: seq<Group>, finalDoor: Option<ObjId>,
                         activeObjects: seq<Option<ObjId>>)

  /** The manager's level list together with the world it acts on. */
  datatype World = World(levels: seq<Level>, activated: set<PlateId>, scene: set<ObjId>)

  // ---------------------------------------------------------------------------
  // Completion, stated as quantifiers (the reference definitions)
  // ---------------------------------------------------------------------------

  predicate GroupDone(plates: seq<Plate>, activated: set<PlateId>) {
    forall k :: 0 <= k < |plates| ==> plates[k].id in activated
  }

  predicate GroupsDone(groups: seq<Group>, activated: set<PlateId>) {
    forall j :: 0 <= j < |groups| ==> GroupDone(groups[j].plates, activated)
  }

  predicate LevelsDone(levels: seq<Level>, activated: set<PlateId>) {
    forall i :: 0 <= i < |levels| ==> GroupsDone(levels[i].groups, activated)
  }

  // ---------------------------------------------------------------------------
  // Completion, as the manager's early-exit loops compute it
  // ---------------------------------------------------------------------------

  /** `AreAllGroupPlatesActivated`: false at the first plate not activated. */
  function AreAllGroupPlatesActivated(plates: seq<Plate>, activated: set<PlateId>): (r: bool)
    ensures r <==> GroupDone(plates, activated)
  {
    if |plates| == 0 then true
    else if plates[0].id !in activated then false
    else
      assert forall k :: 1 <= k < |plates| ==> plates[1..][k - 1] == plates[k];
      AreAllGroupPlatesActivated(plates[1..], activated)
  }

  /** The nested loop of `AreAllLevelPlatesActivated` over a level's groups. */
  function AreAllGroupsActivated(groups: seq<Group>, activated: set<PlateId>): (r: bool)
    ensures r <==> GroupsDone(groups, activated)
  {
    if |groups| == 0 then true
    else if !AreAllGroupPlatesActivated(groups[0].plates, activated) then false
    else
      assert forall j :: 1 <= j < |groups| ==> groups[1..][j - 1] == groups[j];
      AreAllGroupsActivated(groups[1..], activated)
  }

  function AreAllLevelPlatesActivated(level: Level, activated: set<PlateId>): (r: bool)
    ensures r <==> GroupsDone(level.groups, activated)
  {
    AreAllGroupsActivated(level.groups, activated)
  }

  /** `AreAllPlatesActivated`: the triple loop over levels, groups and plates. */
  function AreAllPlatesActivated(levels: seq<Level>, activated: set<PlateId>): (r: bool)
    ensures r <==> LevelsDone(levels, activated)
  {
    if |levels| == 0 then true
    else if !AreAllLevelPlatesActivated(levels[0], activated) then false
    else
      assert forall i :: 1 <= i < |levels| ==> levels[1..][i - 1] == levels[i];
      AreAllPlatesActivated(levels[1..], activated)
  }

  /** An empty group is complete whatever has been activated. */
  lemma EmptyGroupComplete(activated: set<PlateId>)
    ensures AreAllGroupPlatesActivated([], activated)
  {
  }

  /** Activation only grows, so completion at every scale is monotone. */
  lemma CompletionMonotone(levels: seq<Level>, a: set<PlateId>, b: set<PlateId>)
    requires a <= b
    ensures forall i, j :: (0 <= i < |levels| && 0 <= j < |levels[i].groups| &&
              AreAllGroupPlatesActivated(levels[i].groups[j].plates, a)) ==>
              AreAllGroupPlatesActivated(levels[i].groups[j].plates, b)
    ensures forall i :: 0 <= i < |levels| && AreAllLevelPlatesActivated(levels[i], a) ==>
              AreAllLevelPlatesActivated(levels[i], b)
    ensures AreAllPlatesActivated(levels, a) ==> AreAllPlatesActivated(levels, b)
  {
  }

  /** All plates activated means every level and every group is complete. */
  lemma AllImpliesEveryLevelAndGroup(levels: seq<Level>, a: set<PlateId>)
    requires AreAllPlatesActivated(levels, a)
    ensures forall i :: 0 <= i < |levels| ==> AreAllLevelPlatesActivated(levels[i], a)
    ensures forall i, j :: 0 <= i < |levels| && 0 <= j < |levels[i].groups| ==>
              AreAllGroupPlatesActivated(levels[i].groups[j].plates, a)
  {
  }

  // ---------------------------------------------------------------------------
  // RegisterPlate
  // ---------------------------------------------------------------------------

  predicate GroupMatches(levels: seq<Level>, level: int, groupId: int, i: int, j: int) {
    0 <= i < |levels| && 0 <= j < |levels[i].groups| &&
    levels[i].level == level && levels[i].groups[j].groupId == groupId
  }

  /** (i, j) is the first group, in list order, with the plate's level and group id. */
  predicate IsFirstMatch(levels: seq<Level>, level: int, groupId: int, i: int, j: int) {
    GroupMatches(levels, level, groupId, i, j) &&
    (forall i', j' :: 0 <= i' < i && 0 <= j' < |levels[i'].groups| ==>
       !GroupMatches(levels, level, groupId, i', j')) &&
    (forall j' :: 0 <= j' < j ==> levels[i].groups[j'].groupId != groupId)
  }

  predicate NoMatch(levels: seq<Level>, level: int, groupId: int) {
    forall i, j :: 0 <= i < |levels| && 0 <= j < |levels[i].groups| ==>
      !GroupMatches(levels, level, groupId, i, j)
  }

  /** The inner `foreach` over a level's groups, from position `j` on. */
  function FindInGroups(groups: seq<Group>, groupId: int, j: nat): (r: Option<nat>)
    requires j <= |groups|
    ensures r.None? ==> forall j' :: j <= j' < |groups| ==> groups[j'].groupId != groupId
    ensures r.Some? ==> j <= r.value < |groups| && groups[r.value].groupId == groupId &&
                        forall j' :: j <= j' < r.value ==> groups[j'].groupId != groupId
    decreases |groups| - j
  {
    if j == |groups| then None
    else if groups[j].groupId == groupId then Some(j)
    else FindInGroups(groups, groupId, j + 1)
  }

  /** The outer `foreach` over levels, from position `i` on. */
  function FindGroup(levels: seq<Level>, level: int, groupId: int, i: nat): (r: Option<(nat, nat)>)
    requires i <= |levels|
    requires forall i', j' :: 0 <= i' < i && 0 <= j' < |levels[i'].groups| ==>
               !GroupMatches(levels, level, groupId, i', j')
    ensures r.None? ==> NoMatch(levels, level, groupId)
    ensures r.Some? ==> IsFirstMatch(levels, level, groupId, r.value.0, r.value.1)
    decreases |levels| - i
  {
    if i == |levels| then None
    else
      var inLevel := if levels[i].level == level then FindInGroups(levels[i].groups, groupId, 0) else None;
      if inLevel.Some? then Some((i, inLevel.value))
      else FindGroup(levels, level, groupId, i + 1)
  }

  function AppendPlate(levels: seq<Level>, i: nat, j: nat, p: Plate): (r: seq<Level>)
    requires i < |levels| && j < |levels[i].groups|
    ensures |r| == |levels|
    ensures forall i' :: 0 <= i' < |r| ==>
              r[i'].level == levels[i'].level && |r[i'].groups| == |levels[i'].groups|
    ensures forall i', j' :: 0 <= i' < |r| && 0 <= j' < |r[i'].groups| ==>
              r[i'].groups[j'].groupId == levels[i'].groups[j'].groupId
    ensures r[i].groups[j].plates == levels[i].groups[j].plates + [p]
    ensures r[i].groups[j] == levels[i].groups[j].(plates := r[i].groups[j].plates)
    ensures forall j' :: 0 <= j' < |r[i].groups| && j' != j ==> r[i].groups[j'] == levels[i].groups[j']
    ensures r[i].(groups := levels[i].groups) == levels[i]
    ensures forall i' :: 0 <= i' < |r| && i' != i ==> r[i'] == levels[i']
  {
    var g := levels[i].groups[j];
    levels[i := levels[i].(groups := levels[i].groups[j := g.(plates := g.plates + [p])])]
  }

  /** `RegisterPlate`: append to the first matching group and stop; with no
      matching group nothing changes. Duplicates are not filtered. */
  function RegisterPlate(levels: seq<Level>, p: Plate): (r: seq<Level>)
    ensures NoMatch(levels, p.level, p.groupId) ==> r == levels
    ensures forall i, j :: IsFirstMatch(levels, p.level, p.groupId, i, j) ==>
              r == AppendPlate(levels, i, j, p)
  {
    match FindGroup(levels, p.level, p.groupId, 0)
    case None => levels
    case Some((i, j)) =>
      FirstMatchUnique(levels, p.level, p.groupId, i, j);
      AppendPlate(levels, i, j, p)
  }

  lemma FirstMatchUnique(levels: seq<Level>, level: int, groupId: int, i: nat, j: nat)
    requires IsFirstMatch(levels, level, groupId, i, j)
    ensures forall i', j' :: IsFirstMatch(levels, level, groupId, i', j') ==> i' == i && j' == j
  {
  }

  /** Registering a plate twice lists it twice in its group. */
  lemma RegisterTwiceKeepsBoth(levels: seq<Level>, p: Plate, i: nat, j: nat)
    requires IsFirstMatch(levels, p.level, p.groupId, i, j)
    ensures var r := RegisterPlate(RegisterPlate(levels, p), p);
            i < |r| && j < |r[i].groups| &&
            r[i].groups[j].plates == levels[i].groups[j].plates + [p, p]
  {
    var once := RegisterPlate(levels, p);
    assert once == AppendPlate(levels, i, j, p);
    assert forall i', j' :: GroupMatches(once, p.level, p.groupId, i', j') <==>
      GroupMatches(levels, p.level, p.groupId, i', j');
    assert IsFirstMatch(once, p.level, p.groupId, i, j);
    assert levels[i].groups[j].plates + [p] + [p] == levels[i].groups[j].plates + [p, p];
  }

  // ---------------------------------------------------------------------------
  // PlateActivated
  // ---------------------------------------------------------------------------

  /** One `SetActive` call made by the manager. */
  datatype Effect = Deactivate(obj: ObjId) | Activate(obj: ObjId)

  /** Group `g` opens door `d` for a plate of group `p.groupId` activated under `a`. */
  predicate OpensGroupDoor(g: Group, p: Plate, a: set<PlateId>, d: ObjId) {
    g.groupId == p.groupId && GroupDone(g.plates, a) && g.intermediateDoor == Some(d)
  }

  /** The intermediate-door loop of `PlateActivated` over one level's groups. */
  function GroupEffects(groups: seq<Group>, p: Plate, a: set<PlateId>): (es: seq<Effect>)
    ensures forall e :: e in es ==> e.Deactivate?
    ensures forall d: ObjId :: Deactivate(d) in es <==>
              exists j :: 0 <= j < |groups| && OpensGroupDoor(groups[j], p, a, d)
  {
    if |groups| == 0 then []
    else
      var g := groups[0];
      var here := if g.groupId == p.groupId && AreAllGroupPlatesActivated(g.plates, a) && g.intermediateDoor.Some?
                  then [Deactivate(g.intermediateDoor.value)] else [];
      var rest := GroupEffects(groups[1..], p, a);
      assert forall j :: 1 <= j < |groups| ==> groups[1..][j - 1] == groups[j];
      here + rest
  }

  /** `ActivateObjects`: enable every non-null object, in list order. */
  function ObjectEffects(objects: seq<Option<ObjId>>): (es: seq<Effect>)
    ensures forall e :: e in es ==> e.Activate?
    ensures forall o: ObjId :: Activate(o) in es <==> Some(o) in objects
  {
    if |objects| == 0 then []
    else
      assert objects == [objects[0]] + objects[1..];
      (if objects[0].Some? then [Activate(objects[0].value)] else []) + ObjectEffects(objects[1..])
  }

  /** Level `l` enables object `o` when plate `p` is activated under `a`. */
  predicate EnablesObject(l: Level, p: Plate, a: set<PlateId>, o: ObjId) {
    l.level == p.level && l.level == 4 && GroupsDone(l.groups, a) && Some(o) in l.activeObjects
  }

  predicate OpensGroupDoorIn(l: Level, p: Plate, a: set<PlateId>, d: ObjId) {
    l.level == p.level && exists j :: 0 <= j < |l.groups| && OpensGroupDoor(l.groups[j], p, a, d)
  }

  /** The outer loop of `PlateActivated` over levels with the plate's level number. */
  function LevelEffects(levels: seq<Level>, p: Plate, a: set<PlateId>): (es: seq<Effect>)
    ensures forall d: ObjId :: Deactivate(d) in es <==>
              exists i :: 0 <= i < |levels| && OpensGroupDoorIn(levels[i], p, a, d)
    ensures forall o: ObjId :: Activate(o) in es <==>
              exists i :: 0 <= i < |levels| && EnablesObject(levels[i], p, a, o)
  {
    if |levels| == 0 then []
    else
      var l := levels[0];
      var here := if l.level == p.level then
                    GroupEffects(l.groups, p, a) +
                    (if l.level == 4 && AreAllLevelPlatesActivated(l, a) then ObjectEffects(l.activeObjects) else [])
                  else [];
      var rest := LevelEffects(levels[1..], p, a);
      assert forall i :: 1 <= i < |levels| ==> levels[1..][i - 1] == levels[i];
      here + rest
  }

  /** `OpenFinalDoor`: deactivate every level's non-null final door. */
  function FinalDoorEffects(levels: seq<Level>): (es: seq<Effect>)
    ensures forall e :: e in es ==> e.Deactivate?
    ensures forall d: ObjId :: Deactivate(d) in es <==> exists i :: 0 <= i < |levels| && levels[i].finalDoor == Some(d)
  {
    if |levels| == 0 then []
    else
      assert forall i :: 1 <= i < |levels| ==> levels[1..][i - 1] == levels[i];
      (if levels[0].finalDoor.Some? then [Deactivate(levels[0].finalDoor.value)] else []) +
      FinalDoorEffects(levels[1..])
  }

  /** Every `SetActive` call `PlateActivated` makes, in the order it makes them. */
  function PlateActivatedEffects(levels: seq<Level>, p: Plate, a: set<PlateId>): seq<Effect> {
    LevelEffects(levels, p, a) + (if AreAllPlatesActivated(levels, a) then FinalDoorEffects(levels) else [])
  }

  /** Performs the `SetActive` calls on the scene, left to right. */
  function ApplyEffects(scene: set<ObjId>, es: seq<Effect>): (r: set<ObjId>)
    decreases |es|
    ensures forall x :: x in r && x !in scene ==> Activate(x) in es
    ensures forall x :: x in scene && x !in r ==> Deactivate(x) in es
    ensures forall x :: Activate(x) !in es ==> (x in r <==> x in scene && Deactivate(x) !in es)
    ensures forall x :: Deactivate(x) !in es ==> (x in r <==> x in scene || Activate(x) in es)
  {
    if |es| == 0 then scene
    else
      assert es == [es[0]] + es[1..];
      match es[0]
      case Deactivate(o) => ApplyEffects(scene - {o}, es[1..])
      case Activate(o) => ApplyEffects(scene + {o}, es[1..])
  }

  /** `PlateActivated`: the manager's reaction to one plate's activation. */
  function PlateActivated(w: World, p: Plate): (r: World)
    ensures r.levels == w.levels && r.activated == w.activated
    ensures forall x :: x in r.scene && x !in w.scene ==>
              exists i :: 0 <= i < |w.levels| && EnablesObject(w.levels[i], p, w.activated, x)
    ensures forall x :: x in w.scene && x !in r.scene ==> IsDoor(w.levels, x)
  {
    var es := PlateActivatedEffects(w.levels, p, w.activated);
    var scene := ApplyEffects(w.scene, es);
    assert forall x :: Activate(x) in es ==> Activate(x) in LevelEffects(w.levels, p, w.activated);
    assert forall x :: Deactivate(x) in es ==> IsDoor(w.levels, x) by {
      forall x | Deactivate(x) in es ensures IsDoor(w.levels, x) {
        if Deactivate(x) in LevelEffects(w.levels, p, w.activated) {
          var i :| 0 <= i < |w.levels| && OpensGroupDoorIn(w.levels[i], p, w.activated, x);
          var j :| 0 <= j < |w.levels[i].groups| && OpensGroupDoor(w.levels[i].groups[j], p, w.activated, x);
          assert IsIntermediateDoor(w.levels, x, i, j);
        }
      }
    }
    w.(scene := scene)
  }

  predicate IsIntermediateDoor(levels: seq<Level>, x: ObjId, i: int, j: int) {
    0 <= i < |levels| && 0 <= j < |levels[i].groups| && levels[i].groups[j].intermediateDoor == Some(x)
  }

  /** Some level lists `x` as an intermediate or a final door. */
  ghost predicate IsDoor(levels: seq<Level>, x: ObjId) {
    (exists i, j :: IsIntermediateDoor(levels, x, i, j)) ||
    (exists i :: 0 <= i < |levels| && levels[i].finalDoor == Some(x))
  }

  /** Some level lists `x` among the objects a completed level 4 enables. */
  ghost predicate IsLevelObject(levels: seq<Level>, x: ObjId) {
    exists i :: 0 <= i < |levels| && Some(x) in levels[i].activeObjects
  }

  /** The scene wires doors and enabled objects to distinct game objects. */
  ghost predicate DoorsAndObjectsDistinct(levels: seq<Level>) {
    forall x :: IsDoor(levels, x) ==> !IsLevelObject(levels, x)
  }

  /** Door `d` ends deactivated exactly when it was already, or its group is
      the activated plate's complete group, or everything is complete and it
      is a final door. */
  lemma DoorOpensIff(w: World, p: Plate, d: ObjId)
    requires DoorsAndObjectsDistinct(w.levels)
    requires IsDoor(w.levels, d)
    ensures d !in PlateActivated(w, p).scene <==>
              d !in w.scene ||
              (exists i :: 0 <= i < |w.levels| && OpensGroupDoorIn(w.levels[i], p, w.activated, d)) ||
              (AreAllPlatesActivated(w.levels, w.activated) &&
               exists i :: 0 <= i < |w.levels| && w.levels[i].finalDoor == Some(d))
  {
    var es := PlateActivatedEffects(w.levels, p, w.activated);
    var le := LevelEffects(w.levels, p, w.activated);
    assert Deactivate(d) in es <==> (Deactivate(d) in le ||
      (AreAllPlatesActivated(w.levels, w.activated) && Deactivate(d) in FinalDoorEffects(w.levels)));
  }

  /** Object `o` ends active exactly when it was already, or the plate
      completed level 4 and that level lists `o`. */
  lemma ObjectEnabledIff(w: World, p: Plate, o: ObjId)
    requires !IsDoor(w.levels, o)
    ensures o in PlateActivated(w, p).scene <==>
              o in w.scene ||
              (p.level == 4 &&
               exists i :: 0 <= i < |w.levels| && EnablesObject(w.levels[i], p, w.activated, o))
  {
    var es := PlateActivatedEffects(w.levels, p, w.activated);
    var le := LevelEffects(w.levels, p, w.activated);
    if Deactivate(o) in es {
      if Deactivate(o) in le {
        var i :| 0 <= i < |w.levels| && OpensGroupDoorIn(w.levels[i], p, w.activated, o);
        var j :| 0 <= j < |w.levels[i].groups| && OpensGroupDoor(w.levels[i].groups[j], p, w.activated, o);
        assert IsIntermediateDoor(w.levels, o, i, j);
      }
      assert false;
    }
    assert Activate(o) in es <==> Activate(o) in le;
  }

  /** A door that is open stays open after any later activation, since the
      manager only ever enables listed level objects. */
  lemma OpenDoorStaysOpen(w: World, p: Plate, d: ObjId)
    requires d !in w.scene
    requires !IsLevelObject(w.levels, d)
    ensures d !in PlateActivated(w, p).scene
  {
  }

  /** `PressurePlate.ActivatePlate`: the plate latches on its first
      activation and only then reports to the manager. */
  function Press(w: World, p: Plate): (r: World)
    ensures p.id in r.activated && r.activated == w.activated + {p.id}
    ensures p.id in w.activated ==> r == w
    ensures r.levels == w.levels
  {
    if p.id in w.activated then w
    else PlateActivated(w.(activated := w.activated + {p.id}), p)
  }

  /** Pressing a plate a second time changes nothing. */
  lemma PressIdempotent(w: World, p: Plate)
    ensures Press(Press(w, p), p) == Press(w, p)
  {
  }
}

=== FILE: reset_position.dfy ===
/** `ResetPositionOnTrigger`: a volume in the main menu scene that puts the
    robot back where it stood when the scene started.  The robot's
    transform and rigidbody are one record; a missing reference is a
    `has…` flag that is false. */
module ResetPosition {
  import opened Common

  /** A `Quaternion`, component by component. */
  datatype Quat = Quat(x: real, y: real, z: real, w: real)

  /** `default(Quaternion)`: the rotation field before anything is stored. */
  const NoRotation: Quat := Quat(0.0, 0.0, 0.0, 0.0)

  /** The robot's pose and its rigidbody's velocities. */
  datatype Body = Body(position: Vec3, rotation: Quat, velocity: Vec3, angularVelocity: Vec3)

  /** Whether the `robot` reference is assigned, and whether the robot
      carries a `Rigidbody`. */
  datatype Setup = Setup(hasRobot: bool, hasRigidbody: bool)

  /** The stored initial pose. */
  datatype Trigger = Trigger(initialPosition: Vec3, initialRotation: Quat)

  /** `Start`: the robot's pose at start becomes the initial pose; with no
      robot the fields keep their defaults. */
  function Start(setup: Setup, robot: Body): (r: Trigger)
    ensures setup.hasRobot ==> r.initialPosition == robot.position && r.initialRotation == robot.rotation
    ensures !setup.hasRobot ==> r == Trigger(Zero3, NoRotation)
  {
    if setup.hasRobot then Trigger(robot.position, robot.rotation) else Trigger(Zero3, NoRotation)
  }

  /** `ResetRobotPosition`: pose back to the initial one and, with a
      rigidbody, both velocities zeroed. */
  function ResetRobotPosition(t: Trigger, setup: Setup, robot: Body): (r: Body)
    ensures !setup.hasRobot ==> r == robot
    ensures setup.hasRobot ==> r.position == t.initialPosition && r.rotation == t.initialRotation
    ensures setup.hasRobot && setup.hasRigidbody ==> r.velocity == Zero3 && r.angularVelocity == Zero3
    ensures !setup.hasRigidbody ==> r.velocity == robot.velocity && r.angularVelocity == robot.angularVelocity
  {
    if !setup.hasRobot then robot
    else
      var posed := robot.(position := t.initialPosition, rotation := t.initialRotation);
      if setup.hasRigidbody then posed.(velocity := Zero3, angularVelocity := Zero3) else posed
  }

  /** `OnTriggerEnter`: only the robot's own transform resets it; with no
      robot assigned no collider can match. */
  function OnTriggerEnter(t: Trigger, setup: Setup, robot: Body, isRobot: bool): (r: Body)
    ensures !(isRobot && setup.hasRobot) ==> r == robot
    ensures isRobot && setup.hasRobot ==> r.position == t.initialPosition && r.rotation == t.initialRotation
  {
    if isRobot && setup.hasRobot then ResetRobotPosition(t, setup, robot) else robot
  }

  /** Resetting twice is resetting once. */
  lemma ResetIdempotent(t: Trigger, setup: Setup, robot: Body)
    ensures ResetRobotPosition(t, setup, ResetRobotPosition(t, setup, robot)) == ResetRobotPosition(t, setup, robot)
  {
  }

  /** Wherever the robot has gone since the scene started, a reset puts it
      in the pose it had at `Start`. */
  lemma ResetRestoresStartPose(setup: Setup, atStart: Body, later: Body)
    requires setup.hasRobot
    ensures var r := ResetRobotPosition(Start(setup, atStart), setup, later);
            r.position == atStart.position && r.rotation == atStart.rotation
  {
  }

  /** Resetting a robot at rest in its start pose changes nothing. */
  lemma ResetAtStartPoseIsIdentity(setup: Setup, robot: Body)
    requires robot.velocity == Zero3 && robot.angularVelocity == Zero3
    ensures ResetRobotPosition(Start(setup, robot), setup, robot) == robot
  {
  }
}

=== FILE: wind_zone.dfy ===
/** `SwayingWindZone`: a trigger volume in module 1 that pushes every
    rigidbody inside it.  Rigidbodies are ids; a collider without one is
    `None`.  The sine sway of the force is computed from the clock and is a
    parameter here. */
module WindZone {
  import opened Common

  type BodyId = nat

  /** `affectedRigidbodies`, in the order the bodies entered. */
  datatype Zone = Zone(affected: seq<BodyId>)

  /** One `AddForce` call. */
  datatype Push = Push(body: BodyId, force: Vec3)

  /** `OnTriggerEnter`: a body is added at the end when it is not already
      listed. */
  function OnTriggerEnter(z: Zone, rb: Option<BodyId>): (r: Zone)
    ensures rb.None? || rb.value in z.affected ==> r == z
    ensures rb.Some? && rb.value !in z.affected ==> r.affected == z.affected + [rb.value]
    ensures forall b :: b in r.affected <==> b in z.affected || rb == Some(b)
    ensures NoDuplicates(z.affected) ==> NoDuplicates(r.affected)
  {
    if rb.Some? && rb.value !in z.affected then
      if NoDuplicates(z.affected) then
        AppendKeepsNoDuplicates(z.affected, rb.value);
        Zone(z.affected + [rb.value])
      else Zone(z.affected + [rb.value])
    else z
  }

  /** Appending an absent element keeps a list duplicate-free. */
  lemma AppendKeepsNoDuplicates(s: seq<BodyId>, x: BodyId)
    requires NoDuplicates(s) && x !in s
    ensures NoDuplicates(s + [x])
  {
    forall i | 0 <= i < |s + [x]| ensures (s + [x])[i] !in (s + [x])[i+1..] {
      AppendKeepsAt(s, x, i);
    }
  }

  /** The element at `i` of the extended list does not recur after it. */
  lemma AppendKeepsAt(s: seq<BodyId>, x: BodyId, i: nat)
    requires NoDuplicates(s) && x !in s && i < |s| + 1
    ensures (s + [x])[i] !in (s + [x])[i+1..]
  {
    if i < |s| {
      assert (s + [x])[i+1..] == s[i+1..] + [x];
    }
  }

  /** `OnTriggerExit`: a listed body is removed with `List.Remove`. */
  function OnTriggerExit(z: Zone, rb: Option<BodyId>): (r: Zone)
    ensures rb.None? || rb.value !in z.affected ==> r == z
    ensures rb.Some? ==> multiset(r.affected) == multiset(z.affected) - multiset{rb.value}
    ensures NoDuplicates(z.affected) ==> NoDuplicates(r.affected)
    ensures NoDuplicates(z.affected) ==> forall b :: b in r.affected <==> b in z.affected && rb != Some(b)
  {
    if rb.Some? && rb.value in z.affected then
      RemoveFirstMultiset(z.affected, rb.value);
      if NoDuplicates(z.affected) then
        RemoveFirstNoDuplicates(z.affected, rb.value);
        Zone(RemoveFirst(z.affected, rb.value))
      else Zone(RemoveFirst(z.affected, rb.value))
    else
      assert rb.Some? ==> multiset(z.affected)[rb.value] == 0;
      z
  }

  /** `List.Remove` of an element appended to a list without it gives the
      list back. */
  lemma {:induction false} RemoveAppended(s: seq<BodyId>, x: BodyId)
    requires x !in s
    ensures RemoveFirst(s + [x], x) == s
  {
    if |s| > 0 {
      assert (s + [x])[1..] == s[1..] + [x];
      RemoveAppended(s[1..], x);
      assert s == [s[0]] + s[1..];
    }
  }

  /** A body that was not in the zone and enters and leaves again leaves the
      list exactly as it was. */
  lemma EnterThenExitRestores(z: Zone, b: BodyId)
    requires b !in z.affected
    ensures OnTriggerExit(OnTriggerEnter(z, Some(b)), Some(b)) == z
  {
    RemoveAppended(z.affected, b);
  }

  /** `FixedUpdate`: one push of the current wind per listed body, in list
      order. */
  function FixedUpdate(z: Zone, wind: Vec3): (r: seq<Push>)
    ensures |r| == |z.affected|
    ensures forall i :: 0 <= i < |r| ==> r[i] == Push(z.affected[i], wind)
  {
    seq(|z.affected|, i requires 0 <= i < |z.affected| => Push(z.affected[i], wind))
  }

  /** The bodies a list of pushes reaches, in order. */
  function Targets(ps: seq<Push>): (r: seq<BodyId>)
    ensures |r| == |ps|
    ensures forall i :: 0 <= i < |ps| ==> r[i] == ps[i].body
  {
    if |ps| == 0 then [] else [ps[0].body] + Targets(ps[1..])
  }

  /** In a list without duplicates every element occurs exactly once. */
  lemma {:induction false} OccursOnce(s: seq<BodyId>, b: BodyId)
    requires NoDuplicates(s) && b in s
    ensures multiset(s)[b] == 1
  {
    assert s == [s[0]] + s[1..];
    if s[0] == b {
      assert multiset(s[1..])[b] == 0;
    } else {
      assert NoDuplicates(s[1..]) by {
        forall i | 0 <= i < |s[1..]| ensures s[1..][i] !in s[1..][i+1..] {
          assert s[1..][i+1..] == s[i+2..];
        }
      }
      OccursOnce(s[1..], b);
    }
  }

  /** Because the list never holds a body twice, each physics step pushes
      every body in the zone exactly once and nothing outside it. */
  lemma PushedOncePerStep(z: Zone, wind: Vec3, b: BodyId)
    requires NoDuplicates(z.affected)
    ensures multiset(Targets(FixedUpdate(z, wind)))[b] == if b in z.affected then 1 else 0
  {
    assert Targets(FixedUpdate(z, wind)) == z.affected;
    if b in z.affected {
      OccursOnce(z.affected, b);
    }
  }

  datatype Event = Enter(rb: Option<BodyId>) | Exit(rb: Option<BodyId>)

  function Step(z: Zone, e: Event): Zone {
    match e
    case Enter(rb) => OnTriggerEnter(z, rb)
    case Exit(rb) => OnTriggerExit(z, rb)
  }

  function Run(z: Zone, events: seq<Event>): Zone
    decreases |events|
  {
    if |events| == 0 then z else Run(Step(z, events[0]), events[1..])
  }

  /** Whatever enters and leaves, a zone that starts empty never lists a
      body twice. */
  lemma {:induction false} NeverDuplicates(z: Zone, events: seq<Event>)
    requires NoDuplicates(z.affected)
    ensures NoDuplicates(Run(z, events).affected)
    decreases |events|
  {
    if |events| > 0 {
      NeverDuplicates(Step(z, events[0]), events[1..]);
    }
  }
}
